=== FILE: README.md ===
# Workspace, membership and billing core of a SaaS starter

This project models the server-side core of a multi-tenant SaaS starter in Dafny. In that starter, users belong to workspaces through role-scoped memberships (OWNER, ADMIN, MEMBER). Membership grows through e-mailed invites that move PENDING → ACCEPTED | CANCELED | EXPIRED. Each workspace carries a plan and a Stripe billing state, reconciled from checkout, the billing portal and webhooks. The model covers these parts:

- **Workspace engine** (`workspaces.dfy`, `slugs.dfy`): `slugify` and the slug search, first sign-in provisioning, workspace creation, the invite lifecycle, role changes and removals that protect owners, the default-workspace switch and rename.
- **Billing engine** (`billing.dfy`): the live/stub decision, stub checkout and portal, customer-id caching, and the webhook reducer.
- **Rate limiter** (`ratelimit.dfy`): the fixed-window bucket map and the client key derived from request headers.
- **Server actions** (`actions.dfy`): authenticate → validate → rate-limit → engine, with every failure turned into a failed result.
- **Dashboard read model** (`dashboard.dfy`) and **avatar initials** (`avatar.dfy`).
- **Properties** (`invariants.dfy`, `billing_properties.dfy`, `action_properties.dfy`): invariants kept across operations, replay and stability lemmas, and the consequences of the un-awaited rate-limit call.

The model is shaped as follows:

- **The store.** The database is an immutable `Store` record (`domain.dfy`). It holds users in a map and workspaces, memberships, invites and the audit log as sequences in creation order. A "first row ordered by creation" query is therefore the first match in a sequence.
- **Steps.** Every engine operation maps a store to a `Step`: the store after the call, plus the value returned or the error thrown. Writes made before a throw stay visible in that store. Examples: an invite marked EXPIRED before "Invitation has expired", an invite stored before a mail delivery error, a customer id cached before a failed session creation.
- **Parameters.** Fresh ids, tokens and random slug suffixes come in as parameters. So do the clock, the mail transport's answer and each Stripe reply.
- **JavaScript semantics.** A JavaScript truthiness test on an optional string is `Text.Present`. `String.prototype.trim` removes exactly the ECMAScript whitespace and line-terminator code points.

## Model

| member | source | states |
|---|---|---|
| Text.Trim | src/lib/rate-limit.ts:39 | The result is an infix of the input; everything cut off before and after it is JavaScript whitespace; it neither starts nor ends with whitespace. Together these fix the result, and an already trimmed string is returned unchanged |
| Text.TrimStart | src/lib/rate-limit.ts:39 | the result is a suffix of the input, what was dropped is whitespace, and it does not start with whitespace |
| Text.TrimEnd | src/lib/rate-limit.ts:39 | the result is a prefix of the input, what was dropped is whitespace, and it does not end with whitespace |
| Text.Utf16Length | src/server/workspaces.ts:408 | JavaScript `length` counts UTF-16 code units: between one and two per character, equal to the character count exactly when no character lies outside the Basic Multilingual Plane, and twice it exactly when every character does |
| Text.ToLower | src/server/workspaces.ts:197 | the same length, each character lower-cased (ASCII letters only) |
| Text.ToUpper | src/components/ui/avatar.tsx:16 | the same length, each character upper-cased (ASCII letters only) |
| Text.Split | src/components/ui/avatar.tsx:11 | `split` yields at least one part and no part contains the separator; `Text.JoinSplit` is its inverse |
| Text.JoinSplit | src/lib/rate-limit.ts:39 | splitting on a separator and joining the parts with it gives back the original string |
| Text.FirstSegment | src/lib/rate-limit.ts:39 | `split(sep)[0]` is the longest prefix free of the separator: it is followed by the separator or is the whole string |
| Text.NatToString | src/server/workspaces.ts:29 | the numeric slug suffix is a non-empty digit string without a leading zero that reads back as the number |
| Slugs.Hyphenate | src/server/workspaces.ts:13 | The output uses only `[a-z0-9-]` and never contains `--`. Its alphanumerics are exactly the input's, in order, so only hyphens stand between them. `Slugs.HyphenateAlnumRun` and `Slugs.HyphenateSeparatorRun` show how each run maps |
| Slugs.HyphenateAlnumRun | src/server/workspaces.ts:13 | a run of alphanumerics is copied unchanged, and the rest is hyphenated as after an alphanumeric |
| Slugs.HyphenateSeparatorRun | src/server/workspaces.ts:13 | a whole run of characters outside `[a-z0-9]` followed by an alphanumeric or the end becomes exactly one hyphen |
| Slugs.DropLeadingHyphens | src/server/workspaces.ts:14 | `^-+` removal: the result is a suffix of the input, only hyphens were dropped, and it does not start with `-` |
| Slugs.DropTrailingHyphens | src/server/workspaces.ts:14 | `-+$` removal: the result is a prefix of the input, only hyphens were dropped, and it does not end with `-` |
| Slugs.TrimHyphens | src/server/workspaces.ts:14 | The result is an infix of the input with only hyphens cut off at either end, so it keeps every letter and digit in order. It stays slug text and neither starts nor ends with `-` |
| Slugs.KeepAlnumsConcat | src/server/workspaces.ts:13-15 | the letters and digits of a concatenation are those of its parts, in order, which carries the letters and digits through each shaping step |
| Slugs.Slugify | src/server/workspaces.ts:10-16 | A slug uses only `[a-z0-9-]`, is at most 60 long, never starts with `-` and never contains `--`. Its letters and digits are a prefix of the lower-cased name's. They are all of them when the slug is shorter than 60 or the name is at most 60 long |
| Slugs.SlugifyFixesCleanSlugs | src/server/workspaces.ts:10-16 | a clean slug (alphabet, no `--`, no hyphen at either end, at most 60 long) maps to itself |
| Slugs.SlugifyNotIdempotent | src/server/workspaces.ts:14-15 | trimming happens before truncation: 59 letters then `-b` shape to a slug ending in `-`, and shaping again gives a different slug |
| Slugs.SlugBase | src/server/workspaces.ts:19 | the search base is the shaped name whenever that is non-empty, and `workspace-<random>` exactly when shaping leaves nothing; it is never empty |
| Slugs.Candidate | src/server/workspaces.ts:23-33 | every candidate starts with the base; only iteration 0 is the base itself, and every later candidate continues it with `-` |
| Slugs.NumberedCandidatesDistinct | src/server/workspaces.ts:23-33 | the base and `base-1` … `base-10` are pairwise different, so the numbered attempts never retry a slug |
| Slugs.SearchFrom | src/server/workspaces.ts:23-33 | the search returns the first candidate from the given iteration on that is not taken, and returns nothing only when every remaining candidate is taken |
| Slugs.GenerateWorkspaceSlug | src/server/workspaces.ts:18-34 | the slug is not taken. It is the first free one among the base, base-1 … base-10 and base-&lt;random&gt;. The base is `workspace-<id>` when the shaped name is empty |
| Domain.Record | src/server/workspaces.ts:150-168 | an audit write appends exactly one entry and changes nothing else |
| Domain.FindMember | src/server/workspaces.ts:171-173 | `findFirst`: the earliest row matching the query, and none exactly when no row matches |
| Domain.FindInvite | src/server/workspaces.ts:210-212 | `findFirst` on invites: the earliest matching invite, and none exactly when no invite matches |
| Domain.FindWorkspace | src/server/billing.ts:35-43 | the earliest workspace matching the query, and none exactly when no workspace matches |
| Domain.CountMembers | src/server/workspaces.ts:434-441 | the count is zero exactly when no membership row matches |
| Domain.CountInvites | src/server/workspaces.ts:521-528 | the `updateMany` count is zero exactly when no invite matches |
| Domain.RemoveAt | src/server/workspaces.ts:506-508 | deleting one row keeps every other row, in order, and shortens the table by one |
| Workspaces.WithDefault | src/server/workspaces.ts:36-41 | setting the default pointer changes only that user's pointer |
| Workspaces.AcceptUrl | src/server/workspaces.ts:256 | the link is the application URL, then `/invites/`, then the token, which is its tail |
| Workspaces.DisplayName | src/server/workspaces.ts:72 | The display name is never empty. It is the trimmed name when that is non-empty. Otherwise it is the part of the e-mail before its first `@` (a prefix free of `@`) when that is non-empty. Otherwise it is "Workspace" |
| Workspaces.EnsureWorkspaceForUser | src/server/workspaces.ts:43-104 | An unknown user, or one with a default, causes no change. An existing membership of any status, the earliest, becomes the default and nothing is created. Otherwise exactly one workspace `<display name>'s Team` is created, its slug the search result for the display name. The user becomes its ACTIVE OWNER and default, and one `workspace.created` entry with `{ reason: "auto-provision" }` is appended. It never fails except when the slug search is exhausted |
| Workspaces.ProvisionWorkspace | src/server/workspaces.ts:72-101 | Provisioning fails exactly when the slug search for the display name is exhausted, changing nothing. Otherwise it appends one workspace slugged from the display name, one ACTIVE OWNER membership and the `workspace.created` entry with `{ reason: "auto-provision" }`, and makes the new workspace the default |
| Workspaces.CreateWorkspace | src/server/workspaces.ts:116-148 | The name is not checked. It fails only on an exhausted slug search, or on an unknown user (a foreign-key failure of the nested membership create), and failures change nothing. On success it creates a FREE/NONE workspace whose slug is the search result for the given name. The creator becomes ACTIVE OWNER and default, and one `workspace.created` entry with `{ name }` is appended |
| Workspaces.AssertCanManageWorkspace | src/server/workspaces.ts:170-184 | "Not a member" exactly when the actor has no ACTIVE row. Otherwise the earliest such row decides: OWNER or ADMIN gives `Ok` with that role, MEMBER gives "Insufficient permissions" |
| Workspaces.InviteToWorkspace | src/server/workspaces.ts:186-267 | A non-manager gets the authorization error with no change. "Already a member" exactly when a user whose stored e-mail equals the normalised one holds a row. Otherwise a PENDING invite for (workspace, e-mail) is returned as is, undelivered, with no write. Without one, a new invite is always stored: trimmed lower-cased e-mail, PENDING, now + 48 h, the requested role. It is followed by a `workspace.invite.created` entry targeting the e-mail, with `{ inviteId, role }`. The call succeeds unless delivery throws, with the accept URL `APP_URL/invites/<token>` and `delivered` exactly when mail was delivered |
| Workspaces.UpsertMember | src/server/workspaces.ts:325-342 | after the upsert an ACTIVE row with the invite's role exists. An existing (user, workspace) row is overwritten in place and every other row is kept. Otherwise one row is appended |
| Workspaces.AcceptInvite | src/server/workspaces.ts:290-362 | Failures come in this order: unknown token, not PENDING, expiry strictly before now (the invite is first marked EXPIRED), no user e-mail, case-insensitive mismatch. No failure touches memberships, users or workspaces. Success holds exactly when none applies: the upserted membership, the invite ACCEPTED, the workspace as default, and an appended `workspace.invite.accepted` entry with `{ inviteId }`. The workspace id is returned |
| Workspaces.CancelMatching | src/server/workspaces.ts:521-528 | the `updateMany` cancels exactly the invites matching id, workspace and PENDING together and leaves every other invite alone |
| Workspaces.CancelInvite | src/server/workspaces.ts:518-540 | A non-manager gets the authorization error with no change. For a manager: success exactly when some invite matches id, workspace and PENDING; "Invite not found" with no write otherwise, even if the id lives in another workspace. On success only matching invites become CANCELED, and one `workspace.invite.canceled` entry is appended |
| Workspaces.SwitchDefaultWorkspace | src/server/workspaces.ts:392-402 | succeeds exactly when the user has an ACTIVE row in the workspace; it then changes only the default pointer and writes no audit entry |
| Workspaces.RenameWorkspace | src/server/workspaces.ts:404-426 | A non-manager gets the authorization error. A trimmed name under two UTF-16 code units is "too short". Otherwise the rename succeeds exactly when the workspace exists ("Record to update not found." when not). It sets the trimmed name and appends a `workspace.renamed` entry targeting the workspace, with the trimmed `{ name }`. Every other field and table is unchanged |
| Workspaces.EnsureRoleChangeAllowed | src/server/workspaces.ts:428-447 | an ADMIN may neither grant nor revoke OWNER, and an OWNER may be demoted only while another ACTIVE OWNER exists; both verdicts are stated as if-and-only-if |
| Workspaces.UpdateMemberRole | src/server/workspaces.ts:449-489 | A failed authorization is passed on unchanged. An unchanged role returns the row with no check and no write. Otherwise the role rules decide. On success exactly that row's role changes, and the log gains one entry: `workspace.member.role_changed`, with the actor, the target member, `{ role }` and the time. Every failure leaves the store unchanged |
| Workspaces.RemoveMember | src/server/workspaces.ts:491-516 | A failed authorization is passed on unchanged. For a manager and an existing target row, removal succeeds exactly when the row is not OWNER ("Cannot remove workspace owner" otherwise). Success deletes exactly that row and appends one `workspace.member.removed` entry; failures change nothing |
| Invariants.ManagerPasses | src/server/workspaces.ts:170-184 | with one row per (user, workspace), an ACTIVE OWNER or ADMIN passes the management check with its role and an ACTIVE MEMBER is refused |
| Invariants.UpdateMemberRoleKeepsOwner | src/server/workspaces.ts:428-489 | a workspace with an ACTIVE OWNER still has one after any role change |
| Invariants.RemoveMemberKeepsOwner | src/server/workspaces.ts:491-516 | a workspace with an ACTIVE OWNER still has one after any removal |
| Invariants.AcceptInviteKeepsOtherOwner | src/server/workspaces.ts:324-350 | accepting keeps a workspace owned when an ACTIVE OWNER other than the accepting user exists |
| Invariants.InviteStoresNewInvite | src/server/workspaces.ts:231-267 | Without a member or pending invite for the e-mail, a manager's invite appends the new PENDING invite for every mail outcome, touching no membership or user. It succeeds exactly when delivery does not throw, with `delivered` exactly when mail was delivered |
| Invariants.SoleOwnerCanInviteOwnEmail | src/server/workspaces.ts:196-246 | the stored e-mail is compared exactly, so a sole owner stored as `Bob@x.com` can invite `bob@x.com` |
| Invariants.AcceptInviteCanDemoteSoleOwner | src/server/workspaces.ts:324-342 | Concrete run: the sole owner invites their own e-mail as MEMBER and accepts. The upsert overwrites the OWNER row, so the workspace is left without an ACTIVE OWNER |
| Invariants.EnsureWorkspaceKeepsOwners | src/server/workspaces.ts:43-104 | provisioning keeps every workspace owned |
| Invariants.CreateWorkspaceKeepsOwners | src/server/workspaces.ts:116-148 | creation keeps every workspace owned, the new one included |
| Invariants.RenameWorkspaceKeepsOwners | src/server/workspaces.ts:404-426 | renaming keeps every workspace owned |
| Invariants.EnsureWorkspaceKeepsWellFormed | src/server/workspaces.ts:43-104 | with a fresh workspace id, provisioning keeps the uniqueness constraints |
| Invariants.CreateWorkspaceKeepsWellFormed | src/server/workspaces.ts:116-148 | with a fresh workspace id, creation keeps the uniqueness constraints: ids, slugs, membership keys, invite ids and tokens, one PENDING invite per (workspace, e-mail) |
| Invariants.InviteToWorkspaceKeepsWellFormed | src/server/workspaces.ts:210-246 | with a fresh invite id and token, inviting keeps at most one PENDING invite per (workspace, e-mail) and the other constraints |
| Invariants.UpsertMemberKeepsKeysUnique | src/server/workspaces.ts:325-342 | the upsert keeps (user, workspace) keys unique |
| Invariants.AcceptInviteKeepsWellFormed | src/server/workspaces.ts:290-362 | accepting, or expiring, an invite keeps the uniqueness constraints |
| Invariants.CancelInviteKeepsWellFormed | src/server/workspaces.ts:518-540 | cancelling keeps the uniqueness constraints |
| Invariants.RenameWorkspaceKeepsWellFormed | src/server/workspaces.ts:404-426 | renaming keeps the uniqueness constraints; the slug is immutable |
| Invariants.SwitchDefaultWorkspaceKeepsInvariants | src/server/workspaces.ts:392-402 | switching the default keeps the uniqueness constraints and every workspace's ACTIVE OWNER |
| Invariants.SwitchBackRestores | src/server/workspaces.ts:392-402 | switching to another allowed workspace and back restores the store exactly, so the default pointer is the only state a switch writes |
| Invariants.UpdateMemberRoleKeepsWellFormed | src/server/workspaces.ts:449-489 | role changes keep the uniqueness constraints |
| Invariants.RemoveMemberKeepsWellFormed | src/server/workspaces.ts:491-516 | removals keep the uniqueness constraints |
| Invariants.InvitesEvolveTransitive | src/server/workspaces.ts:299-301 | "invites only leave PENDING and keep their identity" composes over a sequence of calls |
| Invariants.InviteToWorkspaceEvolvesInvites | src/server/workspaces.ts:210-246 | inviting only appends, and only PENDING invites |
| Invariants.AcceptInviteEvolvesInvites | src/server/workspaces.ts:299-350 | accepting changes only a PENDING invite's status; a settled invite is never changed again |
| Invariants.CancelInviteEvolvesInvites | src/server/workspaces.ts:518-540 | cancelling changes only PENDING invites' status |
| Invariants.ReinviteReturnsLapsedInvite | src/server/workspaces.ts:210-229 | the reuse check ignores expiry: re-inviting returns the lapsed PENDING invite with no write, and accepting that invite fails as expired |
| Invariants.EnsureWorkspaceIdempotent | src/server/workspaces.ts:43-104 | after a successful provisioning call, a second call, with any fresh ids, draws and clock, changes nothing and creates nothing |
| Invariants.ProvisionMakesFirstMembership | src/server/workspaces.ts:67-90 | after provisioning, the user's earliest membership is in the new workspace |
| Billing.GetBillingRuntimeInfo | src/server/billing.ts:15-23 | mode is live exactly when a client, the secret key and the PRO price id are all present; the webhook counts as configured exactly when also the webhook secret is present |
| Billing.CheckoutIsStub | src/server/billing.ts:113 | checkout takes its stub path exactly when the runtime info reports stub mode |
| Billing.PortalIsStub | src/server/billing.ts:179 | the portal is stubbed only when checkout is, and exactly when checkout is once a price id is set |
| Billing.WebhookIsStub | src/server/billing.ts:215 | a skipped webhook is one the runtime info reports unconfigured; a handled one has a client and a webhook secret |
| Billing.EnsureWorkspace | src/server/billing.ts:35-43 | "Workspace not found" exactly when no workspace has the id, otherwise that workspace's position |
| Billing.FindWorkspaceIdByCustomer | src/server/billing.ts:45-55 | a falsy customer id finds nothing; a found id belongs to a workspace holding that customer, and nothing is found only when none holds it |
| Billing.FindWorkspaceIdBySubscription | src/server/billing.ts:57-67 | the same lookup by subscription id |
| Billing.EnsureStripeCustomer | src/server/billing.ts:69-104 | A stored customer id is returned without a write and without asking the provider. Otherwise, without a client, `stub_cus_<id>` is stored and returned. With a client, the provider's new customer id is stored and returned. A provider error, or an unknown workspace, changes nothing |
| Billing.CreateCheckoutSession | src/server/billing.ts:106-170 | An unknown workspace fails with no change. Stub: PRO, ACTIVE, `stub_sub_<id>` and an audit entry, returning a `mode=stub` URL in stub mode. Live: customer ensured, then the session URL with one audit entry; a failed session leaves the cached customer in place. The reported mode always agrees with the runtime info |
| Billing.CreateBillingPortalSession | src/server/billing.ts:172-210 | An unknown workspace fails with no change. Stub: no workspace field changes, one audit entry, a `mode=stub` URL. Live: customer ensured, the portal URL and one audit entry |
| Billing.LocalStatus | src/server/billing.ts:293-298 | `active` maps to ACTIVE and `past_due` to PAST_DUE (both if-and-only-if); anything else maps to CANCELED, never NONE |
| Billing.ResolveCheckoutWorkspace | src/server/billing.ts:233-261 | The workspace is resolved in order. First the session metadata. Then, when the session names a subscription and its retrieval succeeds, that subscription's metadata, else the workspace holding its customer. Then, when none of that yields an id (no subscription, a failed retrieval or nothing found), the workspace holding the session's customer. Nothing when there is no customer either |
| Billing.ResolveSubscriptionWorkspace | src/server/billing.ts:284-291 | the workspace comes from the metadata, else the workspace holding the subscription id, else the one holding the customer id |
| Billing.Reconciled | src/server/billing.ts:299-307 | the mapped status and the subscription id are stored, the plan becomes FREE only on CANCELED, and nothing but status, subscription, timestamp and plan changes |
| Billing.Activated | src/server/billing.ts:263-270 | a completed checkout sets PRO, ACTIVE, the subscription and customer ids and the timestamp, and nothing else |
| Billing.UpdateWorkspaceById | src/server/billing.ts:299-307 | an update by id fails with "Record to update not found." exactly when no workspace has the id; otherwise only that workspace changes |
| Billing.HandleStripeWebhook | src/server/billing.ts:212-321 | Without a client or webhook secret: stub, no change. A failed signature is "Invalid Stripe signature" with no change. A completed checkout writes PRO/ACTIVE only when both workspace and subscription are known. Subscription events reconcile the resolved workspace. Unhandled types change nothing. Memberships, invites and users are never touched |
| Billing.ApplySubscriptionEvent | src/server/billing.ts:282-315 | the subscription branch reports live, and a failure leaves the store unchanged |
| BillingProperties.EnsureStripeCustomerStable | src/server/billing.ts:69-104 | once a non-empty customer id is returned, every later call returns the same id without a write, whatever the provider would answer |
| BillingProperties.ReconciledTwice | src/server/billing.ts:299-307 | reconciling twice with one subscription equals reconciling once, apart from the timestamp |
| BillingProperties.ReplayResolvesSameWorkspace | src/server/billing.ts:284-291 | after a subscription event is applied, the same event resolves to the same workspace again |
| BillingProperties.SubscriptionEventReplay | src/server/billing.ts:282-315 | Replaying a subscription event succeeds and leaves plan, status and subscription id as the first delivery left them. Only the timestamp differs and one audit entry is appended, or nothing at all when the first delivery wrote nothing |
| BillingProperties.CheckoutIgnoresMembership | src/server/billing.ts:106-111 | checkout does not depend on the caller's memberships: any member table gives the same result and writes |
| BillingProperties.PortalIgnoresMembership | src/server/billing.ts:172-177 | the portal does not depend on the caller's memberships |
| BillingProperties.WebhookLiveWhileReportedUnconfigured | src/server/billing.ts:212-218 | with a client, keys and a webhook secret but no price id, the runtime info says the webhook is not configured while the webhook still runs live |
| RateLimit.CheckRateLimit | src/lib/rate-limit.ts:11-32 | A missing or expired bucket opens a window with `limit - 1` left. An exhausted bucket refuses with `remaining = 0` and no change. Otherwise one call is taken and the window end is kept. No other key changes |
| RateLimit.CheckWithinWindowNeverIncreases | src/lib/rate-limit.ts:25-31 | within an open window the count never rises and never drops below zero once it starts there |
| RateLimit.CountdownInWindow | src/lib/rate-limit.ts:25-31 | inside an open window with `m` calls left, the first `m` calls succeed counting down, and every later one fails with `remaining = 0` at the same window end |
| RateLimit.ExactlyLimitCallsPerWindow | src/lib/rate-limit.ts:17-31 | from a closed window, exactly `limit` calls before the window ends succeed and the next one fails with `remaining = 0` |
| RateLimit.RateLimitKeyFromHeaders | src/lib/rate-limit.ts:36-42 | A non-empty `x-forwarded-for` yields its part before the first comma, trimmed, which holds no comma and no surrounding whitespace. Otherwise the key is `x-real-ip`, else `anonymous` |
| RateLimit.SingleHopKey | src/lib/rate-limit.ts:36-40 | a header with a single hop and no comma gives that hop, trimmed |
| RateLimit.ForwardedKeyIsFirstHop | src/lib/rate-limit.ts:36-40 | the key is the trimmed part of `x-forwarded-for` before its first comma |
| Actions.EnforceRateLimit | src/server/actions/helpers.ts:13-20 | one check under `<prefix>:<client key>`: only that key's bucket changes, and a refusal changes nothing |
| Actions.Admit | src/server/actions/workspace-actions.ts:60-77 | Authentication comes first, then validation, then the limiter. Admission holds exactly when signed in, valid and, for a limited action, allowed by the limiter. The limiter is consulted only for valid input |
| Actions.Settle | src/server/actions/workspace-actions.ts:79-89 | an engine exception becomes a failed result carrying its error, never a rethrow, and the engine's writes are kept |
| Actions.ParseRole | src/server/actions/workspace-actions.ts:53 | exactly the three role names parse, each to its own role |
| Actions.Check | src/server/actions/workspace-actions.ts:68-71 | validation passes exactly when every field passes, and the first failing field is reported |
| Actions.LengthIn | src/server/actions/workspace-actions.ts:17-19 | A passing value is present and within the bounds measured in UTF-16 code units. For text inside the Basic Multilingual Plane that is the character count |
| Actions.AtLeast | src/server/actions/workspace-actions.ts:32-34 | a value long enough in characters passes; `min(1)` means present and non-empty |
| Actions.NameLengthCountsCodeUnits | src/server/actions/workspace-actions.ts:17-19 | a single emoji is a long enough name, and 41 emoji are too long although they are only 41 characters |
| Actions.InviteRole | src/server/actions/workspace-actions.ts:24 | a missing role means MEMBER; a given one must be one of the three role names and maps to that role |
| Actions.CreateWorkspaceAction | src/server/actions/workspace-actions.ts:60-90 | The untrimmed name must be 2 to 80 UTF-16 code units long, checked before the limiter. The limiter key is `workspace:create:<user>`. Failures other than the engine's slug and unknown-user failures change nothing, and success returns the new id |
| Actions.InviteMemberAction | src/server/actions/workspace-actions.ts:92-133 | A signed-out caller fails first. The role defaults to MEMBER and the limiter key is `workspace:invite:<user>`. The engine's link and delivery flag are returned unchanged |
| Actions.RenameWorkspaceAction | src/server/actions/workspace-actions.ts:135-167 | no rate limit (the buckets never change), the 2 to 80 bound counts UTF-16 code units of the untrimmed name |
| Actions.AcceptInviteAction | src/server/actions/workspace-actions.ts:169-202 | a token shorter than 10 UTF-16 code units fails before the limiter; limiter key `workspace:accept:<user>`; success returns the engine's workspace id |
| Actions.SwitchWorkspaceAction | src/server/actions/workspace-actions.ts:204-228 | no rate limit; a failure leaves the world unchanged; succeeds exactly when the engine does and then only the default pointer changes |
| Actions.RemoveMemberAction | src/server/actions/workspace-actions.ts:230-267 | limiter key `workspace:remove:<user>`; success exactly when the engine succeeds; a failure leaves the store unchanged |
| Actions.CancelInviteAction | src/server/actions/workspace-actions.ts:269-306 | limiter key `workspace:cancel:<user>`; success exactly when the engine succeeds; a failure leaves the store unchanged |
| Actions.UpdateMemberRoleAction | src/server/actions/workspace-actions.ts:308-342 | no rate limit, the role is required; success only with valid input and engine success, and a failure leaves the store unchanged |
| Actions.BillingWorkspace | src/server/actions/billing-actions.ts:23-27 | a non-empty form value wins; a missing or empty one falls back to the session's default workspace |
| Actions.StartCheckoutActionAsWritten | src/server/actions/billing-actions.ts:15-48 | Signed out, or without a resolvable workspace, fails with no change. The limiter's bucket is consumed but its refusal never surfaces. The result is checkout's |
| Actions.StartBillingPortalActionAsWritten | src/server/actions/billing-actions.ts:50-82 | the same for the portal: the limiter never causes a failure |
| Actions.StartCheckoutAction | src/server/actions/billing-actions.ts:15-48 | checkout with the limiter awaited: a refusal fails with "Too many requests" and no change, otherwise checkout's result |
| Actions.StartBillingPortalAction | src/server/actions/billing-actions.ts:50-82 | the portal with the limiter awaited |
| ActionProperties.CheckoutAsWrittenIgnoresRefusal | src/server/actions/billing-actions.ts:33-37 | with the caller's bucket exhausted, the as-written checkout still runs and succeeds exactly when billing does |
| ActionProperties.CheckoutBlockedOnRefusal | src/server/actions/billing-actions.ts:33-37 | with the limiter awaited, an exhausted bucket fails the request with no change to store or buckets |
| ActionProperties.StubCheckoutUpgradesDespiteRefusal | src/server/actions/billing-actions.ts:33-47 | in stub mode an as-written checkout over the limit still upgrades the workspace to PRO |
| ActionProperties.PortalAsWrittenIgnoresRefusal | src/server/actions/billing-actions.ts:67-71 | with the caller's bucket exhausted, the as-written portal still runs |
| ActionProperties.PortalBlockedOnRefusal | src/server/actions/billing-actions.ts:67-71 | with the limiter awaited, an exhausted bucket fails the portal request with no change |
| ActionProperties.AwaitedSeriesFollowsLimiter | src/server/actions/billing-actions.ts:33-37 | over any series of checkout requests, a corrected request is refused exactly when the limiter refuses it |
| ActionProperties.AsWrittenSeriesNeverRefused | src/server/actions/billing-actions.ts:33-37 | no request of any as-written series is ever refused |
| ActionProperties.CheckoutBurst | src/server/actions/billing-actions.ts:33-47 | In a burst of more than `limit` requests in one window, the corrected action refuses exactly the requests from index `limit` on. The limiter itself refuses request `limit`. The as-written action refuses none |
| Dashboard.MembersOf | src/server/dashboard.ts:7-14 | the workspace's rows are exactly the membership rows with its id, of any status |
| Dashboard.PendingInvitesOf | src/server/dashboard.ts:15-17 | the listed invites are exactly the workspace's PENDING ones |
| Dashboard.AuditOf | src/server/dashboard.ts:18-21 | the workspace's audit entries are exactly the log entries with its id; a one-entry log gives that entry or nothing |
| Dashboard.AuditOfConcat | src/server/dashboard.ts:18-21 | selecting a workspace's entries commutes with concatenating logs, so the selection keeps the log's order (oldest first) and every occurrence |
| Dashboard.AuditOfSnoc | src/server/dashboard.ts:18-21 | a newly appended entry joins the end of the selection exactly when it belongs to the workspace |
| Dashboard.LatestFirst | src/server/dashboard.ts:18-21 | `orderBy desc, take n` gives the newest `n` rows, newest first |
| Dashboard.AuditTrail | src/server/dashboard.ts:18-21 | the trail holds at most ten entries, all the workspace's own |
| Dashboard.GetDashboardData | src/server/dashboard.ts:3-45 | "Workspace not found" exactly for an unknown id. "You do not have access" exactly when the caller has no row of any status. The memberships are the workspace's rows of any status in creation order, and the invites are its PENDING invites. The counts equal those lists, plan and billing status are copied, and the trail is the ten newest entries, newest first |
| Dashboard.FindAmongMembersOf | src/server/dashboard.ts:29-32 | the caller is found among the workspace's rows exactly when some row has the (user, workspace) pair |
| Dashboard.MembersOfCount | src/server/dashboard.ts:38 | the member count is the number of the workspace's membership rows |
| Dashboard.PendingInvitesCount | src/server/dashboard.ts:39 | the pending count is the number of the workspace's PENDING invites |
| Dashboard.RecordedEntryLeadsTrail | src/server/dashboard.ts:18-21 | a newly recorded entry heads the trail, followed by the previous trail minus its oldest entry when it was full |
| Avatar.NonEmptyParts | src/components/ui/avatar.tsx:12 | `filter(Boolean)` keeps exactly the non-empty parts |
| Avatar.Heads | src/components/ui/avatar.tsx:14 | one first character per part, in order |
| Avatar.Take | src/components/ui/avatar.tsx:13 | `slice(0, n)` is the prefix of length `min(n, length)` |
| Avatar.GetInitials | src/components/ui/avatar.tsx:9-17 | at most two characters, none a space or a lower-case ASCII letter |
| Avatar.AvatarLabel | src/components/ui/avatar.tsx:37 | an empty name shows "U"; the label has at most two characters |
| Avatar.HeadsOfPartsAreWordStarts | src/components/ui/avatar.tsx:10-14 | the first characters of the non-empty space-separated parts are exactly the word starts: characters that are not spaces and follow a space or the start |
| Avatar.InitialsAreWordStarts | src/components/ui/avatar.tsx:9-17 | the initials are the first two word starts, upper-cased; only the space separates words |
| Avatar.BlankNameHasNoInitials | src/components/ui/avatar.tsx:37 | a name of spaces only shows nothing |

## Left out

- The database layer (Prisma, SQL and `$transaction`) is not modelled. Each engine call is one atomic step on the in-memory store. Concurrent requests are out of scope: slug races, count-then-update races on owners, and interleavings of the unawaited limiter call. The model is sequential.
- Stripe calls are parameters carrying the provider's answer: `customers.create`, checkout and portal session creation, `webhooks.constructEvent` including the HMAC check, and `subscriptions.retrieve`. So are `nanoid` and `Date.now`. A slug's random suffixes are a finite list of draws.
- Slugs.GenerateWorkspaceSlug: the source loops until a slug is free, while the model stops after the supplied draws and reports `SlugSearchExhausted`. A caller that supplies enough distinct draws sees the source's behaviour.
- Mail delivery (the mailer module) is not modelled. Its answer is the `MailOutcome` parameter: delivered, not configured, or a thrown delivery error.
- The logger is not modelled, and neither is `recordAuditLog`'s `ipAddress` field, which no modelled caller sets. Audit entries carry their `createdAt` as the call's clock parameter, and entries with equal timestamps keep creation order.
- Environment loading is not modelled: the limit, the window and the Stripe keys are parameters. The module-load construction of the Stripe client is the `hasClient` flag.
- RateLimit.CheckRateLimit: the limit and the window length are whole numbers. The environment schema coerces them to any number of at least 10 and at least 1, with no integer check. A fractional limit such as 10.5 counts down 9.5, …, 0.5 and refuses only at -0.5, allowing 11 calls per window. The model does not cover such a configuration.
- RateLimit.ExactlyLimitCallsPerWindow: "exactly `limit` calls" is stated for a whole-number limit only. With a fractional limit the source allows the limit rounded up, which the model does not state.
- Other layers are not modelled: NextAuth sessions (the session is an optional parameter), `headers()` (the client key is a parameter, derived by `RateLimitKeyFromHeaders`), `revalidatePath`, React rendering and the webhook route.
- Plain reads are not modelled: `listWorkspacesForUser`, `getInviteByToken`, `getWorkspaceSummaryForUser` and `getWorkspaceBillingSummary`. They filter or project the store and write nothing.
- Case mapping covers ASCII only: `toLowerCase` and `toUpperCase` are modelled on ASCII letters.
- Avatar.GetInitials: `part[0]` is one Unicode scalar rather than one UTF-16 unit, so a word starting with a character outside the Basic Multilingual Plane gives the whole character where the source takes half a surrogate pair. The length checks count UTF-16 code units, as `Text.Utf16Length` states.
- Zod's own validation messages are not reproduced: a validation failure reports the name of the first failing field. The e-mail format check is the `isEmail` parameter.
- Database error texts are not reproduced verbatim. An unknown creator in `createWorkspace` fails on the membership's foreign key, modelled as its own error `UnknownUserReference`. Prisma's exact message is not modelled.
- The `?? "unknown"` branch in `rateLimitKeyFromRequestHeaders` is unreachable, because `split` always yields a first part. `session.url!` is taken as present.
- The un-awaited `enforceRateLimit` in the billing actions is modelled as a limiter call whose refusal is lost. The resulting unhandled promise rejection, and the moment the bucket is updated, are not modelled.
- The billing engine performs no membership check, although a unit test expects "You do not have access to this workspace" there. The model does not add the check. `BillingProperties.CheckoutIgnoresMembership` and `BillingProperties.PortalIgnoresMembership` state its absence.
- Dashboard.GetDashboardData: the returned membership is stated to be a row of the caller in that workspace, not the earliest such row that `find` picks.
- Invariants.AcceptInviteKeepsOtherOwner: the owner invariant is stated for `acceptInvite` only when some other ACTIVE OWNER exists. In general the upsert can demote a sole owner; `Invariants.AcceptInviteCanDemoteSoleOwner` exhibits this.
- Some behaviour of the code is easy to misread, and the model follows the code:
  - provisioning adopts a membership of any status, not only ACTIVE ones;
  - `createWorkspace` checks no name length; only the action checks 2 to 80 on the untrimmed name;
  - "already a member" compares the stored e-mail exactly;
  - an expired PENDING invite is reused;
  - an unchanged role returns before the ADMIN/OWNER rule;
  - a customer id is cached before a failed session creation;
  - a replayed webhook restamps the timestamp and appends an audit entry.

## Findings

| source | as written | input that shows it | evidently intended | confidence | as-written member | corrected member |
|---|---|---|---|---|---|---|
| src/server/actions/billing-actions.ts:34 | `enforceRateLimit` is called without `await`, so its rejection never reaches the surrounding `catch` and checkout always proceeds | a signed-in user with a default workspace whose `billing:checkout:<user>:<client>` bucket has an open window with 0 calls left; in stub mode the workspace is still upgraded to PRO | await the limiter, so an exhausted bucket fails with "Too many requests" before billing is called | not executed | ActionProperties.CheckoutAsWrittenIgnoresRefusal | ActionProperties.CheckoutBlockedOnRefusal |
| src/server/actions/billing-actions.ts:68 | the same un-awaited call in the portal action | the same user with the `billing:portal:<user>:<client>` bucket exhausted | await the limiter before opening the portal | not executed | ActionProperties.PortalAsWrittenIgnoresRefusal | ActionProperties.PortalBlockedOnRefusal |

=== FILE: action_properties.dfy ===
/**
 * What the billing actions' unawaited limiter call means over a series of
 * requests: as written, every request reaches billing however often the
 * limiter refuses; with the call awaited, exactly the requests the limiter
 * admits do.
 */
module ActionProperties {
  import opened Wrappers
  import opened Text
  import opened Domain
  import opened Billing
  import opened RateLimit
  import opened Actions

  /** The limiter key of one user's checkout requests from one client. */
  function CheckoutKey(user: SessionUser, rate: RateEnv): string {
    RateLimitKey("billing:checkout:" + user.id, rate.clientKey)
  }

  /** A request the limiter refuses: its key has an open window with no calls left. */
  predicate Exhausted(buckets: map<string, Bucket>, key: string, now: int) {
    !RateLimit.Expired(buckets, key, now) && buckets[key].remaining <= 0
  }

  /**
   * One user's checkout requests from one client at the given times, each
   * seeing the world the previous one left; `awaited` picks the corrected
   * action over the one as written.
   */
  function CheckoutSeries(w: World, user: SessionUser, workspaceId: Option<string>, rate: RateEnv,
                          times: seq<int>, provider: Provider, awaited: bool): (rs: seq<Outcome<string>>)
    ensures |rs| == |times|
    decreases |times|
  {
    if times == [] then []
    else
      var at := rate.(now := times[0]);
      var r := if awaited then StartCheckoutAction(w, Some(user), workspaceId, at, provider, times[0])
               else StartCheckoutActionAsWritten(w, Some(user), workspaceId, at, provider, times[0]);
      [r] + CheckoutSeries(r.world, user, workspaceId, rate, times[1..], provider, awaited)
  }

  /** A result that stopped at the limiter, as opposed to one that reached billing. */
  predicate Refused(r: Outcome<string>) {
    r.result == Failure(RateLimited)
  }

  // ------------------------------------------------------ one request

  /** As written, a refused checkout still runs: the outcome is billing's, and the limiter's refusal is lost. */
  lemma CheckoutAsWrittenIgnoresRefusal(w: World, user: SessionUser, workspaceId: Option<string>, rate: RateEnv,
                                        provider: Provider, now: int)
    requires Present(BillingWorkspace(user, workspaceId))
    requires Exhausted(w.buckets, CheckoutKey(user, rate), rate.now)
    ensures var step := CreateCheckoutSession(w.store, provider.env, BillingWorkspace(user, workspaceId).value, user.id,
                                              provider.customer, provider.session, now);
            var r := StartCheckoutActionAsWritten(w, Some(user), workspaceId, rate, provider, now);
            && r.world == World(step.store, w.buckets)
            && (step.result.Ok? <==> r.result.Success?)
  {
    assert "billing:checkout:" + user.id + ":" + rate.clientKey == CheckoutKey(user, rate);
  }

  /** With the limiter awaited, a refused checkout changes nothing and reports "Too many requests". */
  lemma CheckoutBlockedOnRefusal(w: World, user: SessionUser, workspaceId: Option<string>, rate: RateEnv,
                                 provider: Provider, now: int)
    requires Present(BillingWorkspace(user, workspaceId))
    requires Exhausted(w.buckets, CheckoutKey(user, rate), rate.now)
    ensures StartCheckoutAction(w, Some(user), workspaceId, rate, provider, now) == Outcome(w, Failure(RateLimited))
  {
    assert "billing:checkout:" + user.id + ":" + rate.clientKey == CheckoutKey(user, rate);
  }

  /**
   * In stub mode the lost refusal is visible: an exhausted caller still
   * upgrades the workspace to PRO and is sent to the success page.
   */
  lemma StubCheckoutUpgradesDespiteRefusal(w: World, user: SessionUser, workspaceId: Option<string>, rate: RateEnv,
                                           provider: Provider, now: int)
    requires Present(BillingWorkspace(user, workspaceId))
    requires Exhausted(w.buckets, CheckoutKey(user, rate), rate.now)
    requires CheckoutIsStub(provider.env)
    requires EnsureWorkspace(w.store, BillingWorkspace(user, workspaceId).value).Ok?
    ensures var target := BillingWorkspace(user, workspaceId).value;
            var r := StartCheckoutActionAsWritten(w, Some(user), workspaceId, rate, provider, now);
            && r.result == Success(StubSuccessUrl(provider.env.appUrl, target))
            && r.world.store.workspaces[EnsureWorkspace(w.store, target).value].plan == Pro
  {
    CheckoutAsWrittenIgnoresRefusal(w, user, workspaceId, rate, provider, now);
  }

  /** As written, a refused portal request still opens the portal. */
  lemma PortalAsWrittenIgnoresRefusal(w: World, user: SessionUser, workspaceId: Option<string>, rate: RateEnv,
                                      provider: Provider, now: int)
    requires Present(BillingWorkspace(user, workspaceId))
    requires Exhausted(w.buckets, RateLimitKey("billing:portal:" + user.id, rate.clientKey), rate.now)
    ensures var step := CreateBillingPortalSession(w.store, provider.env, BillingWorkspace(user, workspaceId).value, user.id,
                                                   provider.customer, provider.session, now);
            var r := StartBillingPortalActionAsWritten(w, Some(user), workspaceId, rate, provider, now);
            && r.world == World(step.store, w.buckets)
            && (step.result.Ok? <==> r.result.Success?)
  {
    assert "billing:portal:" + user.id + ":" + rate.clientKey == RateLimitKey("billing:portal:" + user.id, rate.clientKey);
  }

  /** With the limiter awaited, a refused portal request changes nothing. */
  lemma PortalBlockedOnRefusal(w: World, user: SessionUser, workspaceId: Option<string>, rate: RateEnv,
                               provider: Provider, now: int)
    requires Present(BillingWorkspace(user, workspaceId))
    requires Exhausted(w.buckets, RateLimitKey("billing:portal:" + user.id, rate.clientKey), rate.now)
    ensures StartBillingPortalAction(w, Some(user), workspaceId, rate, provider, now) == Outcome(w, Failure(RateLimited))
  {
    assert "billing:portal:" + user.id + ":" + rate.clientKey == RateLimitKey("billing:portal:" + user.id, rate.clientKey);
  }

  // ----------------------------------------------------------- series

  /**
   * With the limiter awaited, request `i` of a series stops at the limiter
   * exactly when the limiter alone, asked at the same times, refuses call `i`.
   */
  lemma {:induction false} AwaitedSeriesFollowsLimiter(w: World, user: SessionUser, workspaceId: Option<string>, rate: RateEnv,
                                                       times: seq<int>, provider: Provider)
    requires Present(BillingWorkspace(user, workspaceId))
    ensures var rs := CheckoutSeries(w, user, workspaceId, rate, times, provider, true);
            var checks := CheckAll(w.buckets, CheckoutKey(user, rate), times, rate.limit, rate.windowMs);
            forall i :: 0 <= i < |rs| ==> (Refused(rs[i]) <==> !checks[i].success)
    decreases |times|
  {
    if times != [] {
      var at := rate.(now := times[0]);
      var key := CheckoutKey(user, rate);
      assert "billing:checkout:" + user.id + ":" + at.clientKey == key;
      var r := StartCheckoutAction(w, Some(user), workspaceId, at, provider, times[0]);
      var c := CheckRateLimit(w.buckets, key, times[0], rate.limit, rate.windowMs);
      assert r.world.buckets == c.buckets;
      assert Refused(r) <==> !c.result.success;
      AwaitedSeriesFollowsLimiter(r.world, user, workspaceId, rate, times[1..], provider);
      assert var rs1 := CheckoutSeries(r.world, user, workspaceId, rate, times[1..], provider, true);
            var checks1 := CheckAll(r.world.buckets, CheckoutKey(user, rate), times[1..], rate.limit, rate.windowMs);
            forall i :: 0 <= i < |rs1| ==> (Refused(rs1[i]) <==> !checks1[i].success);
      var rest := CheckoutSeries(r.world, user, workspaceId, rate, times[1..], provider, true);
      var restChecks := CheckAll(c.buckets, key, times[1..], rate.limit, rate.windowMs);
      var rs := CheckoutSeries(w, user, workspaceId, rate, times, provider, true);
      var checks := CheckAll(w.buckets, key, times, rate.limit, rate.windowMs);
      assert rs == [r] + rest;
      assert checks == [c.result] + restChecks;
      FollowsCons(r, rest, c.result, restChecks);
    }
  }

  /** Request-by-request agreement extends by one request at the front. */
  lemma FollowsCons(r: Outcome<string>, rest: seq<Outcome<string>>, c: RateLimitResult, restChecks: seq<RateLimitResult>)
    requires |rest| == |restChecks|
    requires Refused(r) <==> !c.success
    requires forall i :: 0 <= i < |rest| ==> (Refused(rest[i]) <==> !restChecks[i].success)
    ensures forall i :: 0 <= i < |rest| + 1 ==> (Refused(([r] + rest)[i]) <==> !([c] + restChecks)[i].success)
  {
    forall i | 0 <= i < |rest| + 1
      ensures Refused(([r] + rest)[i]) <==> !([c] + restChecks)[i].success
    {
      if i > 0 {
        assert ([r] + rest)[i] == rest[i - 1] && ([c] + restChecks)[i] == restChecks[i - 1];
      }
    }
  }

  /** As written, no request of a series ever stops at the limiter. */
  lemma {:induction false} AsWrittenSeriesNeverRefused(w: World, user: SessionUser, workspaceId: Option<string>, rate: RateEnv,
                                                       times: seq<int>, provider: Provider)
    ensures var rs := CheckoutSeries(w, user, workspaceId, rate, times, provider, false);
            forall i :: 0 <= i < |rs| ==> !Refused(rs[i])
    decreases |times|
  {
    if times != [] {
      var r := StartCheckoutActionAsWritten(w, Some(user), workspaceId, rate.(now := times[0]), provider, times[0]);
      AsWrittenSeriesNeverRefused(r.world, user, workspaceId, rate, times[1..], provider);
      assert var rs1 := CheckoutSeries(r.world, user, workspaceId, rate, times[1..], provider, false);
             forall i :: 0 <= i < |rs1| ==> !Refused(rs1[i]);
      var rest := CheckoutSeries(r.world, user, workspaceId, rate, times[1..], provider, false);
      assert CheckoutSeries(w, user, workspaceId, rate, times, provider, false) == [r] + rest;
      NoneRefusedCons(r, rest);
    }
  }

  lemma NoneRefusedCons(r: Outcome<string>, rest: seq<Outcome<string>>)
    requires !Refused(r) && forall i :: 0 <= i < |rest| ==> !Refused(rest[i])
    ensures forall i :: 0 <= i < |rest| + 1 ==> !Refused(([r] + rest)[i])
  {
    assert forall i :: 1 <= i < |rest| + 1 ==> ([r] + rest)[i] == rest[i - 1];
  }

  /**
   * More requests than the limit inside one fresh window: with the limiter
   * awaited exactly the first `limit` reach billing; as written the limiter
   * refuses request `limit` too, and it reaches billing all the same.
   */
  lemma CheckoutBurst(w: World, user: SessionUser, workspaceId: Option<string>, rate: RateEnv,
                      times: seq<int>, provider: Provider)
    requires Present(BillingWorkspace(user, workspaceId))
    requires rate.limit >= 1 && |times| > rate.limit
    requires RateLimit.Expired(w.buckets, CheckoutKey(user, rate), times[0])
    requires forall i :: 0 <= i < |times| ==> times[i] <= times[0] + rate.windowMs
    ensures var awaited := CheckoutSeries(w, user, workspaceId, rate, times, provider, true);
            forall i :: 0 <= i < |awaited| ==> (Refused(awaited[i]) <==> i >= rate.limit)
    ensures !CheckAll(w.buckets, CheckoutKey(user, rate), times, rate.limit, rate.windowMs)[rate.limit].success
    ensures var asWritten := CheckoutSeries(w, user, workspaceId, rate, times, provider, false);
            forall i :: 0 <= i < |asWritten| ==> !Refused(asWritten[i])
  {
    ExactlyLimitCallsPerWindow(w.buckets, CheckoutKey(user, rate), times, rate.limit, rate.windowMs);
    AwaitedSeriesFollowsLimiter(w, user, workspaceId, rate, times, provider);
    AsWrittenSeriesNeverRefused(w, user, workspaceId, rate, times, provider);
  }
}

=== FILE: actions.dfy ===
/**
 * The server actions (src/server/actions/workspace-actions.ts and
 * billing-actions.ts) with their helpers (src/server/actions/helpers.ts):
 * each action authenticates, validates its form fields, consults the rate
 * limiter when it has a limit, and only then calls the engine. Every
 * failure, including an engine exception, becomes a failed result; nothing
 * is rethrown.
 */
module Actions {
  import opened Wrappers
  import opened Text
  import opened Domain
  import opened Workspaces
  import opened Billing
  import opened RateLimit

  /** The signed-in user as the session carries it. */
  datatype SessionUser = SessionUser(id: UserId, defaultWorkspaceId: Option<WorkspaceId>)

  /** What the limiter sees of a request: the header-derived client key, the clock and the configured limit and window. */
  datatype RateEnv = RateEnv(clientKey: string, now: int, limit: int, windowMs: int)

  /** The application's state: the database and the limiter's buckets. */
  datatype World = World(store: Store, buckets: map<string, Bucket>)

  datatype FailureReason =
    | Unauthorized
    | InvalidInput(field: string)
    | RateLimited
    | NoWorkspaceSelected
    | EngineFailed(error: EngineError)
  {
    /** The `error` string of the failed result; a validation failure carries the first failing field instead of its message. */
    function Message(): string {
      match this
      case Unauthorized => "Unauthorized"
      case InvalidInput(field) => field
      case RateLimited => "Too many requests. Please wait and try again."
      case NoWorkspaceSelected => "No workspace selected"
      case EngineFailed(e) => e.Message()
    }
  }

  datatype ActionResult<T> = Success(data: T) | Failure(reason: FailureReason)

  datatype Outcome<T> = Outcome(world: World, result: ActionResult<T>)

  // ------------------------------------------------------------ helpers

  /** The limiter key `enforceRateLimit` builds: `<prefix>:<client key>`. */
  function RateLimitKey(prefix: string, clientKey: string): string {
    prefix + ":" + clientKey
  }

  /** `enforceRateLimit`: one check against the request's key; a refusal is the "Too many requests" error. */
  function EnforceRateLimit(buckets: map<string, Bucket>, prefix: string, rate: RateEnv): (r: Checked)
    ensures r.buckets - {RateLimitKey(prefix, rate.clientKey)} == buckets - {RateLimitKey(prefix, rate.clientKey)}
    ensures !r.result.success ==> r.buckets == buckets
  {
    CheckRateLimit(buckets, RateLimitKey(prefix, rate.clientKey), rate.now, rate.limit, rate.windowMs)
  }

  /** How far a request got through the gate in front of the engine. */
  datatype Admission = Admitted(user: SessionUser, buckets: map<string, Bucket>) | Rejected(reason: FailureReason)

  /**
   * The shared prologue of the workspace actions: authentication, then the
   * form check (`invalid` names the first failing field), then, for actions
   * with a limit, the limiter under `<prefix>:<client key>`.
   */
  function Admit(w: World, session: Option<SessionUser>, invalid: Option<string>, prefix: Option<string>, rate: RateEnv): (r: Admission)
    ensures session.None? ==> r == Rejected(Unauthorized)
    ensures session.Some? && invalid.Some? ==> r == Rejected(InvalidInput(invalid.value))
    ensures r.Admitted? <==>
              session.Some? && invalid.None? &&
              (prefix.Some? ==> EnforceRateLimit(w.buckets, prefix.value + ":" + session.value.id, rate).result.success)
    ensures r.Admitted? ==> r.user == session.value
    ensures r.Admitted? && prefix.None? ==> r.buckets == w.buckets
    ensures r.Admitted? && prefix.Some? ==> r.buckets == EnforceRateLimit(w.buckets, prefix.value + ":" + session.value.id, rate).buckets
    ensures r.Rejected? && session.Some? && invalid.None? ==> r.reason == RateLimited
  {
    match session
    case None => Rejected(Unauthorized)
    case Some(user) =>
      if invalid.Some? then Rejected(InvalidInput(invalid.value))
      else match prefix
        case None => Admitted(user, w.buckets)
        case Some(p) =>
          var checked := EnforceRateLimit(w.buckets, p + ":" + user.id, rate);
          if checked.result.success then Admitted(user, checked.buckets) else Rejected(RateLimited)
  }

  /** An engine call's outcome as an action result, with the engine's store kept even when it threw. */
  function Settle<T, U>(step: Step<T>, buckets: map<string, Bucket>, data: T -> U): (r: Outcome<U>)
    ensures r.world == World(step.store, buckets)
    ensures step.result.Ok? ==> r.result == Success(data(step.result.value))
    ensures step.result.Err? ==> r.result == Failure(EngineFailed(step.result.error))
  {
    match step.result
    case Ok(v) => Outcome(World(step.store, buckets), Success(data(v)))
    case Err(e) => Outcome(World(step.store, buckets), Failure(EngineFailed(e)))
  }

  // ------------------------------------------------------------- forms

  /** `z.string().min(lo).max(hi)` on a form value that may be missing; zod counts UTF-16 code units. */
  function LengthIn(o: Option<string>, lo: nat, hi: nat): (ok: bool)
    ensures ok ==> o.Some? && |o.value| <= hi && lo <= 2 * |o.value|
    // Without characters outside the Basic Multilingual Plane, code units and characters agree.
    ensures o.Some? && (forall i :: 0 <= i < |o.value| ==> !IsAstral(o.value[i])) ==> (ok <==> lo <= |o.value| <= hi)
  {
    o.Some? && lo <= Utf16Length(o.value) <= hi
  }

  /** `z.string().min(lo)`. */
  function AtLeast(o: Option<string>, lo: nat): (ok: bool)
    ensures o.Some? && lo <= |o.value| ==> ok
    ensures ok ==> o.Some? && lo <= 2 * |o.value|
    ensures lo <= 1 ==> (ok <==> o.Some? && (lo == 0 || o.value != ""))
  {
    o.Some? && lo <= Utf16Length(o.value)
  }

  /**
   * The bounds count code units, not characters: one emoji is a long enough
   * name, and 41 emoji are too long although they are only 41 characters.
   */
  lemma NameLengthCountsCodeUnits()
    ensures |"\U{1F600}"| == 1 && LengthIn(Some("\U{1F600}"), MinNameLength, MaxNameLength)
    ensures var many := seq(41, _ => '\U{1F600}');
            |many| <= MaxNameLength && !LengthIn(Some(many), MinNameLength, MaxNameLength)
  {
    var many := seq(41, _ => '\U{1F600}');
    assert forall i :: 0 <= i < |many| ==> IsAstral(many[i]);
    assert IsAstral("\U{1F600}"[0]);
  }

  const MinNameLength: nat := 2
  const MaxNameLength: nat := 80
  const MinTokenLength: nat := 10

  /** `z.enum(["OWNER", "ADMIN", "MEMBER"])`. */
  function ParseRole(o: Option<string>): (r: Option<Role>)
    ensures r.Some? ==> o == Some(RoleName(r.value))
    ensures o.Some? && (o.value == "OWNER" || o.value == "ADMIN" || o.value == "MEMBER") ==> r.Some?
  {
    match o
    case Some("OWNER") => Some(Owner)
    case Some("ADMIN") => Some(Admin)
    case Some("MEMBER") => Some(Member)
    case _ => None
  }

  /** One field of a schema checked in front of the rest: the first failing field is the one reported. */
  function Check(field: string, ok: bool, rest: Option<string>): (r: Option<string>)
    ensures r.None? <==> ok && rest.None?
    ensures !ok ==> r == Some(field)
  {
    if ok then rest else Some(field)
  }

  // --------------------------------------------------- workspace actions

  /** `createWorkspaceAction`: a name of 2 to 80 characters (untrimmed), limit `workspace:create:<user>`. */
  function CreateWorkspaceAction(w: World, session: Option<SessionUser>, name: Option<string>, rate: RateEnv,
                                 newId: WorkspaceId, fallbackId: string, draws: seq<string>, now: int): (r: Outcome<WorkspaceId>)
    ensures r.result.Failure? && r.result.reason != EngineFailed(SlugSearchExhausted) && r.result.reason != EngineFailed(UnknownUserReference) ==>
              r.world == w
    ensures session.Some? && !LengthIn(name, MinNameLength, MaxNameLength) ==> r == Outcome(w, Failure(InvalidInput("name")))
    ensures r.result.Success? ==> session.Some? && LengthIn(name, MinNameLength, MaxNameLength) && r.result.data == newId
    ensures var admission := Admit(w, session, Check("name", LengthIn(name, MinNameLength, MaxNameLength), None),
                                   Some("workspace:create"), rate);
            && (admission.Rejected? ==> r == Outcome(w, Failure(admission.reason)))
            && (admission.Admitted? ==>
                  r == Settle(CreateWorkspace(w.store, admission.user.id, name.value, newId, fallbackId, draws, now),
                              admission.buckets, (ws: Workspace) => ws.id))
  {
    var invalid := Check("name", LengthIn(name, MinNameLength, MaxNameLength), None);
    match Admit(w, session, invalid, Some("workspace:create"), rate)
    case Rejected(reason) => Outcome(w, Failure(reason))
    case Admitted(user, buckets) =>
      Settle(CreateWorkspace(w.store, user.id, name.value, newId, fallbackId, draws, now), buckets, (ws: Workspace) => ws.id)
  }

  datatype InviteLink = InviteLink(acceptUrl: string, delivered: bool)

  /** The invite form's role: absent means MEMBER, anything else must be a role name. */
  function InviteRole(role: Option<string>): (r: Option<Role>)
    ensures role.None? ==> r == Some(Member)
    ensures r.Some? <==> role.None? || role.value == "OWNER" || role.value == "ADMIN" || role.value == "MEMBER"
    ensures r.Some? && role.Some? ==> role.value == RoleName(r.value)
  {
    if role.None? then Some(Member) else ParseRole(role)
  }

  function InviteFormInvalid(workspaceId: Option<string>, email: Option<string>, role: Option<string>, isEmail: string -> bool): Option<string> {
    Check("workspaceId", AtLeast(workspaceId, 1), Check("email", email.Some? && isEmail(email.value), Check("role", InviteRole(role).Some?, None)))
  }

  /**
   * `inviteMemberAction`: limit `workspace:invite:<user>`; the role defaults
   * to MEMBER; the engine's link and delivery flag are returned as they are.
   * `isEmail` is the email format check.
   */
  function InviteMemberAction(w: World, session: Option<SessionUser>, workspaceId: Option<string>, email: Option<string>,
                              role: Option<string>, isEmail: string -> bool, rate: RateEnv, appUrl: string,
                              inviteId: InviteId, token: string, mail: MailOutcome, now: int): (r: Outcome<InviteLink>)
    ensures session.None? ==> r == Outcome(w, Failure(Unauthorized))
    ensures r.result.Failure? && !r.result.reason.EngineFailed? ==> r.world == w
    ensures var admission := Admit(w, session, InviteFormInvalid(workspaceId, email, role, isEmail), Some("workspace:invite"), rate);
            && (admission.Rejected? ==> r == Outcome(w, Failure(admission.reason)))
            && (admission.Admitted? ==>
                  var step := InviteToWorkspace(w.store, workspaceId.value, admission.user.id, email.value,
                                                InviteRole(role).value, appUrl, inviteId, token, mail, now);
                  && r.world == World(step.store, admission.buckets)
                  && (step.result.Ok? ==> r.result == Success(InviteLink(step.result.value.acceptUrl, step.result.value.delivered)))
                  && (step.result.Err? ==> r.result == Failure(EngineFailed(step.result.error))))
  {
    match Admit(w, session, InviteFormInvalid(workspaceId, email, role, isEmail), Some("workspace:invite"), rate)
    case Rejected(reason) => Outcome(w, Failure(reason))
    case Admitted(user, buckets) =>
      var step := InviteToWorkspace(w.store, workspaceId.value, user.id, email.value, InviteRole(role).value,
                                    appUrl, inviteId, token, mail, now);
      Settle(step, buckets, (v: InviteResult) => InviteLink(v.acceptUrl, v.delivered))
  }

  /** `renameWorkspaceAction`: no rate limit; the 2 to 80 bound is on the untrimmed name. */
  function RenameWorkspaceAction(w: World, session: Option<SessionUser>, workspaceId: Option<string>, name: Option<string>, now: int): (r: Outcome<()>)
    ensures r.world.buckets == w.buckets
    ensures var admission := Admit(w, session, Check("workspaceId", AtLeast(workspaceId, 1), Check("name", LengthIn(name, MinNameLength, MaxNameLength), None)),
                                   None, RateEnv("", 0, 0, 0));
            && (admission.Rejected? ==> r == Outcome(w, Failure(admission.reason)))
            && (admission.Admitted? ==>
                  var step := RenameWorkspace(w.store, workspaceId.value, admission.user.id, name.value, now);
                  && r.world.store == step.store
                  && (r.result.Success? <==> step.result.Ok?))
  {
    var invalid := Check("workspaceId", AtLeast(workspaceId, 1), Check("name", LengthIn(name, MinNameLength, MaxNameLength), None));
    match Admit(w, session, invalid, None, RateEnv("", 0, 0, 0))
    case Rejected(reason) => Outcome(w, Failure(reason))
    case Admitted(user, buckets) =>
      Settle(RenameWorkspace(w.store, workspaceId.value, user.id, name.value, now), buckets, (_: Workspace) => ())
  }

  /** `acceptInviteAction`: a token of at least 10 characters, limit `workspace:accept:<user>`. */
  function AcceptInviteAction(w: World, session: Option<SessionUser>, token: Option<string>, rate: RateEnv, now: int): (r: Outcome<WorkspaceId>)
    ensures session.Some? && !AtLeast(token, MinTokenLength) ==> r == Outcome(w, Failure(InvalidInput("token")))
    ensures var admission := Admit(w, session, Check("token", AtLeast(token, MinTokenLength), None), Some("workspace:accept"), rate);
            && (admission.Rejected? ==> r == Outcome(w, Failure(admission.reason)))
            && (admission.Admitted? ==>
                  var step := AcceptInvite(w.store, token.value, admission.user.id, now);
                  && r.world == World(step.store, admission.buckets)
                  && (step.result.Ok? ==> r.result == Success(step.result.value))
                  && (step.result.Err? ==> r.result == Failure(EngineFailed(step.result.error))))
  {
    match Admit(w, session, Check("token", AtLeast(token, MinTokenLength), None), Some("workspace:accept"), rate)
    case Rejected(reason) => Outcome(w, Failure(reason))
    case Admitted(user, buckets) => Settle(AcceptInvite(w.store, token.value, user.id, now), buckets, (id: WorkspaceId) => id)
  }

  /** `switchWorkspaceAction`: no rate limit. */
  function SwitchWorkspaceAction(w: World, session: Option<SessionUser>, workspaceId: Option<string>): (r: Outcome<()>)
    ensures r.world.buckets == w.buckets
    ensures r.result.Failure? ==> r.world == w
    ensures r.world.store.audit == w.store.audit && r.world.store.members == w.store.members
    ensures r.result.Success? ==>
              session.Some? && AtLeast(workspaceId, 1) &&
              SwitchDefaultWorkspace(w.store, session.value.id, workspaceId.value).result.Ok? &&
              r.world.store == WithDefault(w.store, session.value.id, workspaceId.value)
    ensures session.Some? && AtLeast(workspaceId, 1) ==>
              (r.result.Success? <==> SwitchDefaultWorkspace(w.store, session.value.id, workspaceId.value).result.Ok?)
  {
    match Admit(w, session, Check("workspaceId", AtLeast(workspaceId, 1), None), None, RateEnv("", 0, 0, 0))
    case Rejected(reason) => Outcome(w, Failure(reason))
    case Admitted(user, buckets) => Settle(SwitchDefaultWorkspace(w.store, user.id, workspaceId.value), buckets, (u: ()) => u)
  }

  /** `removeMemberAction`: limit `workspace:remove:<user>`. */
  function RemoveMemberAction(w: World, session: Option<SessionUser>, workspaceId: Option<string>, memberId: Option<string>,
                              rate: RateEnv, now: int): (r: Outcome<()>)
    ensures r.result.Failure? ==> r.world.store == w.store
    ensures var admission := Admit(w, session, Check("workspaceId", AtLeast(workspaceId, 1), Check("memberId", AtLeast(memberId, 1), None)),
                                   Some("workspace:remove"), rate);
            && (admission.Rejected? ==> r == Outcome(w, Failure(admission.reason)))
            && (admission.Admitted? ==>
                  var step := RemoveMember(w.store, workspaceId.value, admission.user.id, memberId.value, now);
                  && r.world == World(step.store, admission.buckets)
                  && (r.result.Success? <==> step.result.Ok?))
  {
    var invalid := Check("workspaceId", AtLeast(workspaceId, 1), Check("memberId", AtLeast(memberId, 1), None));
    match Admit(w, session, invalid, Some("workspace:remove"), rate)
    case Rejected(reason) => Outcome(w, Failure(reason))
    case Admitted(user, buckets) => Settle(RemoveMember(w.store, workspaceId.value, user.id, memberId.value, now), buckets, (u: ()) => u)
  }

  /** `cancelInviteAction`: limit `workspace:cancel:<user>`. */
  function CancelInviteAction(w: World, session: Option<SessionUser>, workspaceId: Option<string>, inviteId: Option<string>,
                              rate: RateEnv, now: int): (r: Outcome<()>)
    ensures r.result.Failure? ==> r.world.store == w.store
    ensures var admission := Admit(w, session, Check("workspaceId", AtLeast(workspaceId, 1), Check("inviteId", AtLeast(inviteId, 1), None)),
                                   Some("workspace:cancel"), rate);
            && (admission.Rejected? ==> r == Outcome(w, Failure(admission.reason)))
            && (admission.Admitted? ==>
                  var step := CancelInvite(w.store, workspaceId.value, admission.user.id, inviteId.value, now);
                  && r.world == World(step.store, admission.buckets)
                  && (r.result.Success? <==> step.result.Ok?))
  {
    var invalid := Check("workspaceId", AtLeast(workspaceId, 1), Check("inviteId", AtLeast(inviteId, 1), None));
    match Admit(w, session, invalid, Some("workspace:cancel"), rate)
    case Rejected(reason) => Outcome(w, Failure(reason))
    case Admitted(user, buckets) => Settle(CancelInvite(w.store, workspaceId.value, user.id, inviteId.value, now), buckets, (u: ()) => u)
  }

  /** `updateMemberRoleAction`: no rate limit; the role must be given and be a role name. */
  function UpdateMemberRoleAction(w: World, session: Option<SessionUser>, workspaceId: Option<string>, memberId: Option<string>,
                                  role: Option<string>, now: int): (r: Outcome<()>)
    ensures r.world.buckets == w.buckets
    ensures r.result.Failure? ==> r.world.store == w.store
    ensures r.result.Success? ==>
              && session.Some? && AtLeast(workspaceId, 1) && AtLeast(memberId, 1) && ParseRole(role).Some?
              && UpdateMemberRole(w.store, workspaceId.value, session.value.id, memberId.value, ParseRole(role).value, now).result.Ok?
              && r.world.store == UpdateMemberRole(w.store, workspaceId.value, session.value.id, memberId.value, ParseRole(role).value, now).store
    ensures session.Some? && AtLeast(workspaceId, 1) && AtLeast(memberId, 1) && role.None? ==>
              r == Outcome(w, Failure(InvalidInput("role")))
  {
    var invalid := Check("workspaceId", AtLeast(workspaceId, 1), Check("memberId", AtLeast(memberId, 1), Check("role", ParseRole(role).Some?, None)));
    match Admit(w, session, invalid, None, RateEnv("", 0, 0, 0))
    case Rejected(reason) => Outcome(w, Failure(reason))
    case Admitted(user, buckets) =>
      Settle(UpdateMemberRole(w.store, workspaceId.value, user.id, memberId.value, ParseRole(role).value, now), buckets, (_: Membership) => ())
  }

  // ----------------------------------------------------- billing actions

  /**
   * The billing actions' workspace: the form value when it is a non-empty
   * string, otherwise the session's default workspace.
   */
  function BillingWorkspace(user: SessionUser, workspaceId: Option<string>): (r: Option<WorkspaceId>)
    ensures AtLeast(workspaceId, 1) ==> r == workspaceId
    ensures !AtLeast(workspaceId, 1) ==> r == user.defaultWorkspaceId
  {
    if AtLeast(workspaceId, 1) then workspaceId else user.defaultWorkspaceId
  }

  /** What a billing action needs from outside: the billing environment and the provider's answers. */
  datatype Provider = Provider(env: BillingEnv, customer: Reply<string>, session: Reply<ProviderSession>)

  /**
   * `startCheckoutAction` as written: `enforceRateLimit` is called without
   * `await`, so the bucket is consumed but a refusal never reaches the
   * `catch`; the checkout is started whatever the limiter says.
   */
  function StartCheckoutActionAsWritten(w: World, session: Option<SessionUser>, workspaceId: Option<string>, rate: RateEnv,
                                        provider: Provider, now: int): (r: Outcome<string>)
    ensures session.None? ==> r == Outcome(w, Failure(Unauthorized))
    ensures session.Some? && !Present(BillingWorkspace(session.value, workspaceId)) ==> r == Outcome(w, Failure(NoWorkspaceSelected))
    ensures r.result != Failure(RateLimited)
    ensures session.Some? && Present(BillingWorkspace(session.value, workspaceId)) ==>
              var step := CreateCheckoutSession(w.store, provider.env, BillingWorkspace(session.value, workspaceId).value,
                                                session.value.id, provider.customer, provider.session, now);
              && r.world == World(step.store, EnforceRateLimit(w.buckets, "billing:checkout:" + session.value.id, rate).buckets)
              && (step.result.Ok? ==> r.result == Success(step.result.value.url))
              && (step.result.Err? ==> r.result == Failure(EngineFailed(step.result.error)))
  {
    match session
    case None => Outcome(w, Failure(Unauthorized))
    case Some(user) =>
      var target := BillingWorkspace(user, workspaceId);
      if !Present(target) then Outcome(w, Failure(NoWorkspaceSelected))
      else
        var ignored := EnforceRateLimit(w.buckets, "billing:checkout:" + user.id, rate);
        var step := CreateCheckoutSession(w.store, provider.env, target.value, user.id, provider.customer, provider.session, now);
        Settle(step, ignored.buckets, (redirect: Redirect) => redirect.url)
  }

  /** `startBillingPortalAction` as written, with the same unawaited limiter call. */
  function StartBillingPortalActionAsWritten(w: World, session: Option<SessionUser>, workspaceId: Option<string>, rate: RateEnv,
                                             provider: Provider, now: int): (r: Outcome<string>)
    ensures session.None? ==> r == Outcome(w, Failure(Unauthorized))
    ensures session.Some? && !Present(BillingWorkspace(session.value, workspaceId)) ==> r == Outcome(w, Failure(NoWorkspaceSelected))
    ensures r.result != Failure(RateLimited)
    ensures session.Some? && Present(BillingWorkspace(session.value, workspaceId)) ==>
              var step := CreateBillingPortalSession(w.store, provider.env, BillingWorkspace(session.value, workspaceId).value,
                                                     session.value.id, provider.customer, provider.session, now);
              && r.world == World(step.store, EnforceRateLimit(w.buckets, "billing:portal:" + session.value.id, rate).buckets)
              && (step.result.Ok? ==> r.result == Success(step.result.value.url))
              && (step.result.Err? ==> r.result == Failure(EngineFailed(step.result.error)))
  {
    match session
    case None => Outcome(w, Failure(Unauthorized))
    case Some(user) =>
      var target := BillingWorkspace(user, workspaceId);
      if !Present(target) then Outcome(w, Failure(NoWorkspaceSelected))
      else
        var ignored := EnforceRateLimit(w.buckets, "billing:portal:" + user.id, rate);
        var step := CreateBillingPortalSession(w.store, provider.env, target.value, user.id, provider.customer, provider.session, now);
        Settle(step, ignored.buckets, (redirect: Redirect) => redirect.url)
  }

  /**
   * `startCheckoutAction` with the limiter awaited, as the surrounding
   * `try`/`catch` intends: a refused request fails with "Too many requests"
   * and never reaches billing.
   */
  function StartCheckoutAction(w: World, session: Option<SessionUser>, workspaceId: Option<string>, rate: RateEnv,
                               provider: Provider, now: int): (r: Outcome<string>)
    ensures session.None? ==> r == Outcome(w, Failure(Unauthorized))
    ensures session.Some? && !Present(BillingWorkspace(session.value, workspaceId)) ==> r == Outcome(w, Failure(NoWorkspaceSelected))
    ensures session.Some? && Present(BillingWorkspace(session.value, workspaceId)) ==>
              var checked := EnforceRateLimit(w.buckets, "billing:checkout:" + session.value.id, rate);
              && (!checked.result.success ==> r == Outcome(w, Failure(RateLimited)))
              && (checked.result.success ==>
                    var step := CreateCheckoutSession(w.store, provider.env, BillingWorkspace(session.value, workspaceId).value,
                                                      session.value.id, provider.customer, provider.session, now);
                    && r.world == World(step.store, checked.buckets)
                    && (step.result.Ok? ==> r.result == Success(step.result.value.url))
                    && (step.result.Err? ==> r.result == Failure(EngineFailed(step.result.error))))
  {
    match session
    case None => Outcome(w, Failure(Unauthorized))
    case Some(user) =>
      var target := BillingWorkspace(user, workspaceId);
      if !Present(target) then Outcome(w, Failure(NoWorkspaceSelected))
      else
        var checked := EnforceRateLimit(w.buckets, "billing:checkout:" + user.id, rate);
        if !checked.result.success then Outcome(w, Failure(RateLimited))
        else
          var step := CreateCheckoutSession(w.store, provider.env, target.value, user.id, provider.customer, provider.session, now);
          Settle(step, checked.buckets, (redirect: Redirect) => redirect.url)
  }

  /** `startBillingPortalAction` with the limiter awaited. */
  function StartBillingPortalAction(w: World, session: Option<SessionUser>, workspaceId: Option<string>, rate: RateEnv,
                                    provider: Provider, now: int): (r: Outcome<string>)
    ensures session.None? ==> r == Outcome(w, Failure(Unauthorized))
    ensures session.Some? && !Present(BillingWorkspace(session.value, workspaceId)) ==> r == Outcome(w, Failure(NoWorkspaceSelected))
    ensures session.Some? && Present(BillingWorkspace(session.value, workspaceId)) ==>
              var checked := EnforceRateLimit(w.buckets, "billing:portal:" + session.value.id, rate);
              && (!checked.result.success ==> r == Outcome(w, Failure(RateLimited)))
              && (checked.result.success ==>
                    var step := CreateBillingPortalSession(w.store, provider.env, BillingWorkspace(session.value, workspaceId).value,
                                                           session.value.id, provider.customer, provider.session, now);
                    && r.world == World(step.store, checked.buckets)
                    && (step.result.Ok? ==> r.result == Success(step.result.value.url))
                    && (step.result.Err? ==> r.result == Failure(EngineFailed(step.result.error))))
  {
    match session
    case None => Outcome(w, Failure(Unauthorized))
    case Some(user) =>
      var target := BillingWorkspace(user, workspaceId);
      if !Present(target) then Outcome(w, Failure(NoWorkspaceSelected))
      else
        var checked := EnforceRateLimit(w.buckets, "billing:portal:" + user.id, rate);
        if !checked.result.success then Outcome(w, Failure(RateLimited))
        else
          var step := CreateBillingPortalSession(w.store, provider.env, target.value, user.id, provider.customer, provider.session, now);
          Settle(step, checked.buckets, (redirect: Redirect) => redirect.url)
  }
}

=== FILE: avatar.dfy ===
/**
 * The avatar's fallback label (src/components/ui/avatar.tsx): the first
 * characters of the first two space-separated words of the name, upper-cased,
 * with "User" standing in for an empty name.
 */
module Avatar {
  import opened Text

  /** `filter(Boolean)` on strings: drop the empty ones. */
  function NonEmptyParts(parts: seq<string>): (r: seq<string>)
    ensures |r| <= |parts|
    ensures forall i :: 0 <= i < |r| ==> r[i] != ""
    ensures forall p :: p in r <==> p in parts && p != ""
  {
    if parts == [] then []
    else (if parts[0] != "" then [parts[0]] else []) + NonEmptyParts(parts[1..])
  }

  /** `map((part) => part[0])` over non-empty parts. */
  function Heads(parts: seq<string>): (r: seq<char>)
    requires forall i :: 0 <= i < |parts| ==> parts[i] != ""
    ensures |r| == |parts| && forall i :: 0 <= i < |parts| ==> r[i] == parts[i][0]
  {
    if parts == [] then [] else [parts[0][0]] + Heads(parts[1..])
  }

  /** `slice(0, n)`. */
  function Take<T>(xs: seq<T>, n: nat): (r: seq<T>)
    ensures |r| == if |xs| < n then |xs| else n
    ensures r == xs[..|r|]
  {
    if |xs| < n then xs else xs[..n]
  }

  /** `getInitials`. */
  function GetInitials(name: string): (r: string)
    ensures |r| <= 2
    ensures forall i :: 0 <= i < |r| ==> !('a' <= r[i] <= 'z') && r[i] != ' '
  {
    var parts := Split(name, ' ');
    var words := NonEmptyParts(parts);
    var firstTwo := Take(words, 2);
    assert forall i :: 0 <= i < |firstTwo| ==> firstTwo[i][0] != ' ' by {
      forall i | 0 <= i < |firstTwo|
        ensures firstTwo[i][0] != ' '
      {
        assert firstTwo[i] == words[i] && words[i] in parts;
        var k :| 0 <= k < |parts| && parts[k] == words[i];
        assert parts[k][0] != ' ';
      }
    }
    ToUpper(Heads(firstTwo))
  }

  /** What the avatar shows without an image: `getInitials(name || "User")`. */
  function AvatarLabel(name: string): (r: string)
    ensures name == "" ==> r == "U"
    ensures |r| <= 2
  {
    var initials := GetInitials(if name == "" then "User" else name);
    assert Split("User", ' ') == ["User"] by { SplitWithoutSeparator("User", ' '); }
    initials
  }

  // ---------------------------------------------- reference definition

  /**
   * The characters that begin a word: non-space characters at the start of
   * the string or right after a space. `atBoundary` says whether the
   * character before `s` was a space (or there was none).
   */
  function WordStartsFrom(s: string, atBoundary: bool): (r: seq<char>)
    ensures forall i :: 0 <= i < |r| ==> r[i] != ' ' && r[i] in s
  {
    if s == [] then []
    else if s[0] == ' ' then WordStartsFrom(s[1..], true)
    else (if atBoundary then [s[0]] else []) + WordStartsFrom(s[1..], false)
  }

  function WordStarts(s: string): seq<char> {
    WordStartsFrom(s, true)
  }

  /** A string without the separator splits into itself alone. */
  lemma {:induction false} SplitWithoutSeparator(s: string, sep: char)
    requires forall i :: 0 <= i < |s| ==> s[i] != sep
    ensures Split(s, sep) == [s]
  {
    if s != [] {
      SplitWithoutSeparator(s[1..], sep);
      assert [s[0]] + s[1..] == s;
    }
  }

  lemma {:induction false} NonEmptyPartsAppend(a: seq<string>, b: seq<string>)
    ensures NonEmptyParts(a + b) == NonEmptyParts(a) + NonEmptyParts(b)
  {
    if a != [] {
      assert (a + b)[0] == a[0] && (a + b)[1..] == a[1..] + b;
      NonEmptyPartsAppend(a[1..], b);
      var head := if a[0] != "" then [a[0]] else [];
      assert NonEmptyParts(a + b) == head + NonEmptyParts(a[1..] + b);
      assert NonEmptyParts(a) == head + NonEmptyParts(a[1..]);
    } else {
      assert a + b == b;
    }
  }

  /**
   * The heads of the non-empty parts of a split are exactly the word starts;
   * the second half covers a string continuing a word, whose first part
   * belongs to that word and is dropped.
   */
  lemma {:induction false} HeadsOfPartsAreWordStarts(s: string)
    ensures Heads(NonEmptyParts(Split(s, ' '))) == WordStartsFrom(s, true)
    ensures Heads(NonEmptyParts(Split(s, ' ')[1..])) == WordStartsFrom(s, false)
  {
    if s != [] {
      HeadsOfPartsAreWordStarts(s[1..]);
      var rest := Split(s[1..], ' ');
      if s[0] == ' ' {
        assert Split(s, ' ') == [""] + rest;
        NonEmptyPartsAppend([""], rest);
      } else {
        var first := [s[0]] + rest[0];
        assert Split(s, ' ') == [first] + rest[1..];
        NonEmptyPartsAppend([first], rest[1..]);
        var words := NonEmptyParts(rest[1..]);
        assert NonEmptyParts(Split(s, ' ')) == [first] + words;
        assert ([first] + words)[1..] == words;
        assert Heads([first] + words) == [s[0]] + Heads(words);
      }
    }
  }

  /** The initials are the first two word starts, upper-cased. */
  lemma InitialsAreWordStarts(name: string)
    ensures GetInitials(name) == ToUpper(Take(WordStarts(name), 2))
  {
    HeadsOfPartsAreWordStarts(name);
    var words := NonEmptyParts(Split(name, ' '));
    var firstTwo := Take(words, 2);
    assert Heads(firstTwo) == Take(Heads(words), 2);
  }

  /** A name of spaces only has no initials: the avatar shows nothing. */
  lemma BlankNameHasNoInitials(name: string)
    requires name != [] && forall i :: 0 <= i < |name| ==> name[i] == ' '
    ensures AvatarLabel(name) == ""
  {
    InitialsAreWordStarts(name);
    assert WordStarts(name) == [] by { OnlySpacesHaveNoStarts(name, true); }
  }

  lemma {:induction false} OnlySpacesHaveNoStarts(s: string, atBoundary: bool)
    requires forall i :: 0 <= i < |s| ==> s[i] == ' '
    ensures WordStartsFrom(s, atBoundary) == []
  {
    if s != [] {
      OnlySpacesHaveNoStarts(s[1..], true);
    }
  }
}

=== FILE: billing.dfy ===
/**
 * Billing reconciliation (src/server/billing.ts): the live/stub decision,
 * the stub checkout and portal effects, customer-id caching and the Stripe
 * webhook reducer. Every call into Stripe is a parameter carrying the
 * provider's answer: the created customer, the created checkout or portal
 * session, the verified event (or a failed signature check) and the
 * retrieved subscription.
 */
module Billing {
  import opened Wrappers
  import opened Text
  import opened Domain

  /**
   * The billing environment. `hasClient` says whether the Stripe client was
   * constructed when the module was loaded (from a truthy secret key then);
   * the other fields are read from the environment at each call.
   */
  datatype BillingEnv = BillingEnv(
    hasClient: bool,
    secretKey: Option<string>,
    priceIdPro: Option<string>,
    webhookSecret: Option<string>,
    appUrl: string)

  datatype Mode = Live | Stub

  datatype RuntimeInfo = RuntimeInfo(mode: Mode, webhookConfigured: bool)

  /** Where checkout or the portal sends the browser, and in which mode it was produced. */
  datatype Redirect = Redirect(url: string, mode: Mode)

  /** A checkout or portal session as the provider returns it. */
  datatype ProviderSession = ProviderSession(id: string, url: string)

  /** A provider call: the created object, or the message of the error it threw. */
  type Reply<T> = Result<T, string>

  // ------------------------------------------------------------- runtime

  /** `getBillingRuntimeInfo`. */
  function GetBillingRuntimeInfo(env: BillingEnv): (r: RuntimeInfo)
    ensures r.mode == Live <==> env.hasClient && Present(env.secretKey) && Present(env.priceIdPro)
    ensures r.webhookConfigured ==> r.mode == Live
    ensures r.webhookConfigured <==> r.mode == Live && Present(env.webhookSecret)
  {
    var hasSecret := Present(env.secretKey) && Present(env.priceIdPro);
    var hasWebhook := Present(env.webhookSecret);
    RuntimeInfo(if hasSecret && env.hasClient then Live else Stub, hasWebhook && hasSecret && env.hasClient)
  }

  /** Checkout takes its stub path exactly when the runtime info reports stub mode. */
  function CheckoutIsStub(env: BillingEnv): (stub: bool)
    ensures stub <==> GetBillingRuntimeInfo(env).mode == Stub
  {
    !env.hasClient || !Present(env.priceIdPro) || !Present(env.secretKey)
  }

  /** The portal takes its stub path without a client or a secret key; the price id plays no part. */
  function PortalIsStub(env: BillingEnv): (stub: bool)
    ensures stub ==> CheckoutIsStub(env)
    ensures Present(env.priceIdPro) ==> (stub <==> CheckoutIsStub(env))
  {
    !env.hasClient || !Present(env.secretKey)
  }

  /** The webhook is skipped without a client or a webhook secret. */
  function WebhookIsStub(env: BillingEnv): (stub: bool)
    ensures stub ==> !GetBillingRuntimeInfo(env).webhookConfigured
    ensures !stub ==> env.hasClient && Present(env.webhookSecret)
  {
    !env.hasClient || !Present(env.webhookSecret)
  }

  // ------------------------------------------------------------- lookups

  /** `ensureWorkspace`: the index of the workspace with that id, or "Workspace not found". */
  function EnsureWorkspace(s: Store, w: WorkspaceId): (r: Result<nat, EngineError>)
    ensures r.Ok? ==> r.value < |s.workspaces| && s.workspaces[r.value].id == w
    ensures r.Err? <==> forall i :: 0 <= i < |s.workspaces| ==> s.workspaces[i].id != w
    ensures r.Err? ==> r.error == WorkspaceNotFound
  {
    match FindWorkspace(s.workspaces, Id(w))
    case None => Err(WorkspaceNotFound)
    case Some(i) => Ok(i)
  }

  /** `findWorkspaceIdByCustomer`: a falsy customer id finds nothing; otherwise the first workspace holding it. */
  function FindWorkspaceIdByCustomer(s: Store, customer: Option<string>): (r: Option<WorkspaceId>)
    ensures !Present(customer) ==> r.None?
    ensures r.Some? ==> exists i :: 0 <= i < |s.workspaces| && s.workspaces[i].id == r.value && s.workspaces[i].stripeCustomerId == customer
    ensures Present(customer) && r.None? ==> forall i :: 0 <= i < |s.workspaces| ==> s.workspaces[i].stripeCustomerId != customer
  {
    if !Present(customer) then None
    else match FindWorkspace(s.workspaces, Customer(customer.value))
      case None => None
      case Some(i) => Some(s.workspaces[i].id)
  }

  /** `findWorkspaceIdBySubscription`, the same lookup on the subscription id. */
  function FindWorkspaceIdBySubscription(s: Store, subscription: Option<string>): (r: Option<WorkspaceId>)
    ensures !Present(subscription) ==> r.None?
    ensures r.Some? ==> exists i :: 0 <= i < |s.workspaces| && s.workspaces[i].id == r.value && s.workspaces[i].stripeSubscriptionId == subscription
    ensures Present(subscription) && r.None? ==> forall i :: 0 <= i < |s.workspaces| ==> s.workspaces[i].stripeSubscriptionId != subscription
  {
    if !Present(subscription) then None
    else match FindWorkspace(s.workspaces, Subscription(subscription.value))
      case None => None
      case Some(i) => Some(s.workspaces[i].id)
  }

  /** The store with the workspace at index `i` replaced. */
  function SetWorkspace(s: Store, i: nat, w: Workspace): (s': Store)
    requires i < |s.workspaces|
    ensures |s'.workspaces| == |s.workspaces| && s'.workspaces[i] == w
    ensures forall j :: 0 <= j < |s.workspaces| && j != i ==> s'.workspaces[j] == s.workspaces[j]
    ensures s'.(workspaces := s.workspaces) == s
  {
    s.(workspaces := s.workspaces[i := w])
  }

  // ------------------------------------------------------------ customers

  function StubCustomerId(w: WorkspaceId): string {
    "stub_cus_" + w
  }

  /**
   * `ensureStripeCustomer`: a stored (truthy) customer id is returned
   * without asking the provider; otherwise `stub_cus_<id>` without a client,
   * or the provider's new customer, is stored and returned.
   */
  function EnsureStripeCustomer(s: Store, env: BillingEnv, w: WorkspaceId, created: Reply<string>): (r: Step<string>)
    ensures r.result.Err? ==> r.store == s
    ensures EnsureWorkspace(s, w).Err? ==> r == Step(s, Err(WorkspaceNotFound))
    ensures r.store.members == s.members && r.store.invites == s.invites && r.store.users == s.users && r.store.audit == s.audit
    ensures EnsureWorkspace(s, w).Ok? ==>
              var i := EnsureWorkspace(s, w).value;
              && (Present(s.workspaces[i].stripeCustomerId) ==> r == Step(s, Ok(s.workspaces[i].stripeCustomerId.value)))
              && (!Present(s.workspaces[i].stripeCustomerId) && created.Err? && env.hasClient ==>
                    r == Step(s, Err(ProviderFailed(created.error))))
              && (!Present(s.workspaces[i].stripeCustomerId) && (!env.hasClient || created.Ok?) ==>
                    var id := if env.hasClient then created.value else StubCustomerId(w);
                    r == Step(SetWorkspace(s, i, s.workspaces[i].(stripeCustomerId := Some(id))), Ok(id)))
              && (r.result.Ok? && r.store != s ==>
                    && !Present(s.workspaces[i].stripeCustomerId)
                    && r.result.value == (if env.hasClient then created.value else StubCustomerId(w))
                    && r.store == SetWorkspace(s, i, s.workspaces[i].(stripeCustomerId := Some(r.result.value))))
    ensures r.result.Ok? ==> exists i :: 0 <= i < |r.store.workspaces| && r.store.workspaces[i].id == w &&
                                         r.store.workspaces[i].stripeCustomerId == Some(r.result.value)
  {
    match EnsureWorkspace(s, w)
    case Err(e) => Step(s, Err(e))
    case Ok(i) =>
      var workspace := s.workspaces[i];
      if Present(workspace.stripeCustomerId) then Step(s, Ok(workspace.stripeCustomerId.value))
      else if !env.hasClient then
        var id := StubCustomerId(w);
        Step(SetWorkspace(s, i, workspace.(stripeCustomerId := Some(id))), Ok(id))
      else match created
        case Err(e) => Step(s, Err(ProviderFailed(e)))
        case Ok(id) => Step(SetWorkspace(s, i, workspace.(stripeCustomerId := Some(id))), Ok(id))
  }

  // ------------------------------------------------------------- checkout

  function StubSuccessUrl(appUrl: string, w: WorkspaceId): string {
    appUrl + "/billing/success?workspaceId=" + w + "&mode=stub"
  }

  function StubPortalUrl(appUrl: string, w: WorkspaceId): string {
    appUrl + "/billing/portal?workspaceId=" + w + "&mode=stub"
  }

  /** The URL ends with the `mode=stub` query parameter. */
  predicate MarksStub(url: string) {
    |url| >= 10 && url[|url| - 10..] == "&mode=stub"
  }

  /**
   * `createCheckoutSession`. In stub mode the workspace is upgraded at once
   * (PRO, ACTIVE, `stub_sub_<id>`) and the success page URL is returned; in
   * live mode the customer is ensured, a session is created and audited,
   * and its URL is returned. A session that fails to be created leaves a
   * newly cached customer id in place.
   */
  function CreateCheckoutSession(s: Store, env: BillingEnv, w: WorkspaceId, actorId: UserId,
                                 customer: Reply<string>, session: Reply<ProviderSession>, now: int): (r: Step<Redirect>)
    ensures EnsureWorkspace(s, w).Err? ==> r == Step(s, Err(WorkspaceNotFound))
    ensures r.store.members == s.members && r.store.invites == s.invites && r.store.users == s.users
    ensures r.result.Ok? ==> r.result.value.mode == GetBillingRuntimeInfo(env).mode
    ensures EnsureWorkspace(s, w).Ok? && CheckoutIsStub(env) ==>
              var i := EnsureWorkspace(s, w).value;
              && r.result == Ok(Redirect(StubSuccessUrl(env.appUrl, w), Stub))
              && MarksStub(r.result.value.url)
              && r.store.workspaces == s.workspaces[i := s.workspaces[i].(plan := Pro, billingStatus := BillingActive,
                                                                           stripeSubscriptionId := Some("stub_sub_" + w),
                                                                           subscriptionStatusChangedAt := Some(now))]
              && r.store.audit == s.audit + [AuditEntry(Some(w), Some(actorId), "billing.stub.upgraded", None, map[], now)]
    ensures EnsureWorkspace(s, w).Ok? && !CheckoutIsStub(env) ==>
              var c := EnsureStripeCustomer(s, env, w, customer);
              && (c.result.Err? ==> r == Step(c.store, Err(c.result.error)))
              && (c.result.Ok? && session.Err? ==> r == Step(c.store, Err(ProviderFailed(session.error))))
              && (c.result.Ok? && session.Ok? ==>
                    && r.result == Ok(Redirect(session.value.url, Live))
                    && r.store.workspaces == c.store.workspaces
                    && r.store.audit == s.audit + [AuditEntry(Some(w), Some(actorId), "billing.checkout.created", None,
                                                              map["sessionId" := session.value.id], now)])
  {
    match EnsureWorkspace(s, w)
    case Err(e) => Step(s, Err(e))
    case Ok(i) =>
      var workspace := s.workspaces[i];
      if CheckoutIsStub(env) then
        var upgraded := workspace.(plan := Pro, billingStatus := BillingActive,
                                   stripeSubscriptionId := Some("stub_sub_" + workspace.id),
                                   subscriptionStatusChangedAt := Some(now));
        var entry := AuditEntry(Some(workspace.id), Some(actorId), "billing.stub.upgraded", None, map[], now);
        Step(Record(SetWorkspace(s, i, upgraded), entry), Ok(Redirect(StubSuccessUrl(env.appUrl, workspace.id), Stub)))
      else
        var c := EnsureStripeCustomer(s, env, workspace.id, customer);
        match c.result
        case Err(e) => Step(c.store, Err(e))
        case Ok(_) =>
          match session
          case Err(e) => Step(c.store, Err(ProviderFailed(e)))
          case Ok(created) =>
            var entry := AuditEntry(Some(workspace.id), Some(actorId), "billing.checkout.created", None, map["sessionId" := created.id], now);
            Step(Record(c.store, entry), Ok(Redirect(created.url, Live)))
  }

  /**
   * `createBillingPortalSession`. In stub mode only an audit entry is
   * written and the stub portal URL is returned; in live mode the customer
   * is ensured and a portal session is created and audited.
   */
  function CreateBillingPortalSession(s: Store, env: BillingEnv, w: WorkspaceId, actorId: UserId,
                                      customer: Reply<string>, session: Reply<ProviderSession>, now: int): (r: Step<Redirect>)
    ensures EnsureWorkspace(s, w).Err? ==> r == Step(s, Err(WorkspaceNotFound))
    ensures r.store.members == s.members && r.store.invites == s.invites && r.store.users == s.users
    ensures r.result.Ok? ==> (r.result.value.mode == Stub <==> PortalIsStub(env))
    ensures EnsureWorkspace(s, w).Ok? && PortalIsStub(env) ==>
              && r.result == Ok(Redirect(StubPortalUrl(env.appUrl, w), Stub))
              && MarksStub(r.result.value.url)
              && r.store.workspaces == s.workspaces
              && r.store.audit == s.audit + [AuditEntry(Some(w), Some(actorId), "billing.stub.portal", None, map[], now)]
    ensures EnsureWorkspace(s, w).Ok? && !PortalIsStub(env) ==>
              var c := EnsureStripeCustomer(s, env, w, customer);
              && (c.result.Err? ==> r == Step(c.store, Err(c.result.error)))
              && (c.result.Ok? && session.Err? ==> r == Step(c.store, Err(ProviderFailed(session.error))))
              && (c.result.Ok? && session.Ok? ==>
                    && r.result == Ok(Redirect(session.value.url, Live))
                    && r.store.workspaces == c.store.workspaces
                    && r.store.audit == s.audit + [AuditEntry(Some(w), Some(actorId), "billing.portal.created", None,
                                                              map["portalSessionId" := session.value.id], now)])
  {
    match EnsureWorkspace(s, w)
    case Err(e) => Step(s, Err(e))
    case Ok(i) =>
      var workspace := s.workspaces[i];
      if PortalIsStub(env) then
        var entry := AuditEntry(Some(workspace.id), Some(actorId), "billing.stub.portal", None, map[], now);
        Step(Record(s, entry), Ok(Redirect(StubPortalUrl(env.appUrl, workspace.id), Stub)))
      else
        var c := EnsureStripeCustomer(s, env, workspace.id, customer);
        match c.result
        case Err(e) => Step(c.store, Err(e))
        case Ok(_) =>
          match session
          case Err(e) => Step(c.store, Err(ProviderFailed(e)))
          case Ok(created) =>
            var entry := AuditEntry(Some(workspace.id), Some(actorId), "billing.portal.created", None,
                                    map["portalSessionId" := created.id], now);
            Step(Record(c.store, entry), Ok(Redirect(created.url, Live)))
  }

  // -------------------------------------------------------------- webhook

  /** A completed checkout session: its metadata workspace id, subscription id and customer id. */
  datatype CheckoutSession = CheckoutSession(metadataWorkspaceId: Option<string>, subscription: Option<string>, customer: Option<string>)

  /** A subscription object: id, provider status, metadata workspace id and customer id. */
  datatype StripeSubscription = StripeSubscription(id: string, status: string, metadataWorkspaceId: Option<string>, customer: Option<string>)

  /** A verified event, by type. */
  datatype StripeEvent =
    | CheckoutSessionCompleted(session: CheckoutSession)
    | SubscriptionUpdated(subscription: StripeSubscription)
    | SubscriptionDeleted(subscription: StripeSubscription)
    | Unhandled(eventType: string)

  /** The provider's status mapped to the local one: anything but `active` and `past_due` is CANCELED. */
  function LocalStatus(status: string): (r: BillingStatus)
    ensures r != BillingNone
    ensures r == BillingActive <==> status == "active"
    ensures r == BillingPastDue <==> status == "past_due"
  {
    if status == "active" then BillingActive
    else if status == "past_due" then BillingPastDue
    else BillingCanceled
  }

  /**
   * The workspace id a completed checkout belongs to: the session metadata,
   * else (when the session names a subscription) the retrieved
   * subscription's metadata, else its customer, else the session's
   * customer. A failed retrieval is ignored.
   */
  function ResolveCheckoutWorkspace(s: Store, session: CheckoutSession, retrieved: Reply<StripeSubscription>): (r: Option<WorkspaceId>)
    // 1. The session's own metadata wins.
    ensures Present(session.metadataWorkspaceId) ==> r == session.metadataWorkspaceId
    // 2. Else a retrieved subscription's metadata,
    ensures (!Present(session.metadataWorkspaceId) && Present(session.subscription) && retrieved.Ok? &&
             Present(retrieved.value.metadataWorkspaceId)) ==> r == retrieved.value.metadataWorkspaceId
    // 3. else the workspace holding the retrieved subscription's customer,
    ensures (!Present(session.metadataWorkspaceId) && Present(session.subscription) && retrieved.Ok? &&
             !Present(retrieved.value.metadataWorkspaceId) && Present(FindWorkspaceIdByCustomer(s, retrieved.value.customer))) ==>
              r == FindWorkspaceIdByCustomer(s, retrieved.value.customer)
    // 4. else, when no subscription was named, the retrieval failed or it found nothing, the session's customer.
    ensures (!Present(session.metadataWorkspaceId) &&
             (!Present(session.subscription) || retrieved.Err? ||
              (!Present(retrieved.value.metadataWorkspaceId) && !Present(FindWorkspaceIdByCustomer(s, retrieved.value.customer))))) ==>
              (Present(session.customer) ==> r == FindWorkspaceIdByCustomer(s, session.customer)) &&
              (!Present(session.customer) ==> !Present(r))
  {
    var fromSession := session.metadataWorkspaceId;
    var afterRetrieve :=
      if !Present(fromSession) && Present(session.subscription) then
        match retrieved
        case Err(_) => fromSession
        case Ok(sub) =>
          if Present(sub.metadataWorkspaceId) then sub.metadataWorkspaceId
          else FindWorkspaceIdByCustomer(s, sub.customer)
      else fromSession;
    if !Present(afterRetrieve) && Present(session.customer) then FindWorkspaceIdByCustomer(s, session.customer)
    else afterRetrieve
  }

  /** The workspace id a subscription event belongs to: metadata, else subscription id, else customer. */
  function ResolveSubscriptionWorkspace(s: Store, sub: StripeSubscription): (r: Option<WorkspaceId>)
    ensures Present(sub.metadataWorkspaceId) ==> r == sub.metadataWorkspaceId
    ensures !Present(sub.metadataWorkspaceId) && Present(FindWorkspaceIdBySubscription(s, Some(sub.id))) ==>
              r == FindWorkspaceIdBySubscription(s, Some(sub.id))
    ensures !Present(sub.metadataWorkspaceId) && !Present(FindWorkspaceIdBySubscription(s, Some(sub.id))) ==>
              r == FindWorkspaceIdByCustomer(s, sub.customer)
  {
    var fromMetadata := sub.metadataWorkspaceId;
    var bySubscription := if !Present(fromMetadata) then FindWorkspaceIdBySubscription(s, Some(sub.id)) else fromMetadata;
    if !Present(bySubscription) then FindWorkspaceIdByCustomer(s, sub.customer) else bySubscription
  }

  /** The workspace after a completed checkout: PRO, ACTIVE, the session's subscription and customer. */
  function Activated(w: Workspace, subscriptionId: string, customerId: Option<string>, now: int): (r: Workspace)
    ensures r.plan == Pro && r.billingStatus == BillingActive
    ensures r.stripeSubscriptionId == Some(subscriptionId) && r.stripeCustomerId == customerId
    ensures r.subscriptionStatusChangedAt == Some(now)
    ensures r.(plan := w.plan, billingStatus := w.billingStatus, stripeSubscriptionId := w.stripeSubscriptionId,
               stripeCustomerId := w.stripeCustomerId, subscriptionStatusChangedAt := w.subscriptionStatusChangedAt) == w
  {
    w.(plan := Pro, billingStatus := BillingActive, stripeSubscriptionId := Some(subscriptionId),
       stripeCustomerId := customerId, subscriptionStatusChangedAt := Some(now))
  }

  /** The workspace after a subscription event: mapped status, the subscription id, FREE when CANCELED. */
  function Reconciled(w: Workspace, sub: StripeSubscription, now: int): (r: Workspace)
    ensures r.billingStatus == LocalStatus(sub.status) && r.stripeSubscriptionId == Some(sub.id)
    ensures r.plan == (if LocalStatus(sub.status) == BillingCanceled then Free else w.plan)
    ensures r.(billingStatus := w.billingStatus, stripeSubscriptionId := w.stripeSubscriptionId,
               subscriptionStatusChangedAt := w.subscriptionStatusChangedAt, plan := w.plan) == w
  {
    var status := LocalStatus(sub.status);
    w.(billingStatus := status, stripeSubscriptionId := Some(sub.id), subscriptionStatusChangedAt := Some(now),
       plan := if status == BillingCanceled then Free else w.plan)
  }

  /** `prisma.workspace.update` by id: the changed workspace, or "Record to update not found.". */
  function UpdateWorkspaceById(s: Store, w: WorkspaceId, change: Workspace -> Workspace): (r: Result<Store, EngineError>)
    ensures r.Err? <==> forall i :: 0 <= i < |s.workspaces| ==> s.workspaces[i].id != w
    ensures r.Err? ==> r.error == MissingRecord
    ensures r.Ok? ==> FindWorkspace(s.workspaces, Id(w)).Some? &&
                      r.value == SetWorkspace(s, FindWorkspace(s.workspaces, Id(w)).value,
                                              change(s.workspaces[FindWorkspace(s.workspaces, Id(w)).value]))
  {
    match FindWorkspace(s.workspaces, Id(w))
    case None => Err(MissingRecord)
    case Some(i) => Ok(SetWorkspace(s, i, change(s.workspaces[i])))
  }

  /**
   * `handleStripeWebhook`. `verified` is the event the signature check
   * produced, `None` when it threw; `retrieved` answers the subscription
   * lookup a completed checkout without metadata makes.
   */
  function HandleStripeWebhook(s: Store, env: BillingEnv, verified: Option<StripeEvent>, retrieved: Reply<StripeSubscription>, now: int): (r: Step<Mode>)
    ensures WebhookIsStub(env) ==> r == Step(s, Ok(Stub))
    ensures !WebhookIsStub(env) && verified.None? ==> r == Step(s, Err(InvalidSignature))
    ensures r.result.Err? ==> r.store == s
    ensures r.result.Ok? && !WebhookIsStub(env) ==> r.result.value == Live
    ensures r.store.members == s.members && r.store.invites == s.invites && r.store.users == s.users
    ensures verified.Some? && verified.value.Unhandled? ==> r.store == s
    ensures !WebhookIsStub(env) && verified.Some? && verified.value.CheckoutSessionCompleted? ==>
              var session := verified.value.session;
              var target := ResolveCheckoutWorkspace(s, session, retrieved);
              && (!Present(target) || !Present(session.subscription) ==> r == Step(s, Ok(Live)))
              && (Present(target) && Present(session.subscription) ==>
                    match UpdateWorkspaceById(s, target.value, ws => Activated(ws, session.subscription.value, session.customer, now))
                    case Err(e) => r == Step(s, Err(e))
                    case Ok(updated) =>
                      r == Step(Record(updated, AuditEntry(target, None, "billing.subscription.active", None,
                                                           map["subscriptionId" := session.subscription.value], now)), Ok(Live)))
    ensures !WebhookIsStub(env) && verified.Some? && (verified.value.SubscriptionUpdated? || verified.value.SubscriptionDeleted?) ==>
              var sub := verified.value.subscription;
              var target := ResolveSubscriptionWorkspace(s, sub);
              && (!Present(target) ==> r == Step(s, Ok(Live)))
              && (Present(target) ==>
                    match UpdateWorkspaceById(s, target.value, ws => Reconciled(ws, sub, now))
                    case Err(e) => r == Step(s, Err(e))
                    case Ok(updated) =>
                      r == Step(Record(updated, AuditEntry(target, None, "billing.subscription.updated", None,
                                                           map["status" := sub.status], now)), Ok(Live)))
  {
    if WebhookIsStub(env) then Step(s, Ok(Stub))
    else match verified
      case None => Step(s, Err(InvalidSignature))
      case Some(event) =>
        match event
        case CheckoutSessionCompleted(session) =>
          var target := ResolveCheckoutWorkspace(s, session, retrieved);
          if Present(target) && Present(session.subscription) then
            var subscriptionId := session.subscription.value;
            match UpdateWorkspaceById(s, target.value, ws => Activated(ws, subscriptionId, session.customer, now))
            case Err(e) => Step(s, Err(e))
            case Ok(updated) =>
              var entry := AuditEntry(target, None, "billing.subscription.active", None, map["subscriptionId" := subscriptionId], now);
              Step(Record(updated, entry), Ok(Live))
          else Step(s, Ok(Live))
        case SubscriptionUpdated(sub) => ApplySubscriptionEvent(s, sub, now)
        case SubscriptionDeleted(sub) => ApplySubscriptionEvent(s, sub, now)
        case Unhandled(_) => Step(s, Ok(Live))
  }

  /** The shared branch for `customer.subscription.updated` and `customer.subscription.deleted`. */
  function ApplySubscriptionEvent(s: Store, sub: StripeSubscription, now: int): (r: Step<Mode>)
    ensures r.result.Err? ==> r.store == s
    ensures r.result.Ok? ==> r.result.value == Live
  {
    var target := ResolveSubscriptionWorkspace(s, sub);
    if !Present(target) then Step(s, Ok(Live))
    else match UpdateWorkspaceById(s, target.value, ws => Reconciled(ws, sub, now))
      case Err(e) => Step(s, Err(e))
      case Ok(updated) =>
        var entry := AuditEntry(target, None, "billing.subscription.updated", None, map["status" := sub.status], now);
        Step(Record(updated, entry), Ok(Live))
  }
}

=== FILE: billing_properties.dfy ===
/**
 * Properties of the billing engine that relate several calls: a cached
 * customer id is stable, replaying a subscription event changes only its
 * timestamp and adds an audit entry, and checkout and the portal never
 * look at memberships.
 */
module BillingProperties {
  import opened Wrappers
  import opened Text
  import opened Domain
  import opened Billing

  /** Two workspace tables with the same ids at the same positions. */
  predicate SameIds(a: seq<Workspace>, b: seq<Workspace>) {
    |a| == |b| && forall i :: 0 <= i < |a| ==> a[i].id == b[i].id
  }

  /** Two workspace tables with the same customer ids at the same positions. */
  predicate SameCustomers(a: seq<Workspace>, b: seq<Workspace>) {
    |a| == |b| && forall i :: 0 <= i < |a| ==> a[i].stripeCustomerId == b[i].stripeCustomerId
  }

  /** A lookup by id only sees ids, so tables with the same ids answer alike. */
  lemma {:induction false} FindByIdSeesOnlyIds(a: seq<Workspace>, b: seq<Workspace>, w: WorkspaceId)
    requires SameIds(a, b)
    ensures FindWorkspace(a, Id(w)) == FindWorkspace(b, Id(w))
  {
    if a != [] {
      assert SameIds(a[1..], b[1..]);
      FindByIdSeesOnlyIds(a[1..], b[1..], w);
    }
  }

  /** A lookup by customer only sees customer ids. */
  lemma {:induction false} FindByCustomerSeesOnlyCustomers(a: seq<Workspace>, b: seq<Workspace>, c: string)
    requires SameCustomers(a, b)
    ensures FindWorkspace(a, Customer(c)) == FindWorkspace(b, Customer(c))
  {
    if a != [] {
      assert SameCustomers(a[1..], b[1..]);
      FindByCustomerSeesOnlyCustomers(a[1..], b[1..], c);
    }
  }

  lemma CustomerLookupSeesOnlyIds(s: Store, t: Store, customer: Option<string>)
    requires SameIds(s.workspaces, t.workspaces) && SameCustomers(s.workspaces, t.workspaces)
    ensures FindWorkspaceIdByCustomer(s, customer) == FindWorkspaceIdByCustomer(t, customer)
  {
    if Present(customer) {
      FindByCustomerSeesOnlyCustomers(s.workspaces, t.workspaces, customer.value);
    }
  }

  /**
   * Once a truthy customer id has been returned, every later call returns
   * it again without writing, whatever the provider would answer.
   */
  lemma EnsureStripeCustomerStable(s: Store, env: BillingEnv, w: WorkspaceId, created: Reply<string>, created2: Reply<string>)
    requires EnsureStripeCustomer(s, env, w, created).result.Ok?
    requires EnsureStripeCustomer(s, env, w, created).result.value != ""
    ensures var first := EnsureStripeCustomer(s, env, w, created);
            EnsureStripeCustomer(first.store, env, w, created2) == Step(first.store, Ok(first.result.value))
  {
    var first := EnsureStripeCustomer(s, env, w, created);
    var i := EnsureWorkspace(s, w).value;
    assert SameIds(s.workspaces, first.store.workspaces);
    FindByIdSeesOnlyIds(s.workspaces, first.store.workspaces, w);
  }

  // ------------------------------------------------------------ replay

  /** A workspace's billing state without the time of its last status change. */
  function Settled(w: Workspace): Workspace {
    w.(subscriptionStatusChangedAt := None)
  }

  /** Two stores whose workspaces agree except for status-change times. */
  predicate SameBilling(a: Store, b: Store) {
    |a.workspaces| == |b.workspaces| &&
    forall i :: 0 <= i < |a.workspaces| ==> Settled(a.workspaces[i]) == Settled(b.workspaces[i])
  }

  /** Reconciling twice with one subscription is reconciling once, up to the timestamp. */
  lemma ReconciledTwice(w: Workspace, sub: StripeSubscription, now1: int, now2: int)
    ensures Settled(Reconciled(Reconciled(w, sub, now1), sub, now2)) == Settled(Reconciled(w, sub, now1))
  {
  }

  /**
   * After a subscription event has updated workspace `target`, the same
   * event resolves to `target` again.
   */
  lemma ReplayResolvesSameWorkspace(s: Store, sub: StripeSubscription, now: int, entry: AuditEntry)
    requires Present(ResolveSubscriptionWorkspace(s, sub))
    requires FindWorkspace(s.workspaces, Id(ResolveSubscriptionWorkspace(s, sub).value)).Some?
    ensures var target := ResolveSubscriptionWorkspace(s, sub);
            var m := FindWorkspace(s.workspaces, Id(target.value)).value;
            var s1 := Record(SetWorkspace(s, m, Reconciled(s.workspaces[m], sub, now)), entry);
            ResolveSubscriptionWorkspace(s1, sub) == target
  {
    var target := ResolveSubscriptionWorkspace(s, sub);
    var m := FindWorkspace(s.workspaces, Id(target.value)).value;
    var s1 := Record(SetWorkspace(s, m, Reconciled(s.workspaces[m], sub, now)), entry);
    assert s1.workspaces[m].id == target.value && s1.workspaces[m].stripeSubscriptionId == Some(sub.id);
    assert SameIds(s.workspaces, s1.workspaces) && SameCustomers(s.workspaces, s1.workspaces);
    CustomerLookupSeesOnlyIds(s, s1, sub.customer);
    if !Present(sub.metadataWorkspaceId) && sub.id != "" {
      var before := FindWorkspace(s.workspaces, Subscription(sub.id));
      var after := FindWorkspace(s1.workspaces, Subscription(sub.id));
      assert WorkspaceMatches(s1.workspaces[m], Subscription(sub.id));
      var a := after.value;
      assert a <= m;
      if a != m {
        assert s1.workspaces[a] == s.workspaces[a];
        var k := before.value;
        assert k <= a;
        if k != m {
          assert s1.workspaces[k] == s.workspaces[k];
        }
        assert a == k;
      }
    }
  }

  /**
   * Replaying a `customer.subscription.updated` or `.deleted` event gives
   * the same plan, status and subscription id everywhere; only the
   * status-change time differs, and the replay appends one more audit entry
   * exactly when the first delivery did.
   */
  lemma SubscriptionEventReplay(s: Store, sub: StripeSubscription, now1: int, now2: int)
    requires ApplySubscriptionEvent(s, sub, now1).result.Ok?
    ensures var s1 := ApplySubscriptionEvent(s, sub, now1).store;
            var again := ApplySubscriptionEvent(s1, sub, now2);
            && again.result.Ok?
            && SameBilling(again.store, s1)
            && again.store.(workspaces := s1.workspaces, audit := s1.audit) == s1
            && (s1 == s ==> again.store == s1)
            && (s1 != s ==> |again.store.audit| == |s1.audit| + 1 && again.store.audit[..|s1.audit|] == s1.audit)
  {
    if Present(ResolveSubscriptionWorkspace(s, sub)) {
      ResolvedEventReplay(s, sub, now1, now2);
    }
  }

  /** The replay of an event whose workspace resolves: one more audit entry and the same billing fields. */
  lemma ResolvedEventReplay(s: Store, sub: StripeSubscription, now1: int, now2: int)
    requires Present(ResolveSubscriptionWorkspace(s, sub))
    requires ApplySubscriptionEvent(s, sub, now1).result.Ok?
    ensures var s1 := ApplySubscriptionEvent(s, sub, now1).store;
            var again := ApplySubscriptionEvent(s1, sub, now2);
            && again.result.Ok?
            && SameBilling(again.store, s1)
            && again.store.(workspaces := s1.workspaces, audit := s1.audit) == s1
            && |again.store.audit| == |s1.audit| + 1 && again.store.audit[..|s1.audit|] == s1.audit
  {
    var target := ResolveSubscriptionWorkspace(s, sub);
    ResolvedEventShape(s, sub, now1);
    var s1 := ApplySubscriptionEvent(s, sub, now1).store;
    var m := FindWorkspace(s.workspaces, Id(target.value)).value;
    var entry := AuditEntry(target, None, "billing.subscription.updated", None, map["status" := sub.status], now1);
    ReplayResolvesSameWorkspace(s, sub, now1, entry);
    assert SameIds(s.workspaces, s1.workspaces);
    FindByIdSeesOnlyIds(s.workspaces, s1.workspaces, target.value);
    ResolvedEventShape(s1, sub, now2);
    ReconciledTwice(s.workspaces[m], sub, now1, now2);
    var entry2 := AuditEntry(target, None, "billing.subscription.updated", None, map["status" := sub.status], now2);
    SettledUpdateKeepsBilling(s1, m, Reconciled(s1.workspaces[m], sub, now2), entry2);
  }

  /** Rewriting one workspace with the same settled fields, and recording an entry, keeps the billing fields. */
  lemma SettledUpdateKeepsBilling(s: Store, m: nat, w: Workspace, entry: AuditEntry)
    requires m < |s.workspaces| && Settled(w) == Settled(s.workspaces[m])
    ensures SameBilling(Record(SetWorkspace(s, m, w), entry), s)
  {
  }

  /** A subscription event whose workspace resolves reconciles that workspace and records one audit entry. */
  lemma ResolvedEventShape(s: Store, sub: StripeSubscription, now: int)
    requires Present(ResolveSubscriptionWorkspace(s, sub))
    requires FindWorkspace(s.workspaces, Id(ResolveSubscriptionWorkspace(s, sub).value)).Some?
    ensures var target := ResolveSubscriptionWorkspace(s, sub);
            var m := FindWorkspace(s.workspaces, Id(target.value)).value;
            var entry := AuditEntry(target, None, "billing.subscription.updated", None, map["status" := sub.status], now);
            ApplySubscriptionEvent(s, sub, now) == Step(Record(SetWorkspace(s, m, Reconciled(s.workspaces[m], sub, now)), entry), Ok(Live))
  {
  }

  // ------------------------------------------------------ authorization

  /**
   * Checkout never consults memberships: with any other membership table
   * the result is the same. A caller who is not a member of the workspace
   * can therefore start a checkout for it.
   */
  lemma CheckoutIgnoresMembership(s: Store, ms: seq<Membership>, env: BillingEnv, w: WorkspaceId, actorId: UserId,
                                  customer: Reply<string>, session: Reply<ProviderSession>, now: int)
    ensures var r := CreateCheckoutSession(s, env, w, actorId, customer, session, now);
            CreateCheckoutSession(s.(members := ms), env, w, actorId, customer, session, now) == Step(r.store.(members := ms), r.result)
  {
    var t := s.(members := ms);
    assert t.workspaces == s.workspaces;
    var c := EnsureStripeCustomer(s, env, w, customer);
    assert EnsureStripeCustomer(t, env, w, customer) == Step(c.store.(members := ms), c.result);
  }

  /** The portal never consults memberships either. */
  lemma PortalIgnoresMembership(s: Store, ms: seq<Membership>, env: BillingEnv, w: WorkspaceId, actorId: UserId,
                                customer: Reply<string>, session: Reply<ProviderSession>, now: int)
    ensures var r := CreateBillingPortalSession(s, env, w, actorId, customer, session, now);
            CreateBillingPortalSession(s.(members := ms), env, w, actorId, customer, session, now) == Step(r.store.(members := ms), r.result)
  {
    var t := s.(members := ms);
    var c := EnsureStripeCustomer(s, env, w, customer);
    assert EnsureStripeCustomer(t, env, w, customer) == Step(c.store.(members := ms), c.result);
  }

  /**
   * The webhook can run live while the runtime info reports it as not
   * configured: the info also asks for the PRO price id, the webhook does not.
   */
  lemma WebhookLiveWhileReportedUnconfigured(s: Store, env: BillingEnv, event: StripeEvent, retrieved: Reply<StripeSubscription>, now: int)
    requires env.hasClient && Present(env.secretKey) && Present(env.webhookSecret) && !Present(env.priceIdPro)
    ensures !GetBillingRuntimeInfo(env).webhookConfigured
    ensures HandleStripeWebhook(s, env, Some(event), retrieved, now).result != Ok(Stub)
  {
  }
}

=== FILE: dashboard.dfy ===
/**
 * The dashboard read model (src/server/dashboard.ts): a workspace with its
 * memberships in creation order, its pending invites and its ten newest
 * audit entries, for a caller who has a membership of any status in it.
 */
module Dashboard {
  import opened Wrappers
  import opened Domain

  /** How many audit entries the dashboard shows. */
  const AuditTrailLength: nat := 10

  datatype Metrics = Metrics(memberCount: nat, pendingInvites: nat, plan: Plan, billingStatus: BillingStatus)

  datatype DashboardData = DashboardData(
    workspace: Workspace,
    memberships: seq<Membership>,
    membership: Membership,
    invites: seq<Invite>,
    metrics: Metrics,
    auditTrail: seq<AuditEntry>)

  /** The workspace's membership rows, of any status, in creation order. */
  function MembersOf(ms: seq<Membership>, w: WorkspaceId): (r: seq<Membership>)
    ensures |r| <= |ms|
    ensures forall i :: 0 <= i < |r| ==> r[i].workspaceId == w
    ensures forall m :: m in r <==> m in ms && m.workspaceId == w
  {
    if ms == [] then []
    else (if ms[0].workspaceId == w then [ms[0]] else []) + MembersOf(ms[1..], w)
  }

  /** The workspace's pending invites, in creation order. */
  function PendingInvitesOf(vs: seq<Invite>, w: WorkspaceId): (r: seq<Invite>)
    ensures |r| <= |vs|
    ensures forall v :: v in r <==> v in vs && InviteMatches(v, PendingIn(w))
  {
    if vs == [] then []
    else (if InviteMatches(vs[0], PendingIn(w)) then [vs[0]] else []) + PendingInvitesOf(vs[1..], w)
  }

  /** The workspace's audit entries, oldest first. */
  function AuditOf(audit: seq<AuditEntry>, w: WorkspaceId): (r: seq<AuditEntry>)
    ensures |r| <= |audit|
    ensures forall e :: e in r <==> e in audit && e.workspaceId == Some(w)
    ensures |audit| == 1 ==> r == (if audit[0].workspaceId == Some(w) then audit else [])
  {
    if audit == [] then []
    else
      var last := audit[|audit| - 1];
      AuditOf(audit[..|audit| - 1], w) + (if last.workspaceId == Some(w) then [last] else [])
  }

  /**
   * Selecting a workspace's entries commutes with concatenating logs, so
   * together with the one-entry case the selection keeps the log's order
   * and every occurrence.
   */
  lemma {:induction false} AuditOfConcat(a: seq<AuditEntry>, b: seq<AuditEntry>, w: WorkspaceId)
    ensures AuditOf(a + b, w) == AuditOf(a, w) + AuditOf(b, w)
  {
    if b == [] {
      assert a + b == a;
    } else {
      var init, last := b[..|b| - 1], b[|b| - 1];
      var tail := if last.workspaceId == Some(w) then [last] else [];
      calc {
        AuditOf(a + b, w);
        { assert a + b == (a + init) + [last]; }
        AuditOf((a + init) + [last], w);
        { AuditOfSnoc(a + init, last, w); }
        AuditOf(a + init, w) + tail;
        { AuditOfConcat(a, init, w); }
        AuditOf(a, w) + AuditOf(init, w) + tail;
        { AuditOfSnoc(init, last, w); assert init + [last] == b; }
        AuditOf(a, w) + AuditOf(b, w);
      }
    }
  }

  /** Appending one entry appends it to the selection exactly when it is the workspace's. */
  lemma AuditOfSnoc(xs: seq<AuditEntry>, e: AuditEntry, w: WorkspaceId)
    ensures AuditOf(xs + [e], w) == AuditOf(xs, w) + (if e.workspaceId == Some(w) then [e] else [])
  {
    assert (xs + [e])[..|xs|] == xs;
  }

  /** `orderBy: { createdAt: "desc" }, take: n` over rows kept oldest first: the newest `n`, newest first. */
  function LatestFirst<T>(xs: seq<T>, n: nat): (r: seq<T>)
    ensures |r| == if |xs| < n then |xs| else n
    ensures forall i :: 0 <= i < |r| ==> r[i] == xs[|xs| - 1 - i]
  {
    if xs == [] || n == 0 then []
    else [xs[|xs| - 1]] + LatestFirst(xs[..|xs| - 1], n - 1)
  }

  /** The workspace's ten newest audit entries, newest first. */
  function AuditTrail(audit: seq<AuditEntry>, w: WorkspaceId): (r: seq<AuditEntry>)
    ensures |r| == if |AuditOf(audit, w)| < AuditTrailLength then |AuditOf(audit, w)| else AuditTrailLength
    ensures forall i :: 0 <= i < |r| ==> r[i].workspaceId == Some(w) && r[i] in audit
  {
    LatestFirst(AuditOf(audit, w), AuditTrailLength)
  }

  /**
   * `getDashboardData`: "Workspace not found" for an unknown id; "You do not
   * have access" when the caller has no membership row in it, whatever the
   * row's status; otherwise the workspace with its counts and trail.
   */
  function GetDashboardData(s: Store, userId: UserId, w: WorkspaceId): (r: Result<DashboardData, EngineError>)
    ensures r == Err(WorkspaceNotFound) <==> FindWorkspace(s.workspaces, Id(w)).None?
    ensures r == Err(NoAccess) <==> FindWorkspace(s.workspaces, Id(w)).Some? && FindMember(s.members, Key(userId, w)).None?
    ensures r.Err? ==> r == Err(WorkspaceNotFound) || r == Err(NoAccess)
    ensures r.Ok? ==>
              var ws := s.workspaces[FindWorkspace(s.workspaces, Id(w)).value];
              && r.value.workspace == ws
              && r.value.memberships == MembersOf(s.members, w)
              && r.value.invites == PendingInvitesOf(s.invites, w)
              && r.value.membership in s.members
              && r.value.membership.userId == userId && r.value.membership.workspaceId == w
              && r.value.metrics == Metrics(CountMembers(s.members, InWorkspace(w)), CountInvites(s.invites, PendingIn(w)),
                                            ws.plan, ws.billingStatus)
              && r.value.auditTrail == AuditTrail(s.audit, w)
  {
    match FindWorkspace(s.workspaces, Id(w))
    case None => Err(WorkspaceNotFound)
    case Some(i) =>
      var workspace := s.workspaces[i];
      var memberships := MembersOf(s.members, w);
      var invites := PendingInvitesOf(s.invites, w);
      var trail := AuditTrail(s.audit, w);
      FindAmongMembersOf(s.members, userId, w);
      MembersOfCount(s.members, w);
      PendingInvitesCount(s.invites, w);
      match FindMember(memberships, OfUser(userId))
      case None => Err(NoAccess)
      case Some(k) =>
        Ok(DashboardData(workspace, memberships, memberships[k], invites,
                         Metrics(|memberships|, |invites|, workspace.plan, workspace.billingStatus), trail))
  }

  // -------------------------------------------------------------- lemmas

  /** The caller has a row among the workspace's rows exactly when some row has the (user, workspace) pair. */
  lemma FindAmongMembersOf(ms: seq<Membership>, userId: UserId, w: WorkspaceId)
    ensures FindMember(MembersOf(ms, w), OfUser(userId)).None? <==> FindMember(ms, Key(userId, w)).None?
  {
    var inW := MembersOf(ms, w);
    if FindMember(ms, Key(userId, w)).Some? {
      var j := FindMember(ms, Key(userId, w)).value;
      assert ms[j] in inW;
      var k :| 0 <= k < |inW| && inW[k] == ms[j];
      assert MemberMatches(inW[k], OfUser(userId));
    }
    if FindMember(inW, OfUser(userId)).Some? {
      var k := FindMember(inW, OfUser(userId)).value;
      assert inW[k] in ms;
      var j :| 0 <= j < |ms| && ms[j] == inW[k];
      assert MemberMatches(ms[j], Key(userId, w));
    }
  }

  /** The dashboard's member count is the number of the workspace's membership rows. */
  lemma {:induction false} MembersOfCount(ms: seq<Membership>, w: WorkspaceId)
    ensures |MembersOf(ms, w)| == CountMembers(ms, InWorkspace(w))
  {
    if ms != [] {
      MembersOfCount(ms[1..], w);
    }
  }

  /** The dashboard's pending-invite count is the number of the workspace's pending invites. */
  lemma {:induction false} PendingInvitesCount(vs: seq<Invite>, w: WorkspaceId)
    ensures |PendingInvitesOf(vs, w)| == CountInvites(vs, PendingIn(w))
  {
    if vs != [] {
      PendingInvitesCount(vs[1..], w);
    }
  }

  /** The newest `n - 1` are a prefix of the newest `n`. */
  lemma LatestFirstShorter<T>(xs: seq<T>, n: nat)
    requires n >= 1
    ensures var shorter := LatestFirst(xs, n - 1);
            shorter == LatestFirst(xs, n)[..|shorter|]
  {
  }

  /**
   * An audit entry recorded for the workspace heads its trail next time,
   * followed by the previous trail without its oldest entry when it was full.
   */
  lemma RecordedEntryLeadsTrail(audit: seq<AuditEntry>, w: WorkspaceId, e: AuditEntry)
    requires e.workspaceId == Some(w)
    ensures var before := AuditTrail(audit, w);
            AuditTrail(audit + [e], w) == [e] + before[..if |before| < AuditTrailLength then |before| else AuditTrailLength - 1]
  {
    var a := AuditOf(audit, w);
    assert (audit + [e])[..|audit|] == audit;
    assert AuditOf(audit + [e], w) == a + [e];
    assert (a + [e])[..|a|] == a;
    LatestFirstShorter(a, AuditTrailLength);
  }
}

=== FILE: domain.dfy ===
/**
 * The persistent entities of the workspace platform and the store that holds
 * them. The relational store is an immutable record: users are keyed by id,
 * workspaces, memberships and invites are sequences kept in creation order
 * (so "the first row ordered by creation" is the first match in the
 * sequence), and the audit log is an append-only sequence.
 */
module Domain {
  import opened Wrappers

  type UserId = string
  type WorkspaceId = string
  type InviteId = string

  datatype Role = Owner | Admin | Member

  /** Membership status: ACTIVE, and the statuses the schema reserves. */
  datatype MemberStatus = Active | Inactive

  datatype InviteStatus = Pending | Accepted | Canceled | Expired

  datatype Plan = Free | Pro

  datatype BillingStatus = BillingNone | BillingActive | BillingPastDue | BillingCanceled

  datatype User = User(email: Option<string>, name: Option<string>, defaultWorkspaceId: Option<WorkspaceId>)

  datatype Workspace = Workspace(
    id: WorkspaceId,
    name: string,
    slug: string,
    plan: Plan,
    billingStatus: BillingStatus,
    stripeCustomerId: Option<string>,
    stripeSubscriptionId: Option<string>,
    subscriptionStatusChangedAt: Option<int>)

  /** A new workspace starts on the free plan with no billing relationship. */
  function NewWorkspace(id: WorkspaceId, name: string, slug: string): Workspace {
    Workspace(id, name, slug, Free, BillingNone, None, None, None)
  }

  /** The join row keyed by (userId, workspaceId). */
  datatype Membership = Membership(userId: UserId, workspaceId: WorkspaceId, role: Role, status: MemberStatus)

  datatype Invite = Invite(
    id: InviteId,
    email: string,
    workspaceId: WorkspaceId,
    role: Role,
    token: string,
    status: InviteStatus,
    expiresAt: int,
    creatorId: UserId,
    acceptedAt: Option<int>)

  datatype AuditEntry = AuditEntry(
    workspaceId: Option<WorkspaceId>,
    actorId: Option<UserId>,
    action: string,
    target: Option<string>,
    metadata: map<string, string>,
    createdAt: int)

  datatype Store = Store(
    users: map<UserId, User>,
    workspaces: seq<Workspace>,
    members: seq<Membership>,
    invites: seq<Invite>,
    audit: seq<AuditEntry>)

  /** Appends one entry to the audit log. */
  function Record(s: Store, entry: AuditEntry): (s': Store)
    ensures s'.audit == s.audit + [entry]
    ensures s'.(audit := s.audit) == s
  {
    s.(audit := s.audit + [entry])
  }

  /** The errors the engines throw, with the message each one carries. */
  datatype EngineError =
    | NotAMember
    | InsufficientPermissions
    | AlreadyMember
    | MailFailed(reason: string)
    | InvitationNotFound
    | InvitationNoLongerValid
    | InvitationExpired
    | UserAccountNotFound
    | EmailMismatch(inviteEmail: string)
    | NotMemberOfWorkspace
    | NameTooShort
    | OnlyOwnersManageOwners
    | MustKeepOwner
    | MemberNotFound
    | CannotRemoveOwner
    | InviteNotFound
    | WorkspaceNotFound
    | NoAccess
    | InvalidSignature
    | ProviderFailed(reason: string)
    | MissingRecord
    | UnknownUserReference
    | SlugSearchExhausted
  {
    function Message(): string {
      match this
      case NotAMember => "Not a member of this workspace"
      case InsufficientPermissions => "Insufficient permissions"
      case AlreadyMember => "User is already a member of this workspace"
      case MailFailed(reason) => reason
      case InvitationNotFound => "Invitation not found"
      case InvitationNoLongerValid => "Invitation is no longer valid"
      case InvitationExpired => "Invitation has expired"
      case UserAccountNotFound => "User account not found"
      case EmailMismatch(email) => "Sign in with " + email + " to accept this invitation."
      case NotMemberOfWorkspace => "You are not a member of this workspace"
      case NameTooShort => "Workspace name is too short"
      case OnlyOwnersManageOwners => "Only owners can manage owner roles"
      case MustKeepOwner => "Workspaces must keep at least one owner"
      case MemberNotFound => "Member not found"
      case CannotRemoveOwner => "Cannot remove workspace owner"
      case InviteNotFound => "Invite not found"
      case WorkspaceNotFound => "Workspace not found"
      case NoAccess => "You do not have access to this workspace"
      case InvalidSignature => "Invalid Stripe signature"
      case ProviderFailed(reason) => reason
      case MissingRecord => "Record to update not found."
      case UnknownUserReference => "Foreign key constraint violated on the membership's user"
      case SlugSearchExhausted => "No free workspace slug among the supplied random suffixes"
    }
  }

  /**
   * One engine call: the store after the call and what the call returned or
   * threw. Writes made before a throw stay in `store`.
   */
  datatype Step<T> = Step(store: Store, result: Result<T, EngineError>)

  // ---------------------------------------------------------------- lookups

  datatype MemberQuery =
    | Key(userId: UserId, workspaceId: WorkspaceId)
    | ActiveKey(userId: UserId, workspaceId: WorkspaceId)
    | OfUser(userId: UserId)
    | InWorkspace(workspaceId: WorkspaceId)
    | InWorkspaceAmong(workspaceId: WorkspaceId, userIds: set<UserId>)
    | OtherActiveOwner(workspaceId: WorkspaceId, userId: UserId)

  predicate MemberMatches(m: Membership, q: MemberQuery) {
    match q
    case Key(u, w) => m.userId == u && m.workspaceId == w
    case ActiveKey(u, w) => m.userId == u && m.workspaceId == w && m.status == Active
    case OfUser(u) => m.userId == u
    case InWorkspace(w) => m.workspaceId == w
    case InWorkspaceAmong(w, us) => m.workspaceId == w && m.userId in us
    case OtherActiveOwner(w, u) => m.workspaceId == w && m.role == Owner && m.status == Active && m.userId != u
  }

  /** The first membership row (in creation order) that satisfies `q`. */
  function FindMember(ms: seq<Membership>, q: MemberQuery): (r: Option<nat>)
    ensures r.Some? ==> r.value < |ms| && MemberMatches(ms[r.value], q)
    ensures r.Some? ==> forall j :: 0 <= j < r.value ==> !MemberMatches(ms[j], q)
    ensures r.None? <==> forall j :: 0 <= j < |ms| ==> !MemberMatches(ms[j], q)
  {
    if ms == [] then None
    else if MemberMatches(ms[0], q) then Some(0)
    else match FindMember(ms[1..], q)
      case None => None
      case Some(i) => Some(i + 1)
  }

  /** The number of membership rows that satisfy `q`. */
  function CountMembers(ms: seq<Membership>, q: MemberQuery): (n: nat)
    ensures n <= |ms|
    ensures n == 0 <==> forall j :: 0 <= j < |ms| ==> !MemberMatches(ms[j], q)
  {
    if ms == [] then 0
    else (if MemberMatches(ms[0], q) then 1 else 0) + CountMembers(ms[1..], q)
  }

  datatype InviteQuery =
    | Token(token: string)
    | PendingFor(workspaceId: WorkspaceId, email: string)
    | PendingIn(workspaceId: WorkspaceId)
    | CancelTarget(id: InviteId, workspaceId: WorkspaceId)

  predicate InviteMatches(v: Invite, q: InviteQuery) {
    match q
    case Token(t) => v.token == t
    case PendingFor(w, e) => v.workspaceId == w && v.email == e && v.status == Pending
    case PendingIn(w) => v.workspaceId == w && v.status == Pending
    case CancelTarget(id, w) => v.id == id && v.workspaceId == w && v.status == Pending
  }

  /** The first invite row (in creation order) that satisfies `q`. */
  function FindInvite(vs: seq<Invite>, q: InviteQuery): (r: Option<nat>)
    ensures r.Some? ==> r.value < |vs| && InviteMatches(vs[r.value], q)
    ensures r.Some? ==> forall j :: 0 <= j < r.value ==> !InviteMatches(vs[j], q)
    ensures r.None? <==> forall j :: 0 <= j < |vs| ==> !InviteMatches(vs[j], q)
  {
    if vs == [] then None
    else if InviteMatches(vs[0], q) then Some(0)
    else match FindInvite(vs[1..], q)
      case None => None
      case Some(i) => Some(i + 1)
  }

  /** The number of invite rows that satisfy `q`. */
  function CountInvites(vs: seq<Invite>, q: InviteQuery): (n: nat)
    ensures n <= |vs|
    ensures n == 0 <==> forall j :: 0 <= j < |vs| ==> !InviteMatches(vs[j], q)
  {
    if vs == [] then 0
    else (if InviteMatches(vs[0], q) then 1 else 0) + CountInvites(vs[1..], q)
  }

  datatype WorkspaceQuery =
    | Id(id: WorkspaceId)
    | Slug(slug: string)
    | Customer(customerId: string)
    | Subscription(subscriptionId: string)

  predicate WorkspaceMatches(w: Workspace, q: WorkspaceQuery) {
    match q
    case Id(id) => w.id == id
    case Slug(slug) => w.slug == slug
    case Customer(c) => w.stripeCustomerId == Some(c)
    case Subscription(sub) => w.stripeSubscriptionId == Some(sub)
  }

  /** The first workspace row (in creation order) that satisfies `q`. */
  function FindWorkspace(ws: seq<Workspace>, q: WorkspaceQuery): (r: Option<nat>)
    ensures r.Some? ==> r.value < |ws| && WorkspaceMatches(ws[r.value], q)
    ensures r.Some? ==> forall j :: 0 <= j < r.value ==> !WorkspaceMatches(ws[j], q)
    ensures r.None? <==> forall j :: 0 <= j < |ws| ==> !WorkspaceMatches(ws[j], q)
  {
    if ws == [] then None
    else if WorkspaceMatches(ws[0], q) then Some(0)
    else match FindWorkspace(ws[1..], q)
      case None => None
      case Some(i) => Some(i + 1)
  }

  /** The slugs already taken in the store. */
  function TakenSlugs(s: Store): set<string> {
    set i | 0 <= i < |s.workspaces| :: s.workspaces[i].slug
  }

  /** The ids of the users whose stored email is exactly `email`. */
  function UsersWithEmail(s: Store, email: string): set<UserId> {
    set u | u in s.users && s.users[u].email == Some(email)
  }

  /** `xs` without its element at index `i`. */
  function RemoveAt<T>(xs: seq<T>, i: nat): (r: seq<T>)
    requires i < |xs|
    ensures |r| == |xs| - 1
    ensures forall j :: 0 <= j < i ==> r[j] == xs[j]
    ensures forall j :: i <= j < |r| ==> r[j] == xs[j + 1]
  {
    xs[..i] + xs[i + 1..]
  }

  // ------------------------------------------------------------- invariants

  /** Workspace `w` has at least one ACTIVE membership with role OWNER. */
  predicate HasActiveOwner(s: Store, w: WorkspaceId) {
    exists j :: 0 <= j < |s.members| && IsActiveOwner(s.members[j], w)
  }

  predicate IsActiveOwner(m: Membership, w: WorkspaceId) {
    m.workspaceId == w && m.role == Owner && m.status == Active
  }

  /** Every workspace in the store keeps an active owner. */
  predicate OwnersPresent(s: Store) {
    forall i :: 0 <= i < |s.workspaces| ==> HasActiveOwner(s, s.workspaces[i].id)
  }

  predicate UniqueWorkspaceIds(ws: seq<Workspace>) {
    forall i, j :: 0 <= i < j < |ws| ==> ws[i].id != ws[j].id
  }

  predicate UniqueSlugs(ws: seq<Workspace>) {
    forall i, j :: 0 <= i < j < |ws| ==> ws[i].slug != ws[j].slug
  }

  predicate SameKey(a: Membership, b: Membership) {
    a.userId == b.userId && a.workspaceId == b.workspaceId
  }

  predicate UniqueMemberKeys(ms: seq<Membership>) {
    forall i, j :: 0 <= i < j < |ms| ==> !SameKey(ms[i], ms[j])
  }

  predicate UniqueInviteIds(vs: seq<Invite>) {
    forall i, j :: 0 <= i < j < |vs| ==> vs[i].id != vs[j].id
  }

  predicate UniqueTokens(vs: seq<Invite>) {
    forall i, j :: 0 <= i < j < |vs| ==> vs[i].token != vs[j].token
  }

  predicate BothPendingFor(a: Invite, b: Invite) {
    a.status == Pending && b.status == Pending && a.workspaceId == b.workspaceId && a.email == b.email
  }

  predicate OnePendingPerEmail(vs: seq<Invite>) {
    forall i, j :: 0 <= i < j < |vs| ==> !BothPendingFor(vs[i], vs[j])
  }

  /**
   * The storage layer's uniqueness constraints: workspace id and slug,
   * the (userId, workspaceId) membership key, invite id and token, and at
   * most one PENDING invite per (workspace, email).
   */
  predicate WellFormed(s: Store) {
    && UniqueWorkspaceIds(s.workspaces)
    && UniqueSlugs(s.workspaces)
    && UniqueMemberKeys(s.members)
    && UniqueInviteIds(s.invites)
    && UniqueTokens(s.invites)
    && OnePendingPerEmail(s.invites)
  }
}

=== FILE: invariants.dfy ===
/**
 * What the workspace engine keeps true across its operations: every
 * workspace keeps an ACTIVE OWNER, the storage layer's uniqueness
 * constraints hold, invites only ever leave PENDING, and first sign-in
 * provisioning is idempotent.
 */
module Invariants {
  import opened Wrappers
  import opened Text
  import opened Domain
  import opened Slugs
  import opened Workspaces

  // ------------------------------------------------------------ owners

  /**
   * With one row per (user, workspace), an actor whose row is ACTIVE passes
   * the management check with that row's role when it is OWNER or ADMIN,
   * and is refused when it is MEMBER.
   */
  lemma ManagerPasses(s: Store, userId: UserId, w: WorkspaceId, j: nat)
    requires UniqueMemberKeys(s.members)
    requires j < |s.members| && MemberMatches(s.members[j], ActiveKey(userId, w))
    ensures s.members[j].role != Member ==> AssertCanManageWorkspace(s, userId, w) == Ok(s.members[j].role)
    ensures s.members[j].role == Member ==> AssertCanManageWorkspace(s, userId, w) == Err(InsufficientPermissions)
  {
    var k := FindMember(s.members, ActiveKey(userId, w)).value;
    assert SameKey(s.members[k], s.members[j]);
  }

  /** A role change never leaves a workspace without an ACTIVE OWNER. */
  lemma UpdateMemberRoleKeepsOwner(s: Store, w: WorkspaceId, actorId: UserId, memberId: UserId, role: Role, now: int, x: WorkspaceId)
    requires HasActiveOwner(s, x)
    ensures HasActiveOwner(UpdateMemberRole(s, w, actorId, memberId, role, now).store, x)
  {
    var r := UpdateMemberRole(s, w, actorId, memberId, role, now);
    var j :| 0 <= j < |s.members| && IsActiveOwner(s.members[j], x);
    if r.store != s {
      var actorRole := AssertCanManageWorkspace(s, actorId, w).value;
      var k := FindMember(s.members, Key(memberId, w)).value;
      var target := s.members[k];
      assert EnsureRoleChangeAllowed(s, actorRole, target, role).None?;
      if j != k {
        assert IsActiveOwner(r.store.members[j], x);
      } else {
        var o := FindMember(s.members, OtherActiveOwner(w, memberId)).value;
        assert o != k && IsActiveOwner(r.store.members[o], x);
      }
    }
  }

  /** Removing a member never leaves a workspace without an ACTIVE OWNER. */
  lemma RemoveMemberKeepsOwner(s: Store, w: WorkspaceId, actorId: UserId, memberId: UserId, now: int, x: WorkspaceId)
    requires HasActiveOwner(s, x)
    ensures HasActiveOwner(RemoveMember(s, w, actorId, memberId, now).store, x)
  {
    var r := RemoveMember(s, w, actorId, memberId, now);
    var j :| 0 <= j < |s.members| && IsActiveOwner(s.members[j], x);
    if r.result.Ok? {
      var k := FindMember(s.members, Key(memberId, w)).value;
      if j < k {
        assert IsActiveOwner(r.store.members[j], x);
      } else {
        assert IsActiveOwner(r.store.members[j - 1], x);
      }
    }
  }

  /**
   * Accepting an invite keeps a workspace's owner as long as some ACTIVE
   * OWNER of it is another user than the one accepting.
   */
  lemma AcceptInviteKeepsOtherOwner(s: Store, token: string, userId: UserId, now: int, x: WorkspaceId)
    requires exists j :: 0 <= j < |s.members| && IsActiveOwner(s.members[j], x) && s.members[j].userId != userId
    ensures HasActiveOwner(AcceptInvite(s, token, userId, now).store, x)
  {
    var r := AcceptInvite(s, token, userId, now);
    var j :| 0 <= j < |s.members| && IsActiveOwner(s.members[j], x) && s.members[j].userId != userId;
    if r.result.Ok? {
      var v := s.invites[FindInvite(s.invites, Token(token)).value];
      assert Some(j) != FindMember(s.members, Key(userId, v.workspaceId));
      assert r.store.members[j] == s.members[j];
    }
  }

  /** The store of the counterexample below, before anyone is invited. */
  function SoleOwnerStore(): Store {
    Store(map["u" := User(Some("Bob@x.com"), None, None)],
          [NewWorkspace("w", "Team", "team")],
          [Membership("u", "w", Owner, Active)],
          [],
          [])
  }

  /** The invite the sole owner sends to the lower-cased form of their own email. */
  function SelfInvite(): Invite {
    Invite("i", "bob@x.com", "w", Member, "token-0001", Pending, InviteLifetimeMs, "u", None)
  }

  lemma InvitedEmailFacts()
    ensures Trim("bob@x.com") == "bob@x.com" && ToLower("bob@x.com") == "bob@x.com"
    ensures ToLower("Bob@x.com") == "bob@x.com" && "Bob@x.com" != "bob@x.com"
  {
    InvitedEmailIsTrimmed();
    InvitedEmailIsLower();
    StoredEmailLowers();
  }

  lemma InvitedEmailIsTrimmed()
    ensures Trim("bob@x.com") == "bob@x.com"
  {
    var e := "bob@x.com";
    assert !IsJsWhitespace(e[0]) && !IsJsWhitespace(e[|e| - 1]);
  }

  lemma InvitedEmailIsLower()
    ensures ToLower("bob@x.com") == "bob@x.com"
  {
    var e := "bob@x.com";
    assert forall i :: 0 <= i < |e| ==> LowerChar(e[i]) == e[i];
  }

  lemma StoredEmailLowers()
    ensures ToLower("Bob@x.com") == "bob@x.com" && "Bob@x.com" != "bob@x.com"
  {
    var e := "Bob@x.com";
    assert e[0] != "bob@x.com"[0];
    assert forall i :: 0 <= i < |e| ==> LowerChar(e[i]) == "bob@x.com"[i];
  }

  lemma SoleOwnerManages()
    ensures AssertCanManageWorkspace(SoleOwnerStore(), "u", "w") == Ok(Owner)
  {
    assert FindMember(SoleOwnerStore().members, ActiveKey("u", "w")) == Some(0);
  }

  lemma SoleOwnerCanInviteOwnEmail()
    ensures var invited := InviteToWorkspace(SoleOwnerStore(), "w", "u", "bob@x.com", Member, "https://app", "i", "token-0001", NotConfigured, 0);
            && invited.result.Ok?
            && invited.store.invites == [SelfInvite()]
            && invited.store.members == SoleOwnerStore().members
            && invited.store.users == SoleOwnerStore().users
  {
    InvitedEmailIsTrimmed();
    InvitedEmailIsLower();
    SoleOwnerPrechecks();
    InviteStoresNewInvite(SoleOwnerStore(), "w", "u", "bob@x.com", Member, "https://app", "i", "token-0001", NotConfigured, 0);
  }

  /** Nobody in the sole owner's store has the address `bob@x.com` exactly, and nothing is pending. */
  lemma SoleOwnerPrechecks()
    ensures AssertCanManageWorkspace(SoleOwnerStore(), "u", "w").Ok?
    ensures FindMember(SoleOwnerStore().members, InWorkspaceAmong("w", UsersWithEmail(SoleOwnerStore(), "bob@x.com"))).None?
    ensures FindInvite(SoleOwnerStore().invites, PendingFor("w", "bob@x.com")).None?
  {
    SoleOwnerManages();
    NoExactEmailMatch();
    assert FindMember(SoleOwnerStore().members, InWorkspaceAmong("w", {})).None?;
  }

  lemma NoExactEmailMatch()
    ensures UsersWithEmail(SoleOwnerStore(), "bob@x.com") == {}
  {
    StoredEmailLowers();
  }

  /**
   * With the checks passed and no pending invite for the address, inviting
   * appends a new PENDING invite whatever happens to the mail; the call
   * fails only on a delivery error, and then the invite stays stored.
   */
  lemma InviteStoresNewInvite(s: Store, w: WorkspaceId, inviterId: UserId, email: string, role: Role, appUrl: string,
                              inviteId: InviteId, token: string, mail: MailOutcome, now: int)
    requires AssertCanManageWorkspace(s, inviterId, w).Ok?
    requires FindMember(s.members, InWorkspaceAmong(w, UsersWithEmail(s, ToLower(Trim(email))))).None?
    requires FindInvite(s.invites, PendingFor(w, ToLower(Trim(email)))).None?
    ensures var r := InviteToWorkspace(s, w, inviterId, email, role, appUrl, inviteId, token, mail, now);
            && (r.result.Ok? <==> !mail.DeliveryError?)
            && (r.result.Ok? ==> r.result.value.delivered == (mail == Delivered) && r.result.value.acceptUrl == AcceptUrl(appUrl, token))
            && r.store.invites == s.invites + [Invite(inviteId, ToLower(Trim(email)), w, role, token, Pending, now + InviteLifetimeMs, inviterId, None)]
            && r.store.members == s.members && r.store.users == s.users
  {
  }

  lemma SoleOwnerUpsert()
    ensures UpsertMember(SoleOwnerStore().members, "u", "w", Member) == [Membership("u", "w", Member, Active)]
  {
    assert FindMember(SoleOwnerStore().members, Key("u", "w")) == Some(0);
  }

  lemma SoleOwnerAcceptsOwnInvite(t: Store)
    requires t.invites == [SelfInvite()] && t.members == SoleOwnerStore().members && t.users == SoleOwnerStore().users
    ensures AcceptInvite(t, "token-0001", "u", 1).result == Ok("w")
    ensures AcceptInvite(t, "token-0001", "u", 1).store.members == [Membership("u", "w", Member, Active)]
  {
    SelfInviteAcceptable(t);
    SoleOwnerUpsert();
  }

  /** Every check `acceptInvite` makes passes for the self-invite. */
  lemma SelfInviteAcceptable(t: Store)
    requires t.invites == [SelfInvite()] && t.users == SoleOwnerStore().users
    ensures FindInvite(t.invites, Token("token-0001")) == Some(0)
    ensures "u" in t.users && Present(t.users["u"].email)
    ensures ToLower(t.users["u"].email.value) == ToLower(SelfInvite().email)
    ensures SelfInvite().status == Pending && 1 <= SelfInvite().expiresAt
  {
    assert FindInvite(t.invites, Token("token-0001")) == Some(0);
    InvitedEmailIsLower();
    StoredEmailLowers();
  }

  /**
   * The member check when inviting compares stored emails exactly, while
   * accepting compares them ignoring case. A sole OWNER whose stored email
   * is `Bob@x.com` can therefore invite `bob@x.com` as MEMBER and accept
   * it, and the upsert demotes the only OWNER.
   */
  lemma AcceptInviteCanDemoteSoleOwner(invited: Step<InviteResult>, accepted: Step<WorkspaceId>)
    requires invited == InviteToWorkspace(SoleOwnerStore(), "w", "u", "bob@x.com", Member, "https://app", "i", "token-0001", NotConfigured, 0)
    requires accepted == AcceptInvite(invited.store, "token-0001", "u", 1)
    ensures OwnersPresent(SoleOwnerStore())
    ensures invited.result.Ok? && accepted.result == Ok("w")
    ensures !HasActiveOwner(accepted.store, "w")
  {
    SoleOwnerStoreIsOwned();
    SoleOwnerCanInviteOwnEmail();
    SoleOwnerAcceptsOwnInvite(invited.store);
    DemotedStoreHasNoOwner(accepted.store);
  }

  lemma SoleOwnerStoreIsOwned()
    ensures OwnersPresent(SoleOwnerStore())
  {
    assert IsActiveOwner(SoleOwnerStore().members[0], "w");
  }

  lemma DemotedStoreHasNoOwner(s: Store)
    requires s.members == [Membership("u", "w", Member, Active)]
    ensures !HasActiveOwner(s, "w")
  {
    assert !IsActiveOwner(s.members[0], "w");
  }

  /** Provisioning keeps every workspace owned, including the one it creates. */
  lemma EnsureWorkspaceKeepsOwners(s: Store, userId: UserId, newId: WorkspaceId, fallbackId: string, draws: seq<string>, now: int)
    requires OwnersPresent(s)
    ensures OwnersPresent(EnsureWorkspaceForUser(s, userId, newId, fallbackId, draws, now).store)
  {
    if userId in s.users && !Present(s.users[userId].defaultWorkspaceId) && FindMember(s.members, OfUser(userId)).None? {
      ProvisionKeepsOwners(s, userId, newId, fallbackId, draws, now);
    }
  }

  lemma ProvisionKeepsOwners(s: Store, userId: UserId, newId: WorkspaceId, fallbackId: string, draws: seq<string>, now: int)
    requires userId in s.users && OwnersPresent(s)
    ensures OwnersPresent(ProvisionWorkspace(s, userId, newId, fallbackId, draws, now).store)
  {
    var r := ProvisionWorkspace(s, userId, newId, fallbackId, draws, now);
    if r.result.Ok? {
      AppendOwnedWorkspace(s, r.store, Membership(userId, newId, Owner, Active));
    }
  }

  /** Appending one workspace together with an active owner row for it keeps every workspace owned. */
  lemma AppendOwnedWorkspace(s: Store, s': Store, m: Membership)
    requires OwnersPresent(s)
    requires |s'.workspaces| == |s.workspaces| + 1 && s'.workspaces[..|s.workspaces|] == s.workspaces
    requires s'.members == s.members + [m] && IsActiveOwner(m, s'.workspaces[|s.workspaces|].id)
    ensures OwnersPresent(s')
  {
    var n := |s.members|;
    assert IsActiveOwner(s'.members[n], s'.workspaces[|s.workspaces|].id);
    forall i | 0 <= i < |s'.workspaces|
      ensures HasActiveOwner(s', s'.workspaces[i].id)
    {
      if i < |s.workspaces| {
        assert s'.workspaces[i] == s.workspaces[i];
        var j :| 0 <= j < n && IsActiveOwner(s.members[j], s.workspaces[i].id);
        assert s'.members[j] == s.members[j];
      }
    }
  }

  /** Creating a workspace keeps every workspace owned, including the new one. */
  lemma CreateWorkspaceKeepsOwners(s: Store, userId: UserId, name: string, newId: WorkspaceId, fallbackId: string, draws: seq<string>, now: int)
    requires OwnersPresent(s)
    ensures OwnersPresent(CreateWorkspace(s, userId, name, newId, fallbackId, draws, now).store)
  {
    var r := CreateWorkspace(s, userId, name, newId, fallbackId, draws, now);
    if r.result.Ok? {
      assert r.store.workspaces[..|s.workspaces|] == s.workspaces;
      AppendOwnedWorkspace(s, r.store, Membership(userId, newId, Owner, Active));
    }
  }

  /** Renaming keeps every workspace id, so it keeps every workspace owned. */
  lemma RenameWorkspaceKeepsOwners(s: Store, w: WorkspaceId, actorId: UserId, name: string, now: int)
    requires OwnersPresent(s)
    ensures OwnersPresent(RenameWorkspace(s, w, actorId, name, now).store)
  {
    var r := RenameWorkspace(s, w, actorId, name, now);
    if r.result.Ok? {
      RenameKeepsIdsAndSlugs(s.workspaces, FindWorkspace(s.workspaces, Id(w)).value, Trim(name));
    }
  }

  /** Changing one workspace's name leaves every id and slug where it was. */
  lemma RenameKeepsIdsAndSlugs(ws: seq<Workspace>, k: nat, name: string)
    requires k < |ws|
    ensures var ws' := ws[k := ws[k].(name := name)];
            forall i :: 0 <= i < |ws| ==> ws'[i].id == ws[i].id && ws'[i].slug == ws[i].slug
  {
  }

  // ------------------------------------------------------- uniqueness

  /** `id` names no workspace and no membership yet. */
  predicate FreshWorkspaceId(s: Store, id: WorkspaceId) {
    && (forall i :: 0 <= i < |s.workspaces| ==> s.workspaces[i].id != id)
    && (forall j :: 0 <= j < |s.members| ==> s.members[j].workspaceId != id)
  }

  /** Neither the invite id nor the token is in use yet. */
  predicate FreshInvite(s: Store, inviteId: InviteId, token: string) {
    forall i :: 0 <= i < |s.invites| ==> s.invites[i].id != inviteId && s.invites[i].token != token
  }

  lemma AppendWorkspaceKeepsUnique(ws: seq<Workspace>, w: Workspace, taken: set<string>)
    requires UniqueWorkspaceIds(ws) && UniqueSlugs(ws)
    requires forall i :: 0 <= i < |ws| ==> ws[i].id != w.id
    requires taken == (set i | 0 <= i < |ws| :: ws[i].slug) && w.slug !in taken
    ensures UniqueWorkspaceIds(ws + [w]) && UniqueSlugs(ws + [w])
  {
    forall i | 0 <= i < |ws| ensures ws[i].slug != w.slug {
      assert ws[i].slug in taken;
    }
  }

  lemma EnsureWorkspaceKeepsWellFormed(s: Store, userId: UserId, newId: WorkspaceId, fallbackId: string, draws: seq<string>, now: int)
    requires WellFormed(s)
    requires forall i :: 0 <= i < |s.workspaces| ==> s.workspaces[i].id != newId
    ensures WellFormed(EnsureWorkspaceForUser(s, userId, newId, fallbackId, draws, now).store)
  {
    if userId in s.users && !Present(s.users[userId].defaultWorkspaceId) && FindMember(s.members, OfUser(userId)).None? {
      ProvisionKeepsWellFormed(s, userId, newId, fallbackId, draws, now);
    }
  }

  lemma ProvisionKeepsWellFormed(s: Store, userId: UserId, newId: WorkspaceId, fallbackId: string, draws: seq<string>, now: int)
    requires userId in s.users && WellFormed(s) && FindMember(s.members, OfUser(userId)).None?
    requires forall i :: 0 <= i < |s.workspaces| ==> s.workspaces[i].id != newId
    ensures WellFormed(ProvisionWorkspace(s, userId, newId, fallbackId, draws, now).store)
  {
    var r := ProvisionWorkspace(s, userId, newId, fallbackId, draws, now);
    if r.result.Ok? {
      var last := r.store.workspaces[|s.workspaces|];
      assert r.store.workspaces == s.workspaces + [last];
      AppendWorkspaceKeepsUnique(s.workspaces, last, TakenSlugs(s));
      AppendMemberKeepsUnique(s.members, Membership(userId, newId, Owner, Active));
      assert r.store.invites == s.invites;
    }
  }

  /** A membership for a user with no row yet keeps the membership keys unique. */
  lemma AppendMemberKeepsUnique(ms: seq<Membership>, m: Membership)
    requires UniqueMemberKeys(ms) && FindMember(ms, OfUser(m.userId)).None?
    ensures UniqueMemberKeys(ms + [m])
  {
    forall j | 0 <= j < |ms| ensures !SameKey(ms[j], m) {
      assert !MemberMatches(ms[j], OfUser(m.userId));
    }
  }

  lemma CreateWorkspaceKeepsWellFormed(s: Store, userId: UserId, name: string, newId: WorkspaceId, fallbackId: string, draws: seq<string>, now: int)
    requires WellFormed(s) && FreshWorkspaceId(s, newId)
    ensures WellFormed(CreateWorkspace(s, userId, name, newId, fallbackId, draws, now).store)
  {
    var r := CreateWorkspace(s, userId, name, newId, fallbackId, draws, now);
    if r.result.Ok? {
      AppendWorkspaceKeepsUnique(s.workspaces, r.result.value, TakenSlugs(s));
    }
  }

  lemma InviteToWorkspaceKeepsWellFormed(s: Store, w: WorkspaceId, inviterId: UserId, email: string, role: Role, appUrl: string,
                                         inviteId: InviteId, token: string, mail: MailOutcome, now: int)
    requires WellFormed(s) && FreshInvite(s, inviteId, token)
    ensures WellFormed(InviteToWorkspace(s, w, inviterId, email, role, appUrl, inviteId, token, mail, now).store)
  {
    var r := InviteToWorkspace(s, w, inviterId, email, role, appUrl, inviteId, token, mail, now);
    if r.store != s {
      AppendInviteKeepsUnique(s.invites, r.store.invites[|s.invites|]);
    }
  }

  /** A row with a fresh id and token, for a (workspace, email) with no PENDING row, keeps the invite table unique. */
  lemma AppendInviteKeepsUnique(vs: seq<Invite>, v: Invite)
    requires UniqueInviteIds(vs) && UniqueTokens(vs) && OnePendingPerEmail(vs)
    requires forall i :: 0 <= i < |vs| ==> vs[i].id != v.id && vs[i].token != v.token
    requires FindInvite(vs, PendingFor(v.workspaceId, v.email)).None?
    ensures UniqueInviteIds(vs + [v]) && UniqueTokens(vs + [v]) && OnePendingPerEmail(vs + [v])
  {
    forall i | 0 <= i < |vs| ensures !BothPendingFor(vs[i], v) {
      assert !InviteMatches(vs[i], PendingFor(v.workspaceId, v.email));
    }
  }

  lemma UpsertMemberKeepsKeysUnique(ms: seq<Membership>, userId: UserId, w: WorkspaceId, role: Role)
    requires UniqueMemberKeys(ms)
    ensures UniqueMemberKeys(UpsertMember(ms, userId, w, role))
  {
    var r := UpsertMember(ms, userId, w, role);
    if FindMember(ms, Key(userId, w)).Some? {
      var k := FindMember(ms, Key(userId, w)).value;
      assert r == ms[k := Membership(userId, w, role, Active)];
      assert forall j :: 0 <= j < |ms| ==> SameKey(r[j], ms[j]);
    } else {
      assert forall j :: 0 <= j < |ms| ==> !MemberMatches(ms[j], Key(userId, w));
    }
  }

  /** Changing only statuses of invites keeps ids and tokens unique. */
  lemma SetStatusKeepsInvitesUnique(vs: seq<Invite>, i: nat, v: Invite)
    requires i < |vs| && UniqueInviteIds(vs) && UniqueTokens(vs) && OnePendingPerEmail(vs)
    requires v.id == vs[i].id && v.token == vs[i].token && v.status != Pending
    ensures UniqueInviteIds(vs[i := v]) && UniqueTokens(vs[i := v]) && OnePendingPerEmail(vs[i := v])
  {
  }

  lemma AcceptInviteKeepsWellFormed(s: Store, token: string, userId: UserId, now: int)
    requires WellFormed(s)
    ensures WellFormed(AcceptInvite(s, token, userId, now).store)
  {
    var r := AcceptInvite(s, token, userId, now);
    if r.store != s {
      var i := FindInvite(s.invites, Token(token)).value;
      var v := s.invites[i];
      if r.result.Ok? {
        UpsertMemberKeepsKeysUnique(s.members, userId, v.workspaceId, v.role);
        SetStatusKeepsInvitesUnique(s.invites, i, v.(status := Accepted, acceptedAt := Some(now)));
      } else {
        SetStatusKeepsInvitesUnique(s.invites, i, v.(status := Expired));
      }
    }
  }

  lemma CancelInviteKeepsWellFormed(s: Store, w: WorkspaceId, actorId: UserId, inviteId: InviteId, now: int)
    requires WellFormed(s)
    ensures WellFormed(CancelInvite(s, w, actorId, inviteId, now).store)
  {
    var r := CancelInvite(s, w, actorId, inviteId, now);
    var a := r.store.invites;
    assert forall j :: 0 <= j < |a| ==> a[j].id == s.invites[j].id && a[j].token == s.invites[j].token;
    assert forall j :: 0 <= j < |a| && a[j].status == Pending ==> a[j] == s.invites[j];
  }

  /** Switching the default touches neither workspaces, memberships nor invites, so every invariant survives. */
  lemma SwitchDefaultWorkspaceKeepsInvariants(s: Store, userId: UserId, w: WorkspaceId)
    requires WellFormed(s) && OwnersPresent(s)
    ensures WellFormed(SwitchDefaultWorkspace(s, userId, w).store)
    ensures OwnersPresent(SwitchDefaultWorkspace(s, userId, w).store)
  {
  }

  /**
   * Switching to another workspace and back, both allowed, restores the
   * store exactly: the default pointer is the only state a switch writes.
   */
  lemma SwitchBackRestores(s: Store, userId: UserId, w: WorkspaceId, previous: WorkspaceId)
    requires userId in s.users && s.users[userId].defaultWorkspaceId == Some(previous)
    requires FindMember(s.members, ActiveKey(userId, w)).Some?
    requires FindMember(s.members, ActiveKey(userId, previous)).Some?
    ensures var there := SwitchDefaultWorkspace(s, userId, w);
            && there.result.Ok?
            && SwitchDefaultWorkspace(there.store, userId, previous) == Step(s, Ok(()))
  {
    var there := SwitchDefaultWorkspace(s, userId, w).store;
    var back := SwitchDefaultWorkspace(there, userId, previous).store;
    assert back.users[userId] == s.users[userId];
    assert back.users == s.users;
  }

  lemma RenameWorkspaceKeepsWellFormed(s: Store, w: WorkspaceId, actorId: UserId, name: string, now: int)
    requires WellFormed(s)
    ensures WellFormed(RenameWorkspace(s, w, actorId, name, now).store)
  {
    var r := RenameWorkspace(s, w, actorId, name, now);
    if r.result.Ok? {
      RenameKeepsIdsAndSlugs(s.workspaces, FindWorkspace(s.workspaces, Id(w)).value, Trim(name));
    }
  }

  lemma UpdateMemberRoleKeepsWellFormed(s: Store, w: WorkspaceId, actorId: UserId, memberId: UserId, role: Role, now: int)
    requires WellFormed(s)
    ensures WellFormed(UpdateMemberRole(s, w, actorId, memberId, role, now).store)
  {
    var r := UpdateMemberRole(s, w, actorId, memberId, role, now);
    assert forall j :: 0 <= j < |s.members| ==> SameKey(r.store.members[j], s.members[j]);
  }

  lemma RemoveMemberKeepsWellFormed(s: Store, w: WorkspaceId, actorId: UserId, memberId: UserId, now: int)
    requires WellFormed(s)
    ensures WellFormed(RemoveMember(s, w, actorId, memberId, now).store)
  {
    var r := RemoveMember(s, w, actorId, memberId, now);
    if r.result.Ok? {
      var k := FindMember(s.members, Key(memberId, w)).value;
      var m := r.store.members;
      forall a, b | 0 <= a < b < |m| ensures !SameKey(m[a], m[b]) {
        var a' := if a < k then a else a + 1;
        var b' := if b < k then b else b + 1;
        assert m[a] == s.members[a'] && m[b] == s.members[b'];
      }
    }
  }

  // ---------------------------------------------------- invite lifecycle

  /**
   * How the invite table may change: rows are only appended, ids, tokens,
   * workspaces, emails and roles never change, and a row that has left
   * PENDING never changes again.
   */
  predicate InvitesEvolve(vs: seq<Invite>, vs': seq<Invite>) {
    && |vs| <= |vs'|
    && (forall i :: 0 <= i < |vs| ==> SameInvite(vs[i], vs'[i]))
    && (forall i :: 0 <= i < |vs| && vs[i].status != Pending ==> vs'[i] == vs[i])
  }

  /** Every row appended by one call starts PENDING. */
  predicate AppendsPending(vs: seq<Invite>, vs': seq<Invite>) {
    forall i :: |vs| <= i < |vs'| ==> vs'[i].status == Pending
  }

  predicate SameInvite(v: Invite, v': Invite) {
    v'.id == v.id && v'.token == v.token && v'.workspaceId == v.workspaceId && v'.email == v.email && v'.role == v.role
  }

  lemma InvitesEvolveTransitive(a: seq<Invite>, b: seq<Invite>, c: seq<Invite>)
    requires InvitesEvolve(a, b) && InvitesEvolve(b, c)
    ensures InvitesEvolve(a, c)
  {
    forall i | 0 <= i < |a| && a[i].status != Pending ensures c[i] == a[i] {
      assert b[i] == a[i];
    }
  }

  lemma InviteToWorkspaceEvolvesInvites(s: Store, w: WorkspaceId, inviterId: UserId, email: string, role: Role, appUrl: string,
                                        inviteId: InviteId, token: string, mail: MailOutcome, now: int)
    ensures InvitesEvolve(s.invites, InviteToWorkspace(s, w, inviterId, email, role, appUrl, inviteId, token, mail, now).store.invites)
    ensures AppendsPending(s.invites, InviteToWorkspace(s, w, inviterId, email, role, appUrl, inviteId, token, mail, now).store.invites)
  {
    var r := InviteToWorkspace(s, w, inviterId, email, role, appUrl, inviteId, token, mail, now);
    if r.store != s {
      AppendingPendingEvolves(s.invites, r.store.invites[|s.invites|]);
    }
  }

  /** Appending a PENDING row is an allowed change of the invite table. */
  lemma AppendingPendingEvolves(vs: seq<Invite>, v: Invite)
    requires v.status == Pending
    ensures InvitesEvolve(vs, vs + [v]) && AppendsPending(vs, vs + [v])
  {
    assert forall i :: 0 <= i < |vs| ==> (vs + [v])[i] == vs[i];
  }

  lemma AcceptInviteEvolvesInvites(s: Store, token: string, userId: UserId, now: int)
    ensures InvitesEvolve(s.invites, AcceptInvite(s, token, userId, now).store.invites)
    ensures AppendsPending(s.invites, AcceptInvite(s, token, userId, now).store.invites)
  {
    var r := AcceptInvite(s, token, userId, now);
    if FindInvite(s.invites, Token(token)).Some? {
      var i := FindInvite(s.invites, Token(token)).value;
      var v := s.invites[i];
      if v.status == Pending && v.expiresAt < now {
        SettlingPendingEvolves(s.invites, i, v.(status := Expired));
      } else if r.result.Ok? {
        SettlingPendingEvolves(s.invites, i, v.(status := Accepted, acceptedAt := Some(now)));
      }
    }
  }

  /** Rewriting a PENDING row without touching its identity is an allowed change of the invite table. */
  lemma SettlingPendingEvolves(vs: seq<Invite>, i: nat, v: Invite)
    requires i < |vs| && vs[i].status == Pending && SameInvite(vs[i], v)
    ensures InvitesEvolve(vs, vs[i := v]) && AppendsPending(vs, vs[i := v])
  {
  }

  lemma CancelInviteEvolvesInvites(s: Store, w: WorkspaceId, actorId: UserId, inviteId: InviteId, now: int)
    ensures InvitesEvolve(s.invites, CancelInvite(s, w, actorId, inviteId, now).store.invites)
    ensures AppendsPending(s.invites, CancelInvite(s, w, actorId, inviteId, now).store.invites)
  {
  }

  /**
   * The reuse check looks at the status only: re-inviting an email whose
   * PENDING invite has already lapsed hands back that same invite, with no
   * write, and accepting it at that moment fails as expired.
   */
  lemma ReinviteReturnsLapsedInvite(s: Store, w: WorkspaceId, inviterId: UserId, email: string, role: Role, appUrl: string,
                                    inviteId: InviteId, token: string, mail: MailOutcome, now: int, userId: UserId)
    requires AssertCanManageWorkspace(s, inviterId, w).Ok?
    requires FindMember(s.members, InWorkspaceAmong(w, UsersWithEmail(s, ToLower(Trim(email))))).None?
    requires FindInvite(s.invites, PendingFor(w, ToLower(Trim(email)))).Some?
    requires s.invites[FindInvite(s.invites, PendingFor(w, ToLower(Trim(email)))).value].expiresAt < now
    requires UniqueTokens(s.invites)
    ensures var r := InviteToWorkspace(s, w, inviterId, email, role, appUrl, inviteId, token, mail, now);
            && r.store == s && r.result.Ok? && !r.result.value.delivered
            && r.result.value.invite.expiresAt < now
            && AcceptInvite(s, r.result.value.invite.token, userId, now).result == Err(InvitationExpired)
  {
    var i := FindInvite(s.invites, PendingFor(w, ToLower(Trim(email)))).value;
    var v := s.invites[i];
    assert InviteToWorkspace(s, w, inviterId, email, role, appUrl, inviteId, token, mail, now) ==
           Step(s, Ok(InviteResult(v, AcceptUrl(appUrl, v.token), false)));
    SameTokenSameInvite(s.invites, i, FindInvite(s.invites, Token(v.token)).value);
  }

  lemma SameTokenSameInvite(vs: seq<Invite>, i: nat, j: nat)
    requires i < |vs| && j < |vs| && UniqueTokens(vs) && vs[i].token == vs[j].token
    ensures i == j
  {
  }

  // ------------------------------------------------------- provisioning

  lemma WithDefaultAlreadySet(s: Store, userId: UserId, w: WorkspaceId)
    requires userId in s.users && s.users[userId].defaultWorkspaceId == Some(w)
    ensures WithDefault(s, userId, w) == s
  {
    assert s.users[userId := s.users[userId].(defaultWorkspaceId := Some(w))] == s.users;
  }

  /**
   * Once provisioning has succeeded, running it again (with any fresh id,
   * random draws or clock) changes nothing.
   */
  lemma EnsureWorkspaceIdempotent(s: Store, userId: UserId, newId: WorkspaceId, fallbackId: string, draws: seq<string>, now: int,
                                  newId2: WorkspaceId, fallbackId2: string, draws2: seq<string>, now2: int)
    requires EnsureWorkspaceForUser(s, userId, newId, fallbackId, draws, now).result.Ok?
    ensures var s1 := EnsureWorkspaceForUser(s, userId, newId, fallbackId, draws, now).store;
            EnsureWorkspaceForUser(s1, userId, newId2, fallbackId2, draws2, now2) == Step(s1, Ok(()))
  {
    var s1 := EnsureWorkspaceForUser(s, userId, newId, fallbackId, draws, now).store;
    if userId in s.users && !Present(s.users[userId].defaultWorkspaceId) {
      var d := s1.users[userId].defaultWorkspaceId.value;
      match FindMember(s.members, OfUser(userId))
      case Some(k) =>
        assert s1.members == s.members;
        EnsureAgainKeeps(s1, userId, d, newId2, fallbackId2, draws2, now2);
      case None =>
        ProvisionMakesFirstMembership(s, userId, newId, fallbackId, draws, now);
        EnsureAgainKeeps(s1, userId, d, newId2, fallbackId2, draws2, now2);
    }
  }

  /** After provisioning from no membership, the user's first membership is the created one. */
  lemma ProvisionMakesFirstMembership(s: Store, userId: UserId, newId: WorkspaceId, fallbackId: string, draws: seq<string>, now: int)
    requires userId in s.users && FindMember(s.members, OfUser(userId)).None?
    requires ProvisionWorkspace(s, userId, newId, fallbackId, draws, now).result.Ok?
    ensures var s1 := ProvisionWorkspace(s, userId, newId, fallbackId, draws, now).store;
            && FindMember(s1.members, OfUser(userId)).Some?
            && s1.members[FindMember(s1.members, OfUser(userId)).value].workspaceId == newId
  {
    FirstRowOfNewUser(s.members, Membership(userId, newId, Owner, Active));
  }

  /** A row appended for a user with no row yet is that user's first row. */
  lemma FirstRowOfNewUser(ms: seq<Membership>, m: Membership)
    requires FindMember(ms, OfUser(m.userId)).None?
    ensures FindMember(ms + [m], OfUser(m.userId)) == Some(|ms|)
  {
    assert forall j :: 0 <= j < |ms| ==> (ms + [m])[j] == ms[j];
    assert MemberMatches((ms + [m])[|ms|], OfUser(m.userId));
  }

  /** A user whose default is their first membership's workspace is left alone. */
  lemma EnsureAgainKeeps(s: Store, userId: UserId, d: WorkspaceId, newId: WorkspaceId, fallbackId: string, draws: seq<string>, now: int)
    requires userId in s.users && s.users[userId].defaultWorkspaceId == Some(d)
    requires FindMember(s.members, OfUser(userId)).Some? && s.members[FindMember(s.members, OfUser(userId)).value].workspaceId == d
    ensures EnsureWorkspaceForUser(s, userId, newId, fallbackId, draws, now) == Step(s, Ok(()))
  {
    WithDefaultAlreadySet(s, userId, d);
  }
}

=== FILE: ratelimit.dfy ===
/**
 * The fixed-window rate limiter (src/lib/rate-limit.ts): one bucket per
 * key holding the calls left and the time the window closes, plus the
 * client key taken from the request headers. The bucket map, the clock,
 * the limit and the window length are parameters.
 */
module RateLimit {
  import opened Wrappers
  import opened Text

  datatype Bucket = Bucket(remaining: int, resetAt: int)

  datatype RateLimitResult = RateLimitResult(success: bool, remaining: int, resetAt: int)

  /** The buckets after a check, and the check's answer. */
  datatype Checked = Checked(buckets: map<string, Bucket>, result: RateLimitResult)

  /** The defaults behind `RATE_LIMIT_MAX` and `RATE_LIMIT_WINDOW_MINUTES`, and their lower bounds. */
  const DefaultLimit: int := 50
  const MinLimit: int := 10
  const DefaultWindowMinutes: int := 5
  const MinWindowMinutes: int := 1

  function WindowMs(minutes: int): int {
    minutes * 60 * 1000
  }

  /** A key's window has closed, or never opened. */
  predicate Expired(buckets: map<string, Bucket>, key: string, now: int) {
    key !in buckets || buckets[key].resetAt < now
  }

  /**
   * `checkRateLimit`. A missing or expired bucket opens a new window with
   * `limit - 1` calls left; an exhausted one refuses without changing; any
   * other one gives out one more call.
   */
  function CheckRateLimit(buckets: map<string, Bucket>, key: string, now: int, limit: int, windowMs: int): (r: Checked)
    ensures key in r.buckets
    ensures r.buckets - {key} == buckets - {key}
    ensures Expired(buckets, key, now) ==>
              r.result == RateLimitResult(true, limit - 1, now + windowMs) && r.buckets[key] == Bucket(limit - 1, now + windowMs)
    ensures !Expired(buckets, key, now) ==>
              && r.result.resetAt == buckets[key].resetAt
              && r.buckets[key].resetAt == buckets[key].resetAt
              && (r.result.success <==> buckets[key].remaining > 0)
              && (r.result.success ==> r.buckets[key].remaining == buckets[key].remaining - 1 == r.result.remaining)
              && (!r.result.success ==> r.result.remaining == 0 && r.buckets == buckets)
    ensures r.result.success ==> r.result == RateLimitResult(true, r.buckets[key].remaining, r.buckets[key].resetAt)
  {
    if key !in buckets || buckets[key].resetAt < now then
      var resetAt := now + windowMs;
      Checked(buckets[key := Bucket(limit - 1, resetAt)], RateLimitResult(true, limit - 1, resetAt))
    else
      var existing := buckets[key];
      if existing.remaining <= 0 then Checked(buckets, RateLimitResult(false, 0, existing.resetAt))
      else
        var updated := existing.(remaining := existing.remaining - 1);
        Checked(buckets[key := updated], RateLimitResult(true, updated.remaining, updated.resetAt))
  }

  /** Within an open window a bucket's count never rises and never drops below zero once it starts there. */
  lemma CheckWithinWindowNeverIncreases(buckets: map<string, Bucket>, key: string, now: int, limit: int, windowMs: int)
    requires !Expired(buckets, key, now)
    ensures var r := CheckRateLimit(buckets, key, now, limit, windowMs);
            && r.buckets[key].remaining <= buckets[key].remaining
            && (buckets[key].remaining >= 0 ==> r.buckets[key].remaining >= 0 && r.result.remaining >= 0)
  {
  }

  /** The answers to a series of checks on one key at the given times. */
  function CheckAll(buckets: map<string, Bucket>, key: string, times: seq<int>, limit: int, windowMs: int): (rs: seq<RateLimitResult>)
    ensures |rs| == |times|
    decreases |times|
  {
    if times == [] then []
    else
      var c := CheckRateLimit(buckets, key, times[0], limit, windowMs);
      [c.result] + CheckAll(c.buckets, key, times[1..], limit, windowMs)
  }

  /**
   * Inside an open window whose bucket has `m >= 0` calls left, the first
   * `m` checks succeed counting down, and every later one fails with
   * `remaining = 0`; the window's end never moves.
   */
  lemma {:induction false} CountdownInWindow(buckets: map<string, Bucket>, key: string, times: seq<int>, limit: int, windowMs: int)
    requires key in buckets && buckets[key].remaining >= 0
    requires forall i :: 0 <= i < |times| ==> times[i] <= buckets[key].resetAt
    ensures var rs := CheckAll(buckets, key, times, limit, windowMs);
            var m := buckets[key].remaining;
            forall i :: 0 <= i < |rs| ==>
              && (rs[i].success <==> i < m)
              && rs[i].remaining == (if i < m then m - 1 - i else 0)
              && rs[i].resetAt == buckets[key].resetAt
    decreases |times|
  {
    if times != [] {
      var c := CheckRateLimit(buckets, key, times[0], limit, windowMs);
      assert forall i :: 0 <= i < |times[1..]| ==> times[1..][i] <= c.buckets[key].resetAt;
      CountdownInWindow(c.buckets, key, times[1..], limit, windowMs);
      var rs := CheckAll(buckets, key, times, limit, windowMs);
      assert forall i :: 1 <= i < |rs| ==> rs[i] == CheckAll(c.buckets, key, times[1..], limit, windowMs)[i - 1];
    }
  }

  /**
   * Starting from a closed or missing window, exactly `limit` calls made
   * before the new window ends succeed, and the next one fails with
   * `remaining = 0`.
   */
  lemma ExactlyLimitCallsPerWindow(buckets: map<string, Bucket>, key: string, times: seq<int>, limit: int, windowMs: int)
    requires limit >= 1 && |times| > limit
    requires Expired(buckets, key, times[0])
    requires forall i :: 0 <= i < |times| ==> times[i] <= times[0] + windowMs
    ensures var rs := CheckAll(buckets, key, times, limit, windowMs);
            && (forall i :: 0 <= i < |rs| ==> (rs[i].success <==> i < limit))
            && rs[limit].remaining == 0
            && rs[limit].resetAt == times[0] + windowMs
  {
    var c := CheckRateLimit(buckets, key, times[0], limit, windowMs);
    assert forall i :: 0 <= i < |times[1..]| ==> times[1..][i] <= c.buckets[key].resetAt;
    CountdownInWindow(c.buckets, key, times[1..], limit, windowMs);
    var rs := CheckAll(buckets, key, times, limit, windowMs);
    assert forall i :: 1 <= i < |rs| ==> rs[i] == CheckAll(c.buckets, key, times[1..], limit, windowMs)[i - 1];
  }

  // ----------------------------------------------------------------- keys

  /**
   * `rateLimitKeyFromRequestHeaders`: the first hop of a non-empty
   * `x-forwarded-for`, trimmed; otherwise `x-real-ip` as sent (even empty);
   * otherwise `anonymous`.
   */
  function RateLimitKeyFromHeaders(forwardedFor: Option<string>, realIp: Option<string>): (r: string)
    ensures Present(forwardedFor) ==> forall i :: 0 <= i < |r| ==> r[i] != ','
    ensures Present(forwardedFor) ==> r == [] || (!IsJsWhitespace(r[0]) && !IsJsWhitespace(r[|r| - 1]))
    ensures !Present(forwardedFor) ==> r == realIp.GetOr("anonymous")
    ensures Present(forwardedFor) ==> r == Trim(FirstSegment(forwardedFor.value, ','))
  {
    if Present(forwardedFor) then
      var first := FirstSegment(forwardedFor.value, ',');
      TrimKeepsOut(first, ',');
      Trim(first)
    else realIp.GetOr("anonymous")
  }

  /** Trimming adds no character, so a character absent before is absent after. */
  lemma TrimKeepsOut(s: string, c: char)
    requires forall i :: 0 <= i < |s| ==> s[i] != c
    ensures forall i :: 0 <= i < |Trim(s)| ==> Trim(s)[i] != c
  {
    var r := Trim(s);
    var a :| 0 <= a <= |s| && r <= s[a..];
    InfixKeepsOut(s, r, a, c);
  }

  lemma InfixKeepsOut(s: string, r: string, a: nat, c: char)
    requires a <= |s| && r <= s[a..]
    requires forall i :: 0 <= i < |s| ==> s[i] != c
    ensures forall i :: 0 <= i < |r| ==> r[i] != c
  {
    assert forall i :: 0 <= i < |r| ==> r[i] == s[a + i];
  }

  /** The part before the first comma of `hop,rest` is `hop` when `hop` has no comma. */
  lemma FirstSegmentOfHop(hop: string, rest: string)
    requires forall i :: 0 <= i < |hop| ==> hop[i] != ','
    ensures FirstSegment(hop + "," + rest, ',') == hop
  {
    var f := hop + "," + rest;
    var r := FirstSegment(f, ',');
    assert f[|hop|] == ',';
  }

  /** A header naming a single hop, with no comma, gives that hop trimmed. */
  lemma SingleHopKey(hop: string, realIp: Option<string>)
    requires hop != "" && forall i :: 0 <= i < |hop| ==> hop[i] != ','
    ensures RateLimitKeyFromHeaders(Some(hop), realIp) == Trim(hop)
  {
    assert FirstSegment(hop, ',') == hop;
  }

  /** The key is the trimmed part of `x-forwarded-for` before its first comma. */
  lemma ForwardedKeyIsFirstHop(hop: string, rest: string, realIp: Option<string>)
    requires forall i :: 0 <= i < |hop| ==> hop[i] != ','
    ensures RateLimitKeyFromHeaders(Some(hop + "," + rest), realIp) == Trim(hop)
  {
    FirstSegmentOfHop(hop, rest);
  }
}

=== FILE: slugs.dfy ===
/**
 * Workspace slugs (src/server/workspaces.ts): shaping a display name into a
 * URL slug, and the bounded-then-random search for a slug no workspace uses.
 */
module Slugs {
  import opened Wrappers
  import opened Text

  const MaxSlugLength: nat := 60

  /** Numbered suffixes `-1` ... `-10` are tried before random ones. */
  const NumberedAttempts: nat := 10

  predicate IsSlugAlnum(c: char) {
    'a' <= c <= 'z' || '0' <= c <= '9'
  }

  predicate IsSlugChar(c: char) {
    IsSlugAlnum(c) || c == '-'
  }

  predicate SlugAlphabet(s: string) {
    forall i :: 0 <= i < |s| ==> IsSlugChar(s[i])
  }

  predicate NoDoubleHyphen(s: string) {
    forall i :: 0 <= i < |s| - 1 ==> !(s[i] == '-' && s[i + 1] == '-')
  }

  /** A slug that shaping leaves alone: alphabet, no `--`, no hyphen at either end, at most 60 long. */
  predicate IsCleanSlug(s: string) {
    && SlugAlphabet(s)
    && NoDoubleHyphen(s)
    && |s| <= MaxSlugLength
    && (s == [] || (s[0] != '-' && s[|s| - 1] != '-'))
  }

  /** The characters of `s` inside `[a-z0-9]`, in order. */
  function KeepAlnums(s: string): (r: string)
    ensures |r| <= |s|
    ensures forall i :: 0 <= i < |r| ==> IsSlugAlnum(r[i])
  {
    if s == [] then [] else (if IsSlugAlnum(s[0]) then [s[0]] else []) + KeepAlnums(s[1..])
  }

  lemma KeepAlnumsCons(c: char, s: string)
    ensures KeepAlnums([c] + s) == (if IsSlugAlnum(c) then [c] else []) + KeepAlnums(s)
  {
    assert ([c] + s)[1..] == s;
  }

  /** `KeepAlnums` distributes over concatenation. */
  lemma {:induction false} KeepAlnumsConcat(a: string, b: string)
    ensures KeepAlnums(a + b) == KeepAlnums(a) + KeepAlnums(b)
  {
    if a == [] {
      assert a + b == b;
    } else {
      assert a + b == [a[0]] + (a[1..] + b);
      KeepAlnumsCons(a[0], a[1..] + b);
      KeepAlnumsConcat(a[1..], b);
      assert a == [a[0]] + a[1..];
      KeepAlnumsCons(a[0], a[1..]);
    }
  }

  /** Hyphens carry no alphanumerics. */
  lemma {:induction false} KeepAlnumsOfHyphens(s: string)
    requires forall i :: 0 <= i < |s| ==> s[i] == '-'
    ensures KeepAlnums(s) == []
  {
    if s != [] {
      KeepAlnumsOfHyphens(s[1..]);
    }
  }

  /** Hyphens around `m` add no alphanumerics. */
  lemma KeepAlnumsBetweenHyphens(p: string, m: string, q: string)
    requires forall i :: 0 <= i < |p| ==> p[i] == '-'
    requires forall i :: 0 <= i < |q| ==> q[i] == '-'
    ensures KeepAlnums(p + m + q) == KeepAlnums(m)
  {
    KeepAlnumsConcat(p + m, q);
    KeepAlnumsConcat(p, m);
    KeepAlnumsOfHyphens(p);
    KeepAlnumsOfHyphens(q);
  }

  /**
   * `replace(/[^a-z0-9]+/g, "-")`: every maximal run of characters outside
   * `[a-z0-9]` becomes one hyphen. `inRun` says the previous character
   * already belonged to such a run.
   */
  function Hyphenate(s: string, inRun: bool): (r: string)
    ensures |r| <= |s|
    ensures SlugAlphabet(r) && NoDoubleHyphen(r)
    ensures inRun ==> r == [] || r[0] != '-'
    // The alphanumerics are kept, in order; only hyphens are added between them.
    ensures KeepAlnums(r) == KeepAlnums(s)
  {
    if s == [] then []
    else if IsSlugAlnum(s[0]) then
      var rest := Hyphenate(s[1..], false);
      KeepAlnumsCons(s[0], rest);
      KeepAlnumsCons(s[0], s[1..]);
      assert [s[0]] + s[1..] == s;
      [s[0]] + rest
    else if inRun then
      KeepAlnumsCons(s[0], s[1..]);
      assert [s[0]] + s[1..] == s;
      Hyphenate(s[1..], true)
    else
      var rest := Hyphenate(s[1..], true);
      KeepAlnumsCons('-', rest);
      KeepAlnumsCons(s[0], s[1..]);
      assert [s[0]] + s[1..] == s;
      ['-'] + rest
  }

  /** A run of alphanumerics is copied as it is, and ends any run of separators. */
  lemma {:induction false} HyphenateAlnumRun(p: string, t: string, inRun: bool)
    requires p != [] && forall i :: 0 <= i < |p| ==> IsSlugAlnum(p[i])
    ensures Hyphenate(p + t, inRun) == p + Hyphenate(t, false)
    decreases |p|
  {
    var c, rest := p[0], p[1..];
    calc {
      Hyphenate(p + t, inRun);
      { assert p + t == [c] + (rest + t); }
      Hyphenate([c] + (rest + t), inRun);
      { HyphenateAlnumHead(c, rest + t, inRun); }
      [c] + Hyphenate(rest + t, false);
      { if rest == [] { assert rest + t == t; } else { HyphenateAlnumRun(rest, t, false); } }
      [c] + (rest + Hyphenate(t, false));
      { assert p == [c] + rest; }
      p + Hyphenate(t, false);
    }
  }

  lemma HyphenateAlnumHead(c: char, u: string, inRun: bool)
    requires IsSlugAlnum(c)
    ensures Hyphenate([c] + u, inRun) == [c] + Hyphenate(u, false)
  {
    assert ([c] + u)[0] == c && ([c] + u)[1..] == u;
  }

  /**
   * A whole run of separators becomes a single hyphen, or nothing when it
   * continues a run already turned into one.
   */
  lemma {:induction false} HyphenateSeparatorRun(q: string, t: string, inRun: bool)
    requires q != [] && forall i :: 0 <= i < |q| ==> !IsSlugAlnum(q[i])
    requires t == [] || IsSlugAlnum(t[0])
    ensures Hyphenate(q + t, inRun) == (if inRun then "" else "-") + Hyphenate(t, false)
    decreases |q|
  {
    assert (q + t)[0] == q[0] && (q + t)[1..] == q[1..] + t;
    if |q| == 1 {
      assert q[1..] + t == t;
      assert Hyphenate(t, true) == Hyphenate(t, false);
    } else {
      HyphenateSeparatorRun(q[1..], t, true);
    }
  }

  /** `replace(/^-+/, "")`. */
  function DropLeadingHyphens(s: string): (r: string)
    ensures |r| <= |s| && r == s[|s| - |r|..]
    ensures r == [] || r[0] != '-'
    ensures forall i :: 0 <= i < |s| - |r| ==> s[i] == '-'
  {
    if s != [] && s[0] == '-' then DropLeadingHyphens(s[1..]) else s
  }

  /** `replace(/-+$/, "")`. */
  function DropTrailingHyphens(s: string): (r: string)
    ensures |r| <= |s| && r == s[..|r|]
    ensures r == [] || r[|r| - 1] != '-'
    ensures forall i :: |r| <= i < |s| ==> s[i] == '-'
  {
    if s != [] && s[|s| - 1] == '-' then DropTrailingHyphens(s[..|s| - 1]) else s
  }

  /** `value.toLowerCase()`, hyphenate, trim hyphens, then keep the first 60 characters. */
  function Slugify(value: string): (r: string)
    ensures SlugAlphabet(r)
    ensures |r| <= MaxSlugLength
    ensures r == [] || r[0] != '-'
    ensures NoDoubleHyphen(r)
    // The slug's letters and digits are a prefix of the lower-cased name's,
    ensures KeepAlnums(r) <= KeepAlnums(ToLower(value))
    // and all of them unless the slug was cut at 60 characters.
    ensures |r| < MaxSlugLength ==> KeepAlnums(r) == KeepAlnums(ToLower(value))
    ensures |value| <= MaxSlugLength ==> KeepAlnums(r) == KeepAlnums(ToLower(value))
  {
    var t := TrimHyphens(Hyphenate(ToLower(value), false));
    if |t| <= MaxSlugLength then t
    else
      SliceKeepsSlugText(t, 0, MaxSlugLength);
      assert t == t[..MaxSlugLength] + t[MaxSlugLength..];
      KeepAlnumsConcat(t[..MaxSlugLength], t[MaxSlugLength..]);
      t[..MaxSlugLength]
  }

  /** Both hyphen trims: slug text stays slug text and loses its hyphens at either end. */
  function TrimHyphens(h: string): (t: string)
    requires SlugAlphabet(h) && NoDoubleHyphen(h)
    ensures SlugAlphabet(t) && NoDoubleHyphen(t)
    ensures t == [] || (t[0] != '-' && t[|t| - 1] != '-')
    // What is cut off at either end is hyphens, so the alphanumerics survive.
    ensures exists a, b :: 0 <= a <= b <= |h| && t == h[a..b] &&
                           (forall i :: 0 <= i < a ==> h[i] == '-') &&
                           (forall i :: b <= i < |h| ==> h[i] == '-')
    ensures KeepAlnums(t) == KeepAlnums(h)
  {
    var l := DropLeadingHyphens(h);
    var t := DropTrailingHyphens(l);
    HyphenTrimmedInfix(h, l, t);
    t
  }

  /**
   * Cutting a hyphen prefix and then a hyphen suffix from slug text leaves
   * slug text: an infix with the same alphanumerics.
   */
  lemma HyphenTrimmedInfix(h: string, l: string, t: string)
    requires SlugAlphabet(h) && NoDoubleHyphen(h)
    requires |l| <= |h| && l == h[|h| - |l|..] && forall i :: 0 <= i < |h| - |l| ==> h[i] == '-'
    requires |t| <= |l| && t == l[..|t|] && forall i :: |t| <= i < |l| ==> l[i] == '-'
    ensures SlugAlphabet(t) && NoDoubleHyphen(t)
    ensures exists a, b :: 0 <= a <= b <= |h| && t == h[a..b] &&
                           (forall i :: 0 <= i < a ==> h[i] == '-') &&
                           (forall i :: b <= i < |h| ==> h[i] == '-')
    ensures KeepAlnums(t) == KeepAlnums(h)
  {
    var a := |h| - |l|;
    var p, q := h[..a], h[a + |t|..];
    assert t == h[a..a + |t|];
    assert forall i :: a + |t| <= i < |h| ==> h[i] == l[i - a];
    assert forall i :: 0 <= i < |q| ==> q[i] == l[|t| + i];
    assert h == p + t + q;
    KeepAlnumsBetweenHyphens(p, t, q);
    SliceKeepsSlugText(h, a, a + |t|);
  }

  /** Any slice of slug text is slug text. */
  lemma SliceKeepsSlugText(s: string, a: nat, b: nat)
    requires a <= b <= |s| && SlugAlphabet(s) && NoDoubleHyphen(s)
    ensures SlugAlphabet(s[a..b]) && NoDoubleHyphen(s[a..b])
  {
    assert forall i :: 0 <= i < b - a ==> s[a..b][i] == s[a + i];
  }

  lemma {:induction false} HyphenateKeepsSlugText(s: string, inRun: bool)
    requires SlugAlphabet(s) && NoDoubleHyphen(s)
    requires inRun ==> s == [] || s[0] != '-'
    ensures Hyphenate(s, inRun) == s
  {
    if s != [] {
      assert NoDoubleHyphen(s[1..]) by {
        assert forall i :: 0 <= i < |s[1..]| ==> s[1..][i] == s[i + 1];
      }
      HyphenateKeepsSlugText(s[1..], s[0] == '-');
    }
  }

  lemma ToLowerKeepsSlugText(s: string)
    requires SlugAlphabet(s)
    ensures ToLower(s) == s
  {
  }

  /** A clean slug is a fixed point of `Slugify`. */
  lemma SlugifyFixesCleanSlugs(s: string)
    requires IsCleanSlug(s)
    ensures Slugify(s) == s
  {
    ToLowerKeepsSlugText(s);
    HyphenateKeepsSlugText(s, false);
  }

  /**
   * Trimming happens before truncation, so a slug can end in a hyphen and
   * `Slugify` is not idempotent: 59 letters then `-b` shape to the 59
   * letters plus `-`, which shapes again to the 59 letters.
   */
  lemma SlugifyNotIdempotent(p: string)
    requires |p| == MaxSlugLength - 1 && forall i :: 0 <= i < |p| ==> IsSlugAlnum(p[i])
    ensures Slugify(p + "-b") == p + "-"
    ensures Slugify(Slugify(p + "-b")) == p
  {
    SlugifyTruncatesToHyphen(p);
    SlugifyDropsTrailingHyphen(p);
  }

  /** Alphanumerics followed by `tail`, where `tail` is slug text not starting with `--`. */
  lemma AlnumPrefixSlugText(p: string, tail: string)
    requires forall i :: 0 <= i < |p| ==> IsSlugAlnum(p[i])
    requires SlugAlphabet(tail) && NoDoubleHyphen(tail)
    ensures SlugAlphabet(p + tail) && NoDoubleHyphen(p + tail)
  {
    var s := p + tail;
    forall i | 0 <= i < |s| - 1
      ensures !(s[i] == '-' && s[i + 1] == '-')
    {
      if i >= |p| {
        assert s[i] == tail[i - |p|] && s[i + 1] == tail[i + 1 - |p|];
      }
    }
  }

  lemma SlugifyTruncatesToHyphen(p: string)
    requires |p| == MaxSlugLength - 1 && forall i :: 0 <= i < |p| ==> IsSlugAlnum(p[i])
    ensures Slugify(p + "-b") == p + "-"
  {
    var s := p + "-b";
    AlnumPrefixSlugText(p, "-b");
    ToLowerKeepsSlugText(s);
    HyphenateKeepsSlugText(s, false);
    assert s[0] == p[0] && s[|s| - 1] == 'b';
    assert DropLeadingHyphens(s) == s;
    assert DropTrailingHyphens(s) == s;
    assert s[..MaxSlugLength] == p + "-";
  }

  lemma SlugifyDropsTrailingHyphen(p: string)
    requires |p| == MaxSlugLength - 1 && forall i :: 0 <= i < |p| ==> IsSlugAlnum(p[i])
    ensures Slugify(p + "-") == p
  {
    var t := p + "-";
    AlnumPrefixSlugText(p, "-");
    ToLowerKeepsSlugText(t);
    HyphenateKeepsSlugText(t, false);
    assert t[0] == p[0];
    assert DropLeadingHyphens(t) == t;
    assert t[..|t| - 1] == p && p[|p| - 1] != '-';
    assert DropTrailingHyphens(t) == p;
  }

  /** The slug the search starts from: the shaped name, or `workspace-<6 random chars>` when that is empty. */
  function SlugBase(name: string, fallbackId: string): (r: string)
    ensures r != ""
    ensures r == Slugify(name) || r == "workspace-" + fallbackId
    ensures Slugify(name) != "" ==> r == Slugify(name)
    ensures Slugify(name) == "" ==> r == "workspace-" + fallbackId
  {
    var shaped := Slugify(name);
    if shaped != "" then shaped else "workspace-" + fallbackId
  }

  /**
   * The candidate tried at a given iteration: the base itself, then
   * `base-1` ... `base-10`, then `base-<random>` for each random draw.
   */
  function Candidate(base: string, iteration: nat, draws: seq<string>): (r: string)
    requires iteration <= NumberedAttempts + |draws|
    ensures base <= r
    ensures r == base <==> iteration == 0
    ensures iteration > 0 ==> r[|base|] == '-'
  {
    if iteration == 0 then base
    else if iteration <= NumberedAttempts then base + "-" + NatToString(iteration)
    else base + "-" + draws[iteration - NumberedAttempts - 1]
  }

  /** The base and the ten numbered candidates are pairwise different. */
  lemma NumberedCandidatesDistinct(base: string, i: nat, j: nat, draws: seq<string>)
    requires i <= NumberedAttempts && j <= NumberedAttempts
    requires Candidate(base, i, draws) == Candidate(base, j, draws)
    ensures i == j
  {
    if i > 0 && j > 0 {
      var c := Candidate(base, i, draws);
      assert NatToString(i) == c[|base| + 1..];
      assert NatToString(j) == c[|base| + 1..];
    }
  }

  function LastIteration(draws: seq<string>): nat {
    NumberedAttempts + |draws|
  }

  /** The loop of `generateWorkspaceSlug`, from `iteration` on. */
  function SearchFrom(base: string, taken: set<string>, draws: seq<string>, iteration: nat): (r: Option<string>)
    ensures r.Some? ==> r.value !in taken
    ensures r.Some? ==> exists k :: iteration <= k <= LastIteration(draws) && r.value == Candidate(base, k, draws) &&
                                    forall j :: iteration <= j < k ==> Candidate(base, j, draws) in taken
    ensures r.None? <==> forall k :: iteration <= k <= LastIteration(draws) ==> Candidate(base, k, draws) in taken
    decreases LastIteration(draws) + 1 - iteration
  {
    if iteration > LastIteration(draws) then None
    else
      var candidate := Candidate(base, iteration, draws);
      if candidate !in taken then Some(candidate)
      else SearchFrom(base, taken, draws, iteration + 1)
  }

  /**
   * `generateWorkspaceSlug`: the first candidate no workspace uses. The
   * source loops until it finds one; the model draws random suffixes from
   * the finite `draws`, and `None` means every supplied draw was taken.
   */
  function GenerateWorkspaceSlug(name: string, taken: set<string>, fallbackId: string, draws: seq<string>): (r: Option<string>)
    ensures r.Some? ==> r.value !in taken
    ensures r.Some? ==> exists k :: 0 <= k <= LastIteration(draws) && r.value == Candidate(SlugBase(name, fallbackId), k, draws) &&
                                    forall j :: 0 <= j < k ==> Candidate(SlugBase(name, fallbackId), j, draws) in taken
    ensures r.None? <==> forall k :: 0 <= k <= LastIteration(draws) ==> Candidate(SlugBase(name, fallbackId), k, draws) in taken
  {
    SearchFrom(SlugBase(name, fallbackId), taken, draws, 0)
  }
}

=== FILE: text.dfy ===
/**
 * String helpers with JavaScript semantics: truthiness of optional strings,
 * `trim`, ASCII case mapping, `split` on one separator, decimal rendering
 * and `length`. Strings are `seq<char>`, and a `char` is one Unicode scalar
 * value, so JavaScript's `length`, which counts UTF-16 code units, is
 * `Utf16Length` rather than `|s|`.
 */
module Text {
  import opened Wrappers

  /** JavaScript truthiness of a `string | null | undefined`: present and non-empty. */
  predicate Present(o: Option<string>) {
    o.Some? && o.value != ""
  }

  /**
   * The code points `String.prototype.trim` removes: WhiteSpace (TAB, VT, FF,
   * SPACE, NBSP, ZWNBSP and the Zs category) and LineTerminator (LF, CR, LS, PS).
   */
  predicate IsJsWhitespace(c: char) {
    || c == '\t' || c == '\U{000B}' || c == '\U{000C}' || c == ' '
    || c == '\U{00A0}' || c == '\U{FEFF}' || c == '\U{1680}'
    || ('\U{2000}' <= c <= '\U{200A}')
    || c == '\U{202F}' || c == '\U{205F}' || c == '\U{3000}'
    || c == '\n' || c == '\r' || c == '\U{2028}' || c == '\U{2029}'
  }

  /** `s` without its maximal whitespace prefix. */
  function TrimStart(s: string): (r: string)
    ensures |r| <= |s| && r == s[|s| - |r|..]
    ensures r == [] || !IsJsWhitespace(r[0])
    ensures forall i :: 0 <= i < |s| - |r| ==> IsJsWhitespace(s[i])
  {
    if s != [] && IsJsWhitespace(s[0]) then TrimStart(s[1..]) else s
  }

  /** `s` without its maximal whitespace suffix. */
  function TrimEnd(s: string): (r: string)
    ensures |r| <= |s| && r == s[..|r|]
    ensures r == [] || !IsJsWhitespace(r[|r| - 1])
    ensures forall i :: |r| <= i < |s| ==> IsJsWhitespace(s[i])
  {
    if s != [] && IsJsWhitespace(s[|s| - 1]) then TrimEnd(s[..|s| - 1]) else s
  }

  /** `s.trim()`: the infix left after removing whitespace from both ends. */
  function Trim(s: string): (r: string)
    ensures exists a :: 0 <= a <= |s| && r <= s[a..]
    // What is cut off at either end is whitespace.
    ensures exists a, b :: 0 <= a <= b <= |s| && r == s[a..b] &&
                           (forall i :: 0 <= i < a ==> IsJsWhitespace(s[i])) &&
                           (forall i :: b <= i < |s| ==> IsJsWhitespace(s[i]))
    ensures r == [] || (!IsJsWhitespace(r[0]) && !IsJsWhitespace(r[|r| - 1]))
    ensures (s == [] || (!IsJsWhitespace(s[0]) && !IsJsWhitespace(s[|s| - 1]))) ==> r == s
  {
    var t := TrimStart(s);
    var r := TrimEnd(t);
    TrimmedInfix(s, t, r);
    r
  }

  /** Cutting a whitespace prefix and then a whitespace suffix leaves an infix with whitespace on both sides. */
  lemma TrimmedInfix(s: string, t: string, r: string)
    requires |t| <= |s| && t == s[|s| - |t|..] && forall i :: 0 <= i < |s| - |t| ==> IsJsWhitespace(s[i])
    requires |r| <= |t| && r == t[..|r|] && forall i :: |r| <= i < |t| ==> IsJsWhitespace(t[i])
    ensures exists a :: 0 <= a <= |s| && r <= s[a..]
    ensures exists a, b :: 0 <= a <= b <= |s| && r == s[a..b] &&
                           (forall i :: 0 <= i < a ==> IsJsWhitespace(s[i])) &&
                           (forall i :: b <= i < |s| ==> IsJsWhitespace(s[i]))
  {
    var a := |s| - |t|;
    assert r == s[a..a + |r|];
    assert r <= s[a..];
    assert forall i :: a + |r| <= i < |s| ==> s[i] == t[i - a];
  }

  /** A code point outside the Basic Multilingual Plane, which UTF-16 writes as a surrogate pair. */
  predicate IsAstral(c: char) {
    c as int >= 0x1_0000
  }

  /** JavaScript's `s.length`: the number of UTF-16 code units. */
  function Utf16Length(s: string): (n: nat)
    ensures |s| <= n <= 2 * |s|
    ensures n == |s| <==> forall i :: 0 <= i < |s| ==> !IsAstral(s[i])
    ensures n == 2 * |s| <==> forall i :: 0 <= i < |s| ==> IsAstral(s[i])
  {
    if s == [] then 0
    else (if IsAstral(s[0]) then 2 else 1) + Utf16Length(s[1..])
  }

  /** `c.toLowerCase()` restricted to ASCII letters. */
  function LowerChar(c: char): char {
    if 'A' <= c <= 'Z' then (c as int - 'A' as int + 'a' as int) as char else c
  }

  /** `c.toUpperCase()` restricted to ASCII letters. */
  function UpperChar(c: char): char {
    if 'a' <= c <= 'z' then (c as int - 'a' as int + 'A' as int) as char else c
  }

  function ToLower(s: string): (r: string)
    ensures |r| == |s| && forall i :: 0 <= i < |s| ==> r[i] == LowerChar(s[i])
  {
    if s == [] then [] else [LowerChar(s[0])] + ToLower(s[1..])
  }

  function ToUpper(s: string): (r: string)
    ensures |r| == |s| && forall i :: 0 <= i < |s| ==> r[i] == UpperChar(s[i])
  {
    if s == [] then [] else [UpperChar(s[0])] + ToUpper(s[1..])
  }

  /** `s.split(sep)` for a one-character separator. */
  function Split(s: string, sep: char): (parts: seq<string>)
    ensures |parts| >= 1
    ensures forall i, j :: 0 <= i < |parts| && 0 <= j < |parts[i]| ==> parts[i][j] != sep
  {
    if s == [] then [""]
    else if s[0] == sep then [""] + Split(s[1..], sep)
    else
      var rest := Split(s[1..], sep);
      [[s[0]] + rest[0]] + rest[1..]
  }

  /** `parts.join(sep)`. */
  function Join(parts: seq<string>, sep: char): string
    requires |parts| >= 1
  {
    if |parts| == 1 then parts[0] else parts[0] + [sep] + Join(parts[1..], sep)
  }

  /** Splitting and joining again gives back the original string. */
  lemma {:induction false} JoinSplit(s: string, sep: char)
    ensures Join(Split(s, sep), sep) == s
  {
    if s == [] {
    } else if s[0] == sep {
      JoinSplit(s[1..], sep);
      assert [sep] + s[1..] == s;
    } else {
      var rest := Split(s[1..], sep);
      JoinSplit(s[1..], sep);
      if |rest| == 1 {
        assert [s[0]] + s[1..] == s;
      } else {
        assert Join(rest, sep) == rest[0] + [sep] + Join(rest[1..], sep);
        assert [s[0]] + (rest[0] + [sep] + Join(rest[1..], sep)) == s;
      }
    }
  }

  /** `s.split(sep)[0]`: everything before the first separator. */
  function FirstSegment(s: string, sep: char): (r: string)
    ensures |r| <= |s| && r == s[..|r|]
    ensures forall j :: 0 <= j < |r| ==> r[j] != sep
    ensures |r| == |s| || s[|r|] == sep
  {
    JoinSplit(s, sep);
    var parts := Split(s, sep);
    if |parts| == 1 then parts[0]
    else
      assert s == parts[0] + [sep] + Join(parts[1..], sep);
      parts[0]
  }

  predicate IsDigit(c: char) {
    '0' <= c <= '9'
  }

  /** The value of a string of decimal digits. */
  function DecimalValue(s: string): nat
    requires forall i :: 0 <= i < |s| ==> IsDigit(s[i])
  {
    if s == [] then 0 else DecimalValue(s[..|s| - 1]) * 10 + DigitValue(s[|s| - 1])
  }

  function DigitValue(c: char): nat
    requires IsDigit(c)
  {
    c as int - '0' as int
  }

  /** `String(n)` for a natural number: decimal digits that read back as `n`. */
  function NatToString(n: nat): (r: string)
    ensures r != [] && forall i :: 0 <= i < |r| ==> IsDigit(r[i])
    ensures DecimalValue(r) == n
    ensures r[0] == '0' ==> n == 0
  {
    var d := ['0' + (n % 10) as char];
    if n < 10 then d
    else
      var r := NatToString(n / 10) + d;
      assert r[..|r| - 1] == NatToString(n / 10);
      r
  }
}

=== FILE: workspaces.dfy ===
/**
 * The workspace and membership engine (src/server/workspaces.ts): first
 * sign-in provisioning, workspace creation, the invite lifecycle
 * PENDING -> ACCEPTED | CANCELED | EXPIRED, role changes and removals that
 * protect owners, and the membership-gated default switch and rename.
 *
 * Each operation maps a store to a `Step`: the store after the call and
 * the value returned or the error thrown. Fresh ids and tokens, random
 * slug suffixes, the clock and the mail transport's answer are parameters.
 */
module Workspaces {
  import opened Wrappers
  import opened Text
  import opened Domain
  import opened Slugs

  const InviteExpirationHours: nat := 48

  /** The invite lifetime in milliseconds. */
  const InviteLifetimeMs: nat := InviteExpirationHours * 60 * 60 * 1000

  function RoleName(role: Role): string {
    match role
    case Owner => "OWNER"
    case Admin => "ADMIN"
    case Member => "MEMBER"
  }

  /** `${APP_URL}/invites/${token}`: the token can be read back from the end of the link. */
  function AcceptUrl(appUrl: string, token: string): (r: string)
    ensures |r| == |appUrl| + 9 + |token|
    ensures appUrl <= r && r[|appUrl|..|appUrl| + 9] == "/invites/" && r[|r| - |token|..] == token
  {
    appUrl + "/invites/" + token
  }

  /** What `sendMail` reports: delivered, skipped (no transport configured), or a thrown delivery error. */
  datatype MailOutcome = Delivered | NotConfigured | DeliveryError(reason: string)

  datatype InviteResult = InviteResult(invite: Invite, acceptUrl: string, delivered: bool)

  /** The store with user `userId`'s default workspace pointer set to `w`. */
  function WithDefault(s: Store, userId: UserId, w: WorkspaceId): (s': Store)
    requires userId in s.users
    ensures s'.users.Keys == s.users.Keys
    ensures s'.users[userId].defaultWorkspaceId == Some(w)
    ensures forall u :: u in s.users && u != userId ==> s'.users[u] == s.users[u]
    ensures s'.users[userId].email == s.users[userId].email
    ensures s'.(users := s.users) == s
  {
    s.(users := s.users[userId := s.users[userId].(defaultWorkspaceId := Some(w))])
  }

  /** `user.name?.trim() || user.email?.split("@")[0] || "Workspace"`. */
  function DisplayName(user: User): (r: string)
    ensures r != ""
    // The trimmed name when it is non-empty,
    ensures user.name.Some? && Trim(user.name.value) != "" ==> r == Trim(user.name.value)
    // else the part of the email before its first `@` when that is non-empty,
    ensures !(user.name.Some? && Trim(user.name.value) != "") && user.email.Some? && FirstSegment(user.email.value, '@') != "" ==>
              r == FirstSegment(user.email.value, '@') && user.email.value[..|r|] == r && '@' !in r
    // else the fixed fallback.
    ensures r == "Workspace" || (user.name.Some? && r == Trim(user.name.value)) || (user.email.Some? && r == FirstSegment(user.email.value, '@'))
  {
    if user.name.Some? && Trim(user.name.value) != "" then Trim(user.name.value)
    else if user.email.Some? && FirstSegment(user.email.value, '@') != "" then FirstSegment(user.email.value, '@')
    else "Workspace"
  }

  // ------------------------------------------------------- provisioning

  /**
   * `ensureWorkspaceForUser`: on sign-in, give a user without a default
   * workspace one. An existing membership of any status (the earliest
   * created) becomes the default; otherwise a workspace named
   * `<displayName>'s Team` is created with the user as its ACTIVE OWNER.
   */
  function EnsureWorkspaceForUser(s: Store, userId: UserId, newId: WorkspaceId, fallbackId: string, draws: seq<string>, now: int): (r: Step<()>)
    ensures userId !in s.users || Present(s.users[userId].defaultWorkspaceId) ==> r == Step(s, Ok(()))
    ensures r.result.Err? ==> r.store == s && r.result.error == SlugSearchExhausted
    ensures r.store.invites == s.invites
    ensures r.store.users.Keys == s.users.Keys
    ensures forall u :: u in s.users && u != userId ==> r.store.users[u] == s.users[u]
    // An existing membership becomes the default and nothing is created.
    ensures userId in s.users && !Present(s.users[userId].defaultWorkspaceId) && FindMember(s.members, OfUser(userId)).Some? ==>
              && r.result.Ok?
              && r.store.workspaces == s.workspaces && r.store.members == s.members && r.store.audit == s.audit
              && r.store.users[userId].defaultWorkspaceId == Some(s.members[FindMember(s.members, OfUser(userId)).value].workspaceId)
    // Otherwise exactly one workspace is created, owned by the user and made the default.
    ensures userId in s.users && !Present(s.users[userId].defaultWorkspaceId) && FindMember(s.members, OfUser(userId)).None? && r.result.Ok? ==>
              && |r.store.workspaces| == |s.workspaces| + 1
              && r.store.workspaces[..|s.workspaces|] == s.workspaces
              && r.store.workspaces[|s.workspaces|].id == newId
              && r.store.workspaces[|s.workspaces|].name == DisplayName(s.users[userId]) + "'s Team"
              && r.store.workspaces[|s.workspaces|].slug !in TakenSlugs(s)
              && GenerateWorkspaceSlug(DisplayName(s.users[userId]), TakenSlugs(s), fallbackId, draws).Some?
              && r.store.workspaces[|s.workspaces|].slug == GenerateWorkspaceSlug(DisplayName(s.users[userId]), TakenSlugs(s), fallbackId, draws).value
              && r.store.members == s.members + [Membership(userId, newId, Owner, Active)]
              && r.store.users[userId].defaultWorkspaceId == Some(newId)
              && r.store.audit == s.audit + [AuditEntry(Some(newId), Some(userId), "workspace.created", None,
                                                        map["reason" := "auto-provision"], now)]
  {
    if userId !in s.users then Step(s, Ok(()))
    else
      var user := s.users[userId];
      if Present(user.defaultWorkspaceId) then Step(s, Ok(()))
      else match FindMember(s.members, OfUser(userId))
        case Some(i) => Step(WithDefault(s, userId, s.members[i].workspaceId), Ok(()))
        case None => ProvisionWorkspace(s, userId, newId, fallbackId, draws, now)
  }

  /** The creating half of provisioning: a `<display name>'s Team` workspace owned by the user and made the default. */
  function ProvisionWorkspace(s: Store, userId: UserId, newId: WorkspaceId, fallbackId: string, draws: seq<string>, now: int): (r: Step<()>)
    requires userId in s.users
    ensures r.result.Err? <==> GenerateWorkspaceSlug(DisplayName(s.users[userId]), TakenSlugs(s), fallbackId, draws).None?
    ensures r.result.Err? ==> r == Step(s, Err(SlugSearchExhausted))
    ensures r.store.invites == s.invites
    ensures r.store.users.Keys == s.users.Keys
    ensures forall u :: u in s.users && u != userId ==> r.store.users[u] == s.users[u]
    ensures r.result.Ok? ==>
              && |r.store.workspaces| == |s.workspaces| + 1
              && r.store.workspaces[..|s.workspaces|] == s.workspaces
              && r.store.workspaces[|s.workspaces|].id == newId
              && r.store.workspaces[|s.workspaces|].name == DisplayName(s.users[userId]) + "'s Team"
              && r.store.workspaces[|s.workspaces|].slug !in TakenSlugs(s)
              && GenerateWorkspaceSlug(DisplayName(s.users[userId]), TakenSlugs(s), fallbackId, draws).Some?
              && r.store.workspaces[|s.workspaces|].slug == GenerateWorkspaceSlug(DisplayName(s.users[userId]), TakenSlugs(s), fallbackId, draws).value
              && r.store.members == s.members + [Membership(userId, newId, Owner, Active)]
              && r.store.users[userId].defaultWorkspaceId == Some(newId)
              && r.store.audit == s.audit + [AuditEntry(Some(newId), Some(userId), "workspace.created", None,
                                                        map["reason" := "auto-provision"], now)]
  {
    var displayName := DisplayName(s.users[userId]);
    match GenerateWorkspaceSlug(displayName, TakenSlugs(s), fallbackId, draws)
    case None => Step(s, Err(SlugSearchExhausted))
    case Some(slug) =>
      var created := s.(workspaces := s.workspaces + [NewWorkspace(newId, displayName + "'s Team", slug)],
                        members := s.members + [Membership(userId, newId, Owner, Active)]);
      var entry := AuditEntry(Some(newId), Some(userId), "workspace.created", None, map["reason" := "auto-provision"], now);
      Step(Record(WithDefault(created, userId, newId), entry), Ok(()))
  }

  /**
   * `createWorkspace`: a workspace with the given name (no length check
   * here), a fresh slug, the creator as ACTIVE OWNER and as default.
   */
  function CreateWorkspace(s: Store, userId: UserId, name: string, newId: WorkspaceId, fallbackId: string, draws: seq<string>, now: int): (r: Step<Workspace>)
    ensures r.result.Err? ==> r.store == s
    ensures r.result.Err? <==> userId !in s.users || GenerateWorkspaceSlug(name, TakenSlugs(s), fallbackId, draws).None?
    ensures GenerateWorkspaceSlug(name, TakenSlugs(s), fallbackId, draws).Some? && userId !in s.users ==>
              r.result == Err(UnknownUserReference)
    ensures r.store.invites == s.invites
    ensures r.result.Ok? ==>
              && r.result.value.id == newId && r.result.value.name == name
              && r.result.value.slug !in TakenSlugs(s)
              && r.result.value.slug == GenerateWorkspaceSlug(name, TakenSlugs(s), fallbackId, draws).value
              && r.result.value.plan == Free && r.result.value.billingStatus == BillingNone
              && r.store.workspaces == s.workspaces + [r.result.value]
              && r.store.members == s.members + [Membership(userId, newId, Owner, Active)]
              && userId in r.store.users && r.store.users[userId].defaultWorkspaceId == Some(newId)
              && r.store.users.Keys == s.users.Keys
              && r.store.audit == s.audit + [AuditEntry(Some(newId), Some(userId), "workspace.created", Some(newId), map["name" := name], now)]
  {
    match GenerateWorkspaceSlug(name, TakenSlugs(s), fallbackId, draws)
    case None => Step(s, Err(SlugSearchExhausted))
    case Some(slug) =>
      if userId !in s.users then Step(s, Err(UnknownUserReference))
      else
        var workspace := NewWorkspace(newId, name, slug);
        var created := s.(workspaces := s.workspaces + [workspace],
                          members := s.members + [Membership(userId, newId, Owner, Active)]);
        var entry := AuditEntry(Some(newId), Some(userId), "workspace.created", Some(newId), map["name" := name], now);
        Step(Record(WithDefault(created, userId, newId), entry), Ok(workspace))
  }

  // ------------------------------------------------------- authorization

  /**
   * `assertCanManageWorkspace`: the actor's ACTIVE membership must exist
   * and must not be MEMBER; its role is returned.
   */
  function AssertCanManageWorkspace(s: Store, userId: UserId, w: WorkspaceId): (r: Result<Role, EngineError>)
    ensures r == Err(NotAMember) <==> forall j :: 0 <= j < |s.members| ==> !MemberMatches(s.members[j], ActiveKey(userId, w))
    ensures r.Err? ==> r.error == NotAMember || r.error == InsufficientPermissions
    ensures r.Ok? ==> (r.value != Member &&
              exists j :: 0 <= j < |s.members| && MemberMatches(s.members[j], ActiveKey(userId, w)) && s.members[j].role == r.value)
    // The actor's earliest ACTIVE row decides: OWNER and ADMIN pass with their role, MEMBER is refused.
    ensures FindMember(s.members, ActiveKey(userId, w)).Some? ==>
              var role := s.members[FindMember(s.members, ActiveKey(userId, w)).value].role;
              && (role != Member ==> r == Ok(role))
              && (role == Member ==> r == Err(InsufficientPermissions))
  {
    match FindMember(s.members, ActiveKey(userId, w))
    case None => Err(NotAMember)
    case Some(i) => if s.members[i].role == Member then Err(InsufficientPermissions) else Ok(s.members[i].role)
  }

  // ---------------------------------------------------------------- invites

  /**
   * `inviteToWorkspace`. The inviter must be able to manage the workspace;
   * the normalised email must not belong to a member; a PENDING invite for
   * the same (workspace, email) is returned as is, whatever its expiry.
   * Otherwise a new invite is stored and audited, then mail is attempted;
   * a delivery error is thrown after the invite has been stored.
   */
  function InviteToWorkspace(s: Store, w: WorkspaceId, inviterId: UserId, email: string, role: Role, appUrl: string,
                             inviteId: InviteId, token: string, mail: MailOutcome, now: int): (r: Step<InviteResult>)
    ensures r.result.Err? && !r.result.error.MailFailed? ==> r.store == s
    ensures AssertCanManageWorkspace(s, inviterId, w).Err? ==> r == Step(s, Err(AssertCanManageWorkspace(s, inviterId, w).error))
    ensures r.result.Ok? ==> AssertCanManageWorkspace(s, inviterId, w).Ok?
    ensures r.result == Err(AlreadyMember) <==>
              AssertCanManageWorkspace(s, inviterId, w).Ok? &&
              FindMember(s.members, InWorkspaceAmong(w, UsersWithEmail(s, ToLower(Trim(email))))).Some?
    ensures r.result.Ok? ==> r.result.value.acceptUrl == AcceptUrl(appUrl, r.result.value.invite.token)
    ensures r.store.members == s.members && r.store.users == s.users && r.store.workspaces == s.workspaces
    // Re-inviting returns the pending invite unchanged, undelivered, with no write.
    ensures r.result.Ok? && r.store == s ==>
              && !r.result.value.delivered
              && exists i :: 0 <= i < |s.invites| && s.invites[i] == r.result.value.invite &&
                             InviteMatches(s.invites[i], PendingFor(w, ToLower(Trim(email))))
    // A pending invite for the address is handed back as it is.
    ensures AssertCanManageWorkspace(s, inviterId, w).Ok? &&
            FindMember(s.members, InWorkspaceAmong(w, UsersWithEmail(s, ToLower(Trim(email))))).None? &&
            FindInvite(s.invites, PendingFor(w, ToLower(Trim(email)))).Some? ==>
              var v := s.invites[FindInvite(s.invites, PendingFor(w, ToLower(Trim(email)))).value];
              r == Step(s, Ok(InviteResult(v, AcceptUrl(appUrl, v.token), false)))
    // Without one, a new invite is stored whatever the mail outcome; only a delivery error fails.
    ensures AssertCanManageWorkspace(s, inviterId, w).Ok? &&
            FindMember(s.members, InWorkspaceAmong(w, UsersWithEmail(s, ToLower(Trim(email))))).None? &&
            FindInvite(s.invites, PendingFor(w, ToLower(Trim(email)))).None? ==>
              && r.store != s
              && (mail.DeliveryError? ==> r.result == Err(MailFailed(mail.reason)))
              && (!mail.DeliveryError? ==> r.result.Ok?)
    // A new invite: trimmed lower-cased email, PENDING, 48 hours, the requested role.
    ensures r.store != s ==>
              && r.store.invites == s.invites + [Invite(inviteId, ToLower(Trim(email)), w, role, token, Pending, now + InviteLifetimeMs, inviterId, None)]
              && r.store.audit == s.audit + [AuditEntry(Some(w), Some(inviterId), "workspace.invite.created", Some(ToLower(Trim(email))),
                                                        map["inviteId" := inviteId, "role" := RoleName(role)], now)]
              && FindInvite(s.invites, PendingFor(w, ToLower(Trim(email)))).None?
              && (r.result.Ok? ==> r.result.value.invite == r.store.invites[|s.invites|] && r.result.value.delivered == (mail == Delivered))
              && (r.result.Err? ==> mail.DeliveryError?)
  {
    match AssertCanManageWorkspace(s, inviterId, w)
    case Err(e) => Step(s, Err(e))
    case Ok(_) =>
      var normalized := ToLower(Trim(email));
      if FindMember(s.members, InWorkspaceAmong(w, UsersWithEmail(s, normalized))).Some? then Step(s, Err(AlreadyMember))
      else match FindInvite(s.invites, PendingFor(w, normalized))
        case Some(i) => Step(s, Ok(InviteResult(s.invites[i], AcceptUrl(appUrl, s.invites[i].token), false)))
        case None =>
          var invite := Invite(inviteId, normalized, w, role, token, Pending, now + InviteLifetimeMs, inviterId, None);
          var entry := AuditEntry(Some(w), Some(inviterId), "workspace.invite.created", Some(normalized),
                                  map["inviteId" := inviteId, "role" := RoleName(role)], now);
          var stored := Record(s.(invites := s.invites + [invite]), entry);
          var url := AcceptUrl(appUrl, token);
          match mail
          case Delivered => Step(stored, Ok(InviteResult(invite, url, true)))
          case NotConfigured => Step(stored, Ok(InviteResult(invite, url, false)))
          case DeliveryError(reason) => Step(stored, Err(MailFailed(reason)))
  }

  /**
   * The `(userId, workspaceId)` upsert: an existing row keeps its place and
   * gets the role and ACTIVE, otherwise a new row is appended.
   */
  function UpsertMember(ms: seq<Membership>, userId: UserId, w: WorkspaceId, role: Role): (r: seq<Membership>)
    ensures exists j :: 0 <= j < |r| && r[j] == Membership(userId, w, role, Active)
    ensures FindMember(ms, Key(userId, w)).Some? ==> |r| == |ms|
    ensures FindMember(ms, Key(userId, w)).None? ==> r == ms + [Membership(userId, w, role, Active)]
    ensures forall j :: 0 <= j < |ms| && Some(j) != FindMember(ms, Key(userId, w)) ==> r[j] == ms[j]
  {
    match FindMember(ms, Key(userId, w))
    case Some(j) =>
      var r := ms[j := Membership(userId, w, role, Active)];
      assert r[j] == Membership(userId, w, role, Active);
      r
    case None =>
      var r := ms + [Membership(userId, w, role, Active)];
      assert r[|ms|] == Membership(userId, w, role, Active);
      r
  }

  /**
   * `acceptInvite`. Fails, in this order, on an unknown token, a
   * non-PENDING invite, an invite whose expiry lies strictly before `now`
   * (which is first marked EXPIRED), a user without an email, and an email
   * that differs ignoring case. On success the membership is upserted to
   * ACTIVE with the invite's role and the invite is ACCEPTED in one step,
   * then the workspace becomes the user's default.
   */
  function AcceptInvite(s: Store, token: string, userId: UserId, now: int): (r: Step<WorkspaceId>)
    ensures r.result.Err? ==> r.store.members == s.members && r.store.users == s.users && r.store.workspaces == s.workspaces
    ensures r.result.Err? && r.result.error != InvitationExpired ==> r.store == s
    ensures FindInvite(s.invites, Token(token)).None? ==> r == Step(s, Err(InvitationNotFound))
    ensures FindInvite(s.invites, Token(token)).Some? ==>
              var i := FindInvite(s.invites, Token(token)).value;
              var v := s.invites[i];
              && (v.status != Pending ==> r == Step(s, Err(InvitationNoLongerValid)))
              && (v.status == Pending && v.expiresAt < now ==>
                    r == Step(s.(invites := s.invites[i := v.(status := Expired)]), Err(InvitationExpired)))
              && (v.status == Pending && now <= v.expiresAt && (userId !in s.users || !Present(s.users[userId].email)) ==>
                    r == Step(s, Err(UserAccountNotFound)))
              && (v.status == Pending && now <= v.expiresAt && userId in s.users && Present(s.users[userId].email) &&
                  ToLower(s.users[userId].email.value) != ToLower(v.email) ==>
                    r == Step(s, Err(EmailMismatch(v.email))))
              && (r.result.Ok? <==>
                    v.status == Pending && now <= v.expiresAt && userId in s.users && Present(s.users[userId].email) &&
                    ToLower(s.users[userId].email.value) == ToLower(v.email))
              && (r.result.Ok? ==>
                    && r.result.value == v.workspaceId
                    && r.store.members == UpsertMember(s.members, userId, v.workspaceId, v.role)
                    && r.store.invites == s.invites[i := v.(status := Accepted, acceptedAt := Some(now))]
                    && userId in r.store.users && r.store.users[userId].defaultWorkspaceId == Some(v.workspaceId)
                    && r.store.workspaces == s.workspaces
                    && r.store.audit == s.audit + [AuditEntry(Some(v.workspaceId), Some(userId), "workspace.invite.accepted", None,
                                                              map["inviteId" := v.id], now)])
  {
    match FindInvite(s.invites, Token(token))
    case None => Step(s, Err(InvitationNotFound))
    case Some(i) =>
      var v := s.invites[i];
      if v.status != Pending then Step(s, Err(InvitationNoLongerValid))
      else if v.expiresAt < now then Step(s.(invites := s.invites[i := v.(status := Expired)]), Err(InvitationExpired))
      else if userId !in s.users || !Present(s.users[userId].email) then Step(s, Err(UserAccountNotFound))
      else if ToLower(s.users[userId].email.value) != ToLower(v.email) then Step(s, Err(EmailMismatch(v.email)))
      else
        var joined := s.(members := UpsertMember(s.members, userId, v.workspaceId, v.role),
                         invites := s.invites[i := v.(status := Accepted, acceptedAt := Some(now))]);
        var entry := AuditEntry(Some(v.workspaceId), Some(userId), "workspace.invite.accepted", None, map["inviteId" := v.id], now);
        Step(Record(WithDefault(joined, userId, v.workspaceId), entry), Ok(v.workspaceId))
  }

  /** Every invite satisfying `CancelTarget(inviteId, w)` becomes CANCELED (the `updateMany`). */
  function CancelMatching(vs: seq<Invite>, inviteId: InviteId, w: WorkspaceId): (r: seq<Invite>)
    ensures |r| == |vs|
    ensures forall j :: 0 <= j < |vs| ==>
              r[j] == if InviteMatches(vs[j], CancelTarget(inviteId, w)) then vs[j].(status := Canceled) else vs[j]
  {
    if vs == [] then []
    else
      var head := if InviteMatches(vs[0], CancelTarget(inviteId, w)) then vs[0].(status := Canceled) else vs[0];
      [head] + CancelMatching(vs[1..], inviteId, w)
  }

  /**
   * `cancelInvite`: a conditional update on id, workspace and PENDING
   * together; when nothing matched, "Invite not found" with no write, even
   * if the id belongs to another workspace.
   */
  function CancelInvite(s: Store, w: WorkspaceId, actorId: UserId, inviteId: InviteId, now: int): (r: Step<()>)
    ensures r.result.Err? ==> r.store == s
    ensures AssertCanManageWorkspace(s, actorId, w).Err? ==> r.result.Err? && r.result.error != InviteNotFound
    ensures AssertCanManageWorkspace(s, actorId, w).Err? ==> r == Step(s, Err(AssertCanManageWorkspace(s, actorId, w).error))
    ensures AssertCanManageWorkspace(s, actorId, w).Ok? ==>
              (r.result == Err(InviteNotFound) <==> forall j :: 0 <= j < |s.invites| ==> !InviteMatches(s.invites[j], CancelTarget(inviteId, w)))
    ensures AssertCanManageWorkspace(s, actorId, w).Ok? ==>
              (r.result.Ok? <==> exists j :: 0 <= j < |s.invites| && InviteMatches(s.invites[j], CancelTarget(inviteId, w)))
    ensures r.store.members == s.members && r.store.users == s.users && r.store.workspaces == s.workspaces
    ensures |r.store.invites| == |s.invites|
    ensures forall j :: 0 <= j < |s.invites| && !InviteMatches(s.invites[j], CancelTarget(inviteId, w)) ==> r.store.invites[j] == s.invites[j]
    ensures r.result.Ok? ==>
              && (forall j :: 0 <= j < |s.invites| && InviteMatches(s.invites[j], CancelTarget(inviteId, w)) ==>
                    r.store.invites[j] == s.invites[j].(status := Canceled))
              && r.store.audit == s.audit + [AuditEntry(Some(w), Some(actorId), "workspace.invite.canceled", None, map["inviteId" := inviteId], now)]
  {
    match AssertCanManageWorkspace(s, actorId, w)
    case Err(e) => Step(s, Err(e))
    case Ok(_) =>
      if CountInvites(s.invites, CancelTarget(inviteId, w)) == 0 then Step(s, Err(InviteNotFound))
      else
        var entry := AuditEntry(Some(w), Some(actorId), "workspace.invite.canceled", None, map["inviteId" := inviteId], now);
        Step(Record(s.(invites := CancelMatching(s.invites, inviteId, w)), entry), Ok(()))
  }

  // ------------------------------------------------------ default and name

  /** `switchDefaultWorkspace`: only into a workspace where the user is an ACTIVE member; no audit entry. */
  function SwitchDefaultWorkspace(s: Store, userId: UserId, w: WorkspaceId): (r: Step<()>)
    ensures r.result.Err? ==> r.store == s
    ensures FindMember(s.members, ActiveKey(userId, w)).None? ==> r == Step(s, Err(NotMemberOfWorkspace))
    ensures r.result.Ok? <==> FindMember(s.members, ActiveKey(userId, w)).Some? && userId in s.users
    ensures r.result.Ok? ==> r.store == WithDefault(s, userId, w)
    ensures r.store.audit == s.audit && r.store.members == s.members
  {
    if FindMember(s.members, ActiveKey(userId, w)).None? then Step(s, Err(NotMemberOfWorkspace))
    else if userId !in s.users then Step(s, Err(MissingRecord))
    else Step(WithDefault(s, userId, w), Ok(()))
  }

  /**
   * `renameWorkspace`: a manager may rename to a trimmed name at least two
   * UTF-16 code units long; the update fails when the workspace is gone.
   */
  function RenameWorkspace(s: Store, w: WorkspaceId, actorId: UserId, name: string, now: int): (r: Step<Workspace>)
    ensures r.result.Err? ==> r.store == s
    ensures AssertCanManageWorkspace(s, actorId, w).Err? ==> r == Step(s, Err(AssertCanManageWorkspace(s, actorId, w).error))
    ensures AssertCanManageWorkspace(s, actorId, w).Ok? && Utf16Length(Trim(name)) < 2 ==> r == Step(s, Err(NameTooShort))
    ensures AssertCanManageWorkspace(s, actorId, w).Ok? && Utf16Length(Trim(name)) >= 2 ==>
              (r.result.Ok? <==> FindWorkspace(s.workspaces, Id(w)).Some?) &&
              (r.result.Err? ==> r.result.error == MissingRecord)
    ensures r.result.Ok? ==>
              && Utf16Length(Trim(name)) >= 2
              && r.result.value.name == Trim(name)
              && FindWorkspace(s.workspaces, Id(w)).Some?
              && r.store.workspaces == s.workspaces[FindWorkspace(s.workspaces, Id(w)).value := r.result.value]
              && r.result.value == s.workspaces[FindWorkspace(s.workspaces, Id(w)).value].(name := Trim(name))
              && r.store.audit == s.audit + [AuditEntry(Some(w), Some(actorId), "workspace.renamed", Some(w), map["name" := Trim(name)], now)]
    ensures r.store.members == s.members && r.store.invites == s.invites && r.store.users == s.users
  {
    match AssertCanManageWorkspace(s, actorId, w)
    case Err(e) => Step(s, Err(e))
    case Ok(_) =>
      var trimmed := Trim(name);
      if Utf16Length(trimmed) < 2 then Step(s, Err(NameTooShort))
      else match FindWorkspace(s.workspaces, Id(w))
        case None => Step(s, Err(MissingRecord))
        case Some(i) =>
          var renamed := s.workspaces[i].(name := trimmed);
          var entry := AuditEntry(Some(w), Some(actorId), "workspace.renamed", Some(w), map["name" := trimmed], now);
          Step(Record(s.(workspaces := s.workspaces[i := renamed]), entry), Ok(renamed))
  }

  // ------------------------------------------------------- roles and removal

  /**
   * `ensureRoleChangeAllowed`: an ADMIN may neither grant nor revoke OWNER,
   * and an OWNER may be demoted only while another ACTIVE OWNER remains.
   */
  function EnsureRoleChangeAllowed(s: Store, actorRole: Role, target: Membership, nextRole: Role): (r: Option<EngineError>)
    ensures r == Some(OnlyOwnersManageOwners) <==> actorRole == Admin && (nextRole == Owner || target.role == Owner)
    ensures r == Some(MustKeepOwner) <==>
              !(actorRole == Admin && (nextRole == Owner || target.role == Owner)) &&
              target.role == Owner && nextRole != Owner &&
              forall j :: 0 <= j < |s.members| ==> !MemberMatches(s.members[j], OtherActiveOwner(target.workspaceId, target.userId))
    ensures r.None? || r == Some(OnlyOwnersManageOwners) || r == Some(MustKeepOwner)
  {
    if actorRole == Admin && (nextRole == Owner || target.role == Owner) then Some(OnlyOwnersManageOwners)
    else if target.role == Owner && nextRole != Owner &&
            CountMembers(s.members, OtherActiveOwner(target.workspaceId, target.userId)) == 0 then Some(MustKeepOwner)
    else None
  }

  /**
   * `updateMemberRole`. After authorization and the member lookup, an
   * unchanged role returns the membership with no further check and no
   * write; otherwise the role change rules apply, then the update is
   * stored and audited.
   */
  function UpdateMemberRole(s: Store, w: WorkspaceId, actorId: UserId, memberId: UserId, role: Role, now: int): (r: Step<Membership>)
    ensures r.result.Err? ==> r.store == s
    ensures r.store.invites == s.invites && r.store.users == s.users && r.store.workspaces == s.workspaces
    ensures AssertCanManageWorkspace(s, actorId, w).Err? ==> r == Step(s, Err(AssertCanManageWorkspace(s, actorId, w).error))
    ensures AssertCanManageWorkspace(s, actorId, w).Ok? && FindMember(s.members, Key(memberId, w)).None? ==> r == Step(s, Err(MemberNotFound))
    ensures AssertCanManageWorkspace(s, actorId, w).Ok? && FindMember(s.members, Key(memberId, w)).Some? ==>
              var k := FindMember(s.members, Key(memberId, w)).value;
              && (s.members[k].role == role ==> r == Step(s, Ok(s.members[k])))
              && (s.members[k].role != role ==>
                    var verdict := EnsureRoleChangeAllowed(s, AssertCanManageWorkspace(s, actorId, w).value, s.members[k], role);
                    && (verdict.Some? ==> r == Step(s, Err(verdict.value)))
                    && (verdict.None? ==>
                          && r.result == Ok(s.members[k].(role := role))
                          && r.store.members == s.members[k := s.members[k].(role := role)]
                          && r.store.audit == s.audit + [AuditEntry(Some(w), Some(actorId), "workspace.member.role_changed", Some(memberId),
                                                                    map["role" := RoleName(role)], now)]))
  {
    match AssertCanManageWorkspace(s, actorId, w)
    case Err(e) => Step(s, Err(e))
    case Ok(actorRole) =>
      match FindMember(s.members, Key(memberId, w))
      case None => Step(s, Err(MemberNotFound))
      case Some(k) =>
        var membership := s.members[k];
        if membership.role == role then Step(s, Ok(membership))
        else match EnsureRoleChangeAllowed(s, actorRole, membership, role)
          case Some(e) => Step(s, Err(e))
          case None =>
            var updated := membership.(role := role);
            var entry := AuditEntry(Some(w), Some(actorId), "workspace.member.role_changed", Some(memberId),
                                    map["role" := RoleName(role)], now);
            Step(Record(s.(members := s.members[k := updated]), entry), Ok(updated))
  }

  /** `removeMember`: a manager may delete a non-OWNER membership; an OWNER row is never removed. */
  function RemoveMember(s: Store, w: WorkspaceId, actorId: UserId, memberId: UserId, now: int): (r: Step<()>)
    ensures r.result.Err? ==> r.store == s
    ensures r.store.invites == s.invites && r.store.users == s.users && r.store.workspaces == s.workspaces
    ensures AssertCanManageWorkspace(s, actorId, w).Err? ==> r == Step(s, Err(AssertCanManageWorkspace(s, actorId, w).error))
    ensures AssertCanManageWorkspace(s, actorId, w).Ok? && FindMember(s.members, Key(memberId, w)).None? ==> r == Step(s, Err(MemberNotFound))
    ensures FindMember(s.members, Key(memberId, w)).Some? && s.members[FindMember(s.members, Key(memberId, w)).value].role == Owner ==>
              r.result.Err?
    ensures AssertCanManageWorkspace(s, actorId, w).Ok? && FindMember(s.members, Key(memberId, w)).Some? ==>
              (r.result.Ok? <==> s.members[FindMember(s.members, Key(memberId, w)).value].role != Owner) &&
              (r.result.Err? ==> r.result.error == CannotRemoveOwner)
    ensures r.result.Ok? ==>
              var k := FindMember(s.members, Key(memberId, w)).value;
              && FindMember(s.members, Key(memberId, w)).Some?
              && s.members[k].role != Owner
              && r.store.members == RemoveAt(s.members, k)
              && r.store.audit == s.audit + [AuditEntry(Some(w), Some(actorId), "workspace.member.removed", Some(memberId), map[], now)]
  {
    match AssertCanManageWorkspace(s, actorId, w)
    case Err(e) => Step(s, Err(e))
    case Ok(_) =>
      match FindMember(s.members, Key(memberId, w))
      case None => Step(s, Err(MemberNotFound))
      case Some(k) =>
        if s.members[k].role == Owner then Step(s, Err(CannotRemoveOwner))
        else
          var entry := AuditEntry(Some(w), Some(actorId), "workspace.member.removed", Some(memberId), map[], now);
          Step(Record(s.(members := RemoveAt(s.members, k)), entry), Ok(()))
  }
}

=== FILE: wrappers.dfy ===
/** Failure-compatible wrappers shared by every module of the model. */
module Wrappers {

  /** An optional value: the model's stand-in for `null` / `undefined`. */
  datatype Option<+T> = None | Some(value: T) {

    predicate IsFailure() {
      None?
    }

    function PropagateFailure<U>(): Option<U>
      requires None?
    {
      None
    }

    function Extract(): T
      requires Some?
    {
      value
    }

    function GetOr(default: T): T {
      match this
      case Some(v) => v
      case None => default
    }
  }

  /** The outcome of an operation that can throw: a value or the error it raised. */
  datatype Result<+T, +E> = Ok(value: T) | Err(error: E) {

    predicate IsFailure() {
      Err?
    }

    function PropagateFailure<U>(): Result<U, E>
      requires Err?
    {
      Err(error)
    }

    function Extract(): T
      requires Ok?
    {
      value
    }
  }
}
